=== FILE: README.md ===
# Santa-Bot firmware core, modelled in Dafny

The Santa-Bot firmware runs on an ESP32 board. It talks to a voice assistant
and takes commands over Bluetooth LE and from an MCP (Model Context Protocol)
JSON-RPC server. It updates itself over the air, shows chat bubbles and
emotions on an LCD, takes photos and uploads them for explanation, and drives
two motors through scripted "scenes". Two host-side Python scripts belong to
the core too: one plays `.p3` audio containers, the other generates the
language header.

This project models the deterministic logic of those pieces over abstract
inputs. I/O, the radio, HTTP, flash, LVGL and threads are left out. Every
operation is a pure function, or a method with a loop, over immutable
datatypes. Its contracts state what the firmware promises.

Modules, one per file:

| file | module | models |
|---|---|---|
| common.dfy | Common | `Option`, C integer conversions, decimal text, ASCII case, string joins |
| json.dfy | Json | the cJSON values the firmware reads, and `cJSON_GetObjectItem` lookup |
| json_text.dfy | JsonText | the BLE sender's JSON string escaper and its RFC 8259 unescaping |
| ble_uuid.dfy | BleUuid | the 128-bit service and characteristic UUID byte arrays |
| ble_receive.dfy | BleReceive | inbound BLE commands: text commands and chunk reassembly |
| ble_send.dfy | BleSend | outbound BLE responses: chunk splitting, MTU adjustment, envelopes |
| mcp_server.dfy | McpServer | JSON-RPC envelope checks, dispatch, tool registry, `tools/list` paging, argument binding |
| ota.dfy | Ota | version parsing and comparison, the update decision, activation, the download and its checks |
| p3.dfy | P3 | the `.p3` packet reader of both player scripts, with stop and pause |
| p3_player.dfy | P3Player | the GUI player's play/pause/stop/loop state and playlist removal |
| string_order.dfy | StringOrder | Python's string order and `sorted` |
| gen_lang.dfy | GenLang | the language header generator |
| santa.dfy | Santa | rejection-sampled randomness, motor scenes with a stop flag, the control server and buttons |
| camera.dfy | Camera | the preview buffer, byte swap, frame hand-back, the multipart upload body, `Explain` |
| lcd.dfy | LcdDisplay | theme names, emotion icons, chat history cap and collapse, bubble width, preview zoom |

Conventions:
- A C++ `std::string` or JSON text is a `string`, one character per byte.
- `int` values the firmware reads through cJSON's `valueint` are saturated to
  32 bits.
- `uint32_t` arithmetic is written out modulo 2^32.
- Where a finding below shows the source wrong, both versions are modelled:
  what the firmware or script does, and a corrected definition. A row says
  when it is about the corrected one.
- What the environment decides is an input: an allocation that fails, a status
  code, the reads of a download, the draws of `esp_random`, or the stop flag a
  scene sees at each 100 ms check.

## Model

| member | source | states |
|---|---|---|
| `BleUuid.ServiceUuidMatchesText` | main/protocols/ble_protocol.h:12-16 | the service UUID array has 16 bytes and, read in reverse, is the UUID in its comment (formatting and parsing agree) |
| `BleUuid.CharacteristicUuidMatchesText` | main/protocols/ble_protocol.h:13-20 | the characteristic UUID array has 16 bytes and, read in reverse, is the UUID in its comment |
| `BleUuid.ParseFormatUuid` | main/protocols/ble_protocol.h:12-20 | the 8-4-4-4-12 text of any 16 bytes parses back to those bytes |
| `BleUuid.ParseUuid` | main/protocols/ble_protocol.h:12-13 | UUID text parses exactly when it is well-formed 8-4-4-4-12 hex, giving 16 bytes |
| `BleReceive.Fresh` | main/protocols/ble_protocol.cc:41-50 | new chunk storage has `total` empty slots and nothing received |
| `BleReceive.ReadChunkFields` | main/protocols/ble_protocol.cc:83-94 | a chunk is read exactly when `id`, `index` and `total` are numbers and `data` is a string; the numbers become `uint32_t` and the data is carried unchanged |
| `BleReceive.EnvelopeFields` | main/protocols/ble_protocol.cc:83-94 | the sender's chunk envelope reads back as its fields when they fit an `int` |
| `BleReceive.InvalidChunkLeavesStore` | main/protocols/ble_protocol.cc:83-89 | a chunk with a missing or mistyped field produces no event and leaves the store exactly as it was |
| `BleReceive.WithEntry` | main/protocols/ble_protocol.cc:100-107 | storage is created before the index is checked: an existing entry is kept, a new one is sized from this chunk's total |
| `BleReceive.BadIndexStoresNothing` | main/protocols/ble_protocol.cc:112-117 | an index at or beyond the chunk's total stores no data; the only change is the entry for the id |
| `BleReceive.EmptyChunkCountsAgain` | main/protocols/ble_protocol.cc:119-129 | a duplicate is a non-empty slot, so the same empty chunk sent twice completes a two-chunk message |
| `BleReceive.ValidChunkPlaced` | main/protocols/ble_protocol.cc:119-147 | with a valid index an empty slot is filled and counted; completion joins the slots in index order and erases the entry; a filled slot changes nothing |
| `BleReceive.AcceptChunk` | main/protocols/ble_protocol.cc:100-147 | the corrected reassembly step: an out-of-range index also checks the stored slot count, and completion removes only this id |
| `BleReceive.CheckedAgreesWithFirmware` | main/protocols/ble_protocol.cc:101-117 | where the firmware stays inside the slot vector, the corrected step behaves exactly like the firmware |
| `BleReceive.FirmwareSlotOverrun` | main/protocols/ble_protocol.cc:100-117 | from an empty store, a chunk with index 5 of 1 is rejected only after creating one-slot storage for its id, and a later chunk with index 1 of 2 for that id makes the firmware address slot 1 of the one-slot vector |
| `BleReceive.CheckedStaysInBounds` | main/protocols/ble_protocol.cc:112-129 | the corrected step only stores or completes with an index inside the stored total |
| `BleReceive.AcceptChunkKeepsGood` | main/protocols/ble_protocol.cc:100-147 | the corrected step: every stored entry keeps a consistent count of filled slots and is still waiting for a chunk |
| `BleReceive.AsWrittenStoreAgrees` | main/protocols/ble_protocol.cc:100-147 | the firmware's step leaves the same store as the corrected step; it leaves the slot vector exactly when the index is below this chunk's total but not below the stored slot count, and its outcome is otherwise the corrected step's |
| `BleReceive.AcceptChunkAsWrittenKeepsGood` | main/protocols/ble_protocol.cc:100-147 | the firmware's step keeps every stored entry consistent and waiting for a chunk |
| `BleReceive.ProcessKeepsGood` | main/protocols/ble_protocol.cc:55-160 | the firmware's whole command handler, with its own reassembly step and re-processing of reassembled messages, keeps the store consistent |
| `BleReceive.InOrderDeliveryReassembles` | main/protocols/ble_protocol.cc:131-147 | the sender's chunks delivered in order to the firmware's step store all but the last; the last completes the message with their concatenation and frees the storage |
| `BleReceive.TextCommand` | main/protocols/ble_protocol.cc:534-545 | a text command is the object `{"text": text, "type": "text_command"}` |
| `BleReceive.NonJsonIsTextCommand` | main/protocols/ble_protocol.cc:59-70 | text that is not JSON goes unchanged to the command callback and, wrapped as a text command, to the JSON handler; the store is untouched |
| `BleReceive.PlainJsonPassesThrough` | main/protocols/ble_protocol.cc:157-160 | JSON without a `chunk` member is handed to both callbacks as it is |
| `BleSend.HeaderFits` | main/protocols/ble_protocol.cc:615-618 | a chunk header of `uint32_t` numbers always fits the 100-byte `snprintf` buffer |
| `BleSend.EffectiveMtu` | main/protocols/ble_protocol.cc:596-600 | the payload limit is the MTU (23 when unknown) less 10, as a 32-bit `size_t` |
| `BleSend.PieceCountBound` | main/protocols/ble_protocol.cc:607-612 | piece `i` starts inside the response exactly when `i` is below the chunk count |
| `BleSend.Piece` | main/protocols/ble_protocol.cc:607-612 | piece `i` is the non-empty slice of at most `step` bytes starting at `i * step` |
| `BleSend.PiecesConcat` | main/protocols/ble_protocol.cc:607-612 | the pieces concatenate back to the response |
| `BleSend.SentDataAsWritten` | main/protocols/ble_protocol.cc:645-690 | the data a chunk carries is a prefix of its 120-byte piece (shortened when the envelope exceeds the MTU) |
| `BleSend.ChunkedAsWritten` | main/protocols/ble_protocol.cc:592-712 | the firmware sends one notification per 120-byte piece |
| `BleSend.SendChunkedAsWritten` | main/protocols/ble_protocol.cc:604-712 | the send loop produces exactly the firmware's notification list, one per piece |
| `BleSend.ChunkAsWritten` | main/protocols/ble_protocol.cc:614-704 | one pass of the loop sends the envelope of the chunk's (possibly shortened) data |
| `BleSend.WideMtuSendsEverything` | main/protocols/ble_protocol.cc:607-690 | for text without control bytes and an ATT MTU of 325 or more (room for the worst-case envelope of two escaped 120-byte pieces), nothing is shortened and the data concatenate back to the response |
| `BleSend.NarrowMtuDropsData` | main/protocols/ble_protocol.cc:648-690 | with MTU 100 a 121-byte response loses bytes 21 to 119 |
| `BleSend.ChunkStep` | main/protocols/ble_protocol.cc:648-686 | the corrected piece size is between 1 and 120, is 120 exactly when the worst-case envelope fits, and otherwise fits the worst case itself |
| `BleSend.Chunked` | main/protocols/ble_protocol.cc:592-712 | the corrected sender sends one envelope per equal-sized piece |
| `BleSend.ChunkedCarriesEverything` | main/protocols/ble_protocol.cc:607-612 | the corrected pieces carry every byte exactly once, in order |
| `BleSend.ChunkedFits` | main/protocols/ble_protocol.cc:648-686 | every corrected envelope of text without control bytes fits the effective MTU |
| `BleSend.ChunkedAgreesOnWideMtu` | main/protocols/ble_protocol.cc:648-686 | for text without control bytes and an ATT MTU of 325 or more, the corrected sender sends exactly the firmware's notifications |
| `BleSend.SendResponse` | main/protocols/ble_protocol.cc:555-590 | the firmware's send: nothing is sent without a connection; up to 120 bytes go out verbatim; longer responses become one notification per 120-byte piece under the next message id, which steps modulo 2^32 |
| `BleSend.SendResponseReassembles` | main/protocols/ble_protocol.cc:555-712 | on a connected link with an ATT MTU of 325 or more, what the firmware sends for text without control bytes, read back and fed in order to the receiver, stores every chunk but the last and completes the message with the whole response, leaving the store as it was |
| `BleSend.SendResponseCorrected` | main/protocols/ble_protocol.cc:555-590 | the corrected send: the same connection and 120-byte cases, with longer responses cut into pieces sized for the MTU |
| `BleSend.SendResponseCorrectedReassembles` | main/protocols/ble_protocol.cc:555-712 | on any MTU, what the corrected send produces reassembles at the receiver into the whole response |
| `BleSend.ReadChunkMessageOf` | main/protocols/ble_protocol.cc:615-645 | every envelope the sender writes reads back as the id, index, total and data it was made from |
| `BleSend.ChunksReassemble` | main/protocols/ble_protocol.cc:592-712 | the corrected envelopes, read back and fed in order to the receiver, complete the message with the whole response |
| `JsonText.ReadEscaped` | main/protocols/ble_protocol.cc:621-643 | escaped text followed by a quote reads back as the original bytes and the text after the quote |
| `JsonText.UnescapeEscape` | main/protocols/ble_protocol.cc:621-643 | RFC 8259 unescaping inverts the escaper |
| `JsonText.EscapeGrowth` | main/protocols/ble_protocol.cc:621-643 | escaping grows text at most sixfold, and at most twofold without control bytes |
| `JsonText.EscapeIsLiteralSafe` | main/protocols/ble_protocol.cc:621-643 | the escaped text holds no raw control byte, and a reader that takes the character after each backslash along never meets a quote in it |
| `McpServer.FindTool` | main/mcp_server.cc:309-318 | the lookup finds the first tool with the name, or none exactly when no tool has it |
| `McpServer.AddTool` | main/mcp_server.cc:110-119 | a tool whose name is registered is not added; otherwise it is appended |
| `McpServer.AddToolKeepsUnique` | main/mcp_server.cc:110-123 | registering keeps names unique and leaves the tool registered |
| `McpServer.CommonToolsFirst` | main/mcp_server.cc:31-108 | after `AddCommonTools` the common tools come first, in order, followed by the earlier tools in their earlier order |
| `McpServer.CommonToolsUniqueWhenDisjoint` | main/mcp_server.cc:105-107 | the earlier tools are appended unchecked, so names stay unique exactly when no earlier tool has a common tool's name |
| `McpServer.PageEndMaximal` | main/mcp_server.cc:276-286 | the listing loop takes the longest run of tools that keeps the 8000-byte budget, counting 30 bytes of slack |
| `McpServer.PageStart` | main/mcp_server.cc:261-274 | a page starts at the first tool without a cursor, at the first tool the cursor names otherwise, and nowhere for an unknown cursor |
| `McpServer.PageIsLongestFit` | main/mcp_server.cc:257-286 | a page is the longest run from its start that fits the budget |
| `McpServer.LongestFitIsPageStop` | main/mcp_server.cc:276-286 | a run from the start that fits while one more tool would not is unique, and the listing loop stops at its end |
| `McpServer.ListingJoins` | main/mcp_server.cc:276-290 | the page text is the JSON of its tools joined by commas, the loop's trailing comma removed |
| `McpServer.ToolsList` | main/mcp_server.cc:257-306 | the reply carries the request's id, an empty registry gives an empty page without a cursor, and a result opens the `tools` array; what a page holds is stated by `McpServer.ToolsListPage` |
| `McpServer.ToolsListPage` | main/mcp_server.cc:257-306 | with `e` the end of the longest run of tools from the cursor's tool that keeps the budget, a non-empty run is listed exactly, as its tools' JSON joined by commas, and the first tool left out is `nextCursor` when it has a name; an empty run of a non-empty registry is the payload error naming that tool |
| `McpServer.UnknownCursorFails` | main/mcp_server.cc:292-297 | a cursor naming no tool of a non-empty list gives an error reply |
| `McpServer.OversizedToolFails` | main/mcp_server.cc:276-297 | a first tool too long for the budget gives the payload-size error naming it |
| `McpServer.ArgumentValue` | main/mcp_server.cc:324-336 | an argument is taken only from an object member of the property's type; booleans are `valueint == 1` |
| `McpServer.BindSpec` | main/mcp_server.cc:320-343 | binding fails exactly when a required property has no valid value and names the first one; otherwise each property holds its value or its default |
| `McpServer.DoToolCall` | main/mcp_server.cc:308-360 | an unknown tool or a missing argument is an error reply; otherwise the tool runs with the bound arguments and a stack of at least 4096 bytes |
| `McpServer.ToolCallRuns` | main/mcp_server.cc:320-360 | a registered tool runs exactly when its arguments bind, with the requested stack size when that is at least 4096 |
| `McpServer.InitializeResult` | main/mcp_server.cc:195-199 | the `initialize` result opens with protocol version 2024-11-05 and the `serverInfo` name member, and closes the `serverInfo` and result objects |
| `McpServer.InitializeNamesServer` | main/mcp_server.cc:195-199 | a JSON reader finds the board name as the `serverInfo` name and the firmware version as its version, when neither needs escaping |
| `McpServer.VisionSettings` | main/mcp_server.cc:135-193 | the camera gets explain settings exactly when `params`, `capabilities` and `vision` are objects, `vision.url` is a string and the board has a camera; they are the URL and `vision.token`, or an empty token when that is not a string |
| `McpServer.ParseMessage` | main/mcp_server.cc:125-133 | text that does not parse is dropped without a reply |
| `McpServer.HandleMessage` | main/mcp_server.cc:154-186 | a message is answered exactly when it is a request: `jsonrpc` is "2.0", `method` is a string not starting with "notifications", `params` is absent or an object, and `id` is a number |
| `McpServer.NotificationsNeverReply` | main/mcp_server.cc:169-172 | a method starting with "notifications" is never answered, even without an id |
| `McpServer.RequestsGetTheirId` | main/mcp_server.cc:181-237 | every reply carries the request's id read through `valueint` |
| `McpServer.MethodDispatch` | main/mcp_server.cc:188-237 | `initialize` reports protocol 2024-11-05; an unknown method gets "Method not implemented: " and its name |
| `McpServer.ToolsCallErrors` | main/mcp_server.cc:209-233 | `tools/call` checks params, name, arguments and stackSize in that order, and the stack defaults to 6144 |
| `McpServer.RenderErrorAsWrittenBreaks` | main/mcp_server.cc:248-255 | the firmware's error payload for a method named `"` ends its message string early |
| `McpServer.RenderErrorReadsBack` | main/mcp_server.cc:248-255 | the corrected error payload's message reads back as the message, whatever it holds |
| `McpServer.RenderErrorAgrees` | main/mcp_server.cc:248-255 | for messages with nothing to escape the corrected payload is the firmware's |
| `Ota.Split` | main/ota.cc:475-485 | no segment `getline` reads on '.' contains the separator |
| `Ota.JoinSplit` | main/ota.cc:475-485 | joining the segments gives the text back unless it ended in a separator |
| `Ota.SplitJoin` | main/ota.cc:475-485 | splitting joined separator-free segments gives them back when the last is not empty |
| `Ota.Stoi` | main/ota.cc:481 | `std::stoi` skips white space and reads a sign and at least one digit within `int`; otherwise it throws |
| `Ota.StoiNeedsDigits` | main/ota.cc:481 | text without digits makes `std::stoi` throw |
| `Ota.StoiDecimal` | main/ota.cc:481 | decimal text of an `int` reads back as that number |
| `Ota.ParseSegments` | main/ota.cc:475-485 | `ParseVersion` converts every segment in order and throws when one does not convert |
| `Ota.ParseFormatVersion` | main/ota.cc:475-485 | a formatted version parses back to itself |
| `Ota.IsNewerIsAbove` | main/ota.cc:487-500 | the firmware's comparison is the lexicographic order with a longer version above its prefix |
| `Ota.NotNewerThanItself` | main/ota.cc:491-499 | no version is newer than itself |
| `Ota.NewerIsTotalAndAsymmetric` | main/ota.cc:491-499 | of two different versions exactly one is newer |
| `Ota.IsNewVersionAvailable` | main/ota.cc:487-500 | the decision on version text is made exactly when both versions parse |
| `Ota.NewVersionExamples` | main/ota.cc:224-225 | 0.1.0 is newer than 0.0.1, and a longer version with the same start is newer |
| `Ota.CheckFirmware` | main/ota.cc:211-240 | without a firmware section no update is offered |
| `Ota.CheckFirmwareDecides` | main/ota.cc:211-240 | an update is offered exactly when version and URL are strings and the version is newer or `force` is 1 |
| `Ota.ActivationUrl` | main/ota.cc:545-550 | the activation URL appends "activate" after exactly one '/' |
| `Ota.Activate` | main/ota.cc:539-573 | without a challenge nothing is sent and activation fails; 202 means not yet, 200 success, anything else failure |
| `Ota.Upgrade` | main/ota.cc:452-468 | at most three attempts, stopping at the first success, and true exactly when some attempt succeeded |
| `Ota.DownloadAsWrittenLosesFirstRead` | main/ota.cc:339-392 | with reads of 100 and 200 bytes and every flash call succeeding, the firmware's loop counts 300 bytes but writes only the last 200, so the written image does not start with the image's first byte |
| `Ota.DownloadAsWrittenWrites` | main/ota.cc:339-392 | with the firmware's loop nothing is written before the OTA write begins; after that the partition holds the last bytes counted, missing fewer than 288 at the front, and all of them when the first read alone completes the image header |
| `Ota.DownloadBufferedWritesEverything` | main/ota.cc:339-392 | with the buffered write the partition holds exactly the bytes downloaded |
| `Ota.UpgradeChecks` | main/ota.cc:296-429 | an accepted download had a non-zero length that fits the partition, got its read buffer, was read completely and began the OTA write |
| `Ota.UpgradeWritesImage` | main/ota.cc:301-429 | with the corrected, buffered loop, an accepted upgrade wrote the whole announced image to a partition large enough for it |
| `Ota.UpgradeAsWrittenWrites` | main/ota.cc:301-429 | an upgrade the firmware accepts read exactly the announced, non-zero length, which fits the partition; the partition holds its last bytes, missing fewer than 288 at the front, and all of it when the first read has at least 288 bytes |
| `Ota.UpgradeRejects` | main/ota.cc:302-446 | a download that fails any acceptance check fails the upgrade |
| `P3.DeclaredLength` | scripts/p3_tools/play_p3.py:40 | the payload length is the big-endian 16-bit number in header bytes 2 and 3 |
| `P3.NextPacket` | scripts/p3_tools/play_p3.py:35-45 | one pass reads a header and its payload, or stops reading |
| `P3.Parse` | scripts/p3_tools/play_p3.py:33-54 | the packets of a file, in file order |
| `P3.ReadEncodedPacket` | scripts/p3_tools/play_p3.py:35-54 | a stored packet is read back whole, and reading continues after it |
| `P3.ParseEncodeRoundTrip` | scripts/p3_tools/play_p3.py:33-54 | storing packets with non-empty payloads of at most 65535 bytes and reading them back gives the same packets in order |
| `P3.EncodeParse` | scripts/p3_tools/play_p3.py:33-54 | every file is its packets followed by the bytes where reading stopped |
| `P3.ShortHeaderEnds` | scripts/p3_tools/play_p3.py:35-38 | fewer than four bytes end reading without a packet |
| `P3.TruncatedPayloadDropped` | scripts/p3_tools/play_p3.py:43-46 | a payload shorter than declared is dropped and ends reading |
| `P3.ZeroLengthEnds` | scripts/p3_tools/play_p3.py:44-45 | a declared length of zero ends reading |
| `P3.PlayedArePrefix` | scripts/p3_tools/p3_gui_player.py:37-57 | the stoppable player plays a prefix of the packets the plain reader finds |
| `P3.UninterruptedPlayParses` | scripts/p3_tools/p3_gui_player.py:37-57 | without stop or pause the GUI player reads exactly what the plain reader reads |
| `P3.PauseReadsNothing` | scripts/p3_tools/p3_gui_player.py:41-43 | while paused no packet is read |
| `P3.StopEndsPlay` | scripts/p3_tools/p3_gui_player.py:38-39 | a set stop event ends playback before the next header |
| `P3Player.ButtonsKeepConsistent` | scripts/p3_tools/p3_gui_player.py:149-225 | Play, Pause and Stop keep "paused only while playing" and the pause event in step with the flag |
| `P3Player.PlayCases` | scripts/p3_tools/p3_gui_player.py:149-161 | Play on an empty playlist or while playing changes nothing; while paused it only resumes |
| `P3Player.PauseTwice` | scripts/p3_tools/p3_gui_player.py:209-217 | pausing twice while playing restores the player |
| `P3Player.StopSettles` | scripts/p3_tools/p3_gui_player.py:219-225 | Stop leaves the player neither playing nor paused, with the stop event set; a second Stop changes nothing |
| `P3Player.PlayOrder` | scripts/p3_tools/p3_gui_player.py:171-207 | every index played lies inside the non-empty playlist, and at most one file is played per round |
| `P3Player.OneFileWithoutLoop` | scripts/p3_tools/p3_gui_player.py:194-198 | without loop playback at most one file is played |
| `P3Player.LoopWraps` | scripts/p3_tools/p3_gui_player.py:200-203 | with loop playback each file is followed by the next, and the last by the first |
| `P3Player.LoopPlaysEveryRound` | scripts/p3_tools/p3_gui_player.py:171-207 | with loop playback and no stop a file is played in every round |
| `P3Player.PopAllKeepsRest` | scripts/p3_tools/p3_gui_player.py:227-235 | removal deletes exactly the selected entries and keeps the others in order |
| `P3Player.PopAllLength` | scripts/p3_tools/p3_gui_player.py:233-234 | the playlist shrinks by the number of selected entries |
| `StringOrder.Sort` | scripts/gen_lang.py:76-77 | `sorted` returns a sorted permutation of its input |
| `StringOrder.SortedUnique` | scripts/gen_lang.py:76-77 | two sorted permutations of the same strings are equal, so the sorted order is determined |
| `GenLang.UnquoteQuoteEscape` | scripts/gen_lang.py:45 | removing the inserted backslashes gives the value back |
| `GenLang.QuotesPreceded` | scripts/gen_lang.py:45 | every double quote of the escaped value has a backslash before it |
| `GenLang.QuoteEscapeBreaksLiteral` | scripts/gen_lang.py:45-46 | the value `ab\` makes a C literal that never closes |
| `GenLang.ReadCEscaped` | scripts/gen_lang.py:45-46 | the corrected C escaping reads back as the value up to the closing quote |
| `GenLang.EscapesAgree` | scripts/gen_lang.py:45 | for values without backslashes and line breaks both escapings agree |
| `GenLang.StringLineDeclares` | scripts/gen_lang.py:44-46 | the corrected string line, with C escaping, declares the upper-cased key, and its literal reads back as the value |
| `GenLang.StringLineAsWritten` | scripts/gen_lang.py:44-46 | the script's string line is a declaration of the upper-cased key; removing the inserted backslashes from its literal gives the value, and a C reader reads the value back when it holds no backslash or line break |
| `GenLang.SoundBlockView` | scripts/gen_lang.py:49-58 | a sound's block declares `P3_<BASE>` with the base name upper-cased |
| `GenLang.SoundBlockStart` | scripts/gen_lang.py:49-58 | a sound's block binds the view to `_binary_<base>_p3_start` |
| `GenLang.SoundBlockEnd` | scripts/gen_lang.py:49-58 | a sound's block binds the view to `_binary_<base>_p3_end` |
| `GenLang.SoundBlocksExactly` | scripts/gen_lang.py:49-70 | a block is emitted for exactly the `.p3` files |
| `GenLang.FontMacro` | scripts/gen_lang.py:75 | the font macro has the code's length, with each '-' as '_' and every other character lower-cased |
| `GenLang.FontMacroEitherOrder` | scripts/gen_lang.py:75 | replacing '-' and lower-casing give the same macro in either order |
| `GenLang.FontMacroIdempotent` | scripts/gen_lang.py:75 | a font macro is its own font macro |
| `GenLang.GenerateRejects` | scripts/gen_lang.py:36-39 | a file without `language` or `strings` is rejected first, then one whose language has no type |
| `GenLang.GenerateNames` | scripts/gen_lang.py:73-75 | with any value escaping, the script's included, the header keeps the language code verbatim and derives the font macro from it |
| `GenLang.GenerateStrings` | scripts/gen_lang.py:42-77 | with any value escaping, the script's included, the header holds, sorted, exactly one line per string entry, made with that escaping |
| `GenLang.GenerateSounds` | scripts/gen_lang.py:49-77 | with any value escaping, the header holds, sorted, the blocks of the sound files of both directories |
| `GenLang.GenerateIgnoresOrder` | scripts/gen_lang.py:44-77 | with any value escaping, the header does not depend on the order of the string entries |
| `GenLang.Render` | scripts/gen_lang.py:73-78 | the header text opens with the banner and the `#ifndef` of the font macro, declares the language code, holds every string line and every sound block, and closes both namespaces |
| `Santa.RejectionBound` | main/boards/HeySanta/HeySanta.cc:139-141 | the rejection bound is the largest multiple of the range not above `UINT32_MAX` |
| `Santa.Int32RoundTrip` | main/boards/HeySanta/HeySanta.cc:140 | an `int32_t` stored into `uint32_t` reads back unchanged |
| `Santa.UnbiasedRandomRange` | main/boards/HeySanta/HeySanta.cc:139-147 | the result comes from the first draw below the bound and lies in [min, max] |
| `Santa.UnbiasedRandom3` | main/boards/HeySanta/HeySanta.cc:130-137 | the result comes from the first draw below `UINT32_MAX` and is 0, 1 or 2 |
| `Santa.AcceptedUniform` | main/boards/HeySanta/HeySanta.cc:139-147 | every result comes from the same number of accepted draws |
| `Santa.Random3Uniform` | main/boards/HeySanta/HeySanta.cc:130-137 | for range 3 each result comes from 1431655765 draws |
| `Santa.ShakeBody` | main/boards/HeySanta/HeySanta.cc:150-166 | motor A runs at 100 for 90 checks; a stop halts both motors and clears the flag; motor A always ends at 0 |
| `Santa.ShakeHipsSpecial` | main/boards/HeySanta/HeySanta.cc:169-197 | motor B runs at 50, then 100, for 50 checks each and ends at 0 by completion or stop |
| `Santa.Scene9c5` | main/boards/HeySanta/HeySanta.cc:207-251 | three cycles of a check and three 15-check phases with motor A at 100, showing neutral, happy, neutral |
| `Santa.StopAt9c5` | main/boards/HeySanta/HeySanta.cc:207-251 | a stop at any check halts both motors and clears the flag, showing that check's emotion |
| `Santa.Scene36f5` | main/boards/HeySanta/HeySanta.cc:351-367 | a stop during the 20-check wait only clears the flag; otherwise the body shakes |
| `Santa.RunScene` | main/boards/HeySanta/HeySanta.cc:200-205 | a scene clears the flag on entry, shows its emotion, then runs its motion |
| `Santa.FindScene` | main/boards/HeySanta/HeySanta.cc:556-635 | the scene table entry with the id, if any |
| `Santa.SceneIdsDistinct` | main/boards/HeySanta/HeySanta.cc:556-635 | the twenty scene ids are distinct |
| `Santa.SceneDispatch` | main/boards/HeySanta/HeySanta.cc:546-645 | each listed id runs exactly its scene; an unknown id or a missing one changes nothing and says so |
| `Santa.StopHaltsShake` | main/boards/HeySanta/HeySanta.cc:648-654 | a stop seen during a shake leaves both motors stopped |
| `Santa.ServerStartStop` | main/boards/HeySanta/HeySanta.cc:734-769 | start is a no-op while a handle exists and stop without one; both keep handle and flag in step |
| `Santa.WakeToggles` | main/boards/HeySanta/HeySanta.cc:771-830 | the wake button stops an active server and otherwise starts one only with Wi-Fi up; the boot button only starts |
| `Santa.WakeTwice` | main/boards/HeySanta/HeySanta.cc:791-830 | pressing wake twice with Wi-Fi up and a working start returns the server to where it was |
| `Camera.MakePreview` | main/boards/common/esp32_camera.cc:33-67 | the five supported sizes get their dimensions with stride 2w and size 2wh; any other size gets size 0 and no buffer |
| `Camera.PreviewAtMostSvga` | main/boards/common/esp32_camera.cc:33-62 | no preview is larger than SVGA's 960000 bytes |
| `Camera.Bswap16` | main/boards/common/esp32_camera.cc:116-126 | the byte swap exchanges the two bytes of a 16-bit word |
| `Camera.Bswap16Involution` | main/boards/common/esp32_camera.cc:116-126 | swapping twice gives the word back |
| `Camera.SwapPixels` | main/boards/common/esp32_camera.cc:116-126 | over len/2 pixels, the two bytes of each pixel are exchanged |
| `Camera.SwapIsBswap16` | main/boards/common/esp32_camera.cc:116-126 | each little-endian pixel word of the result is the swapped word of the frame |
| `Camera.SwapPixelsInvolution` | main/boards/common/esp32_camera.cc:116-126 | swapping the pixels twice gives back the whole pixels of the frame |
| `Camera.WritePreview` | main/boards/common/esp32_camera.cc:116-126 | the preview buffer holds the swapped frame, and the rest of the buffer is unchanged |
| `Camera.FullFrameRoundTrip` | main/boards/common/esp32_camera.cc:116-126 | a frame that fills the buffer is recovered by swapping the preview again |
| `Camera.FrameFitsPreview` | main/boards/common/esp32_camera.cc:33-126 | frames of at most two bytes a pixel at the configured size fit the preview buffer made for that size, which is what `Capture` asks of its frames |
| `Camera.Capture` | main/boards/common/esp32_camera.cc:87-128 | success exactly when both gets succeed; every buffer obtained is returned or held; the preview changes only on success with a buffer and a display |
| `Camera.BodyShape` | main/boards/common/esp32_camera.cc:241-287 | the body is the question part and the file part, each opening with the boundary, and the closing delimiter |
| `Camera.SplitBodyExact` | main/boards/common/esp32_camera.cc:241-287 | the body splits back into its two parts exactly when neither contains the delimiter |
| `Camera.JpegDataStopsAtNull` | main/boards/common/esp32_camera.cc:260-274 | the JPEG section is the queued chunks in order up to the first null chunk |
| `Camera.AuthorizationIffToken` | main/boards/common/esp32_camera.cc:215-224 | the request carries a bearer Authorization header exactly when a token is set |
| `Camera.Explain` | main/boards/common/esp32_camera.cc:186-301 | the firmware's `Explain`: a request is sent exactly when the URL is set and queue and connection succeed, whether or not a frame is held; it goes to the URL with the device, client, token and content-type headers and the multipart body; an empty URL fails first; status 200 returns the response, any failure a failure reply |
| `Camera.ExplainSendsWithoutFrame` | main/boards/common/esp32_camera.cc:184-210 | with no frame held, a set URL and a working queue and connection, the firmware still sends the request instead of an empty-buffer error |
| `Camera.ExplainChecked` | main/boards/common/esp32_camera.cc:184-301 | the corrected `Explain`: with a URL set and no frame held it replies with an error and sends nothing; otherwise it behaves as documented for the firmware |
| `Camera.ExplainCheckedAgrees` | main/boards/common/esp32_camera.cc:184-301 | the corrected and the firmware's `Explain` differ exactly when a URL is set and no frame is held |
| `Camera.ExplainUploadsPhoto` | main/boards/common/esp32_camera.cc:241-301 | a sent request posts the multipart body of the question and the JPEG data to the URL |
| `LcdDisplay.SetTheme` | main/display/lcd_display.cc:910-921 | an unknown name changes nothing; a known one selects its theme and records the name |
| `LcdDisplay.ThemeNames` | main/display/lcd_display.cc:913-921 | only "dark"/"DARK" and "light"/"LIGHT" are theme names |
| `LcdDisplay.SetThemeIdempotent` | main/display/lcd_display.cc:910-921 | setting the same theme twice is setting it once |
| `LcdDisplay.FindEmotionFrom` | main/display/lcd_display.cc:866-882 | the lookup finds the first entry with the name, or none exactly when no entry has it |
| `LcdDisplay.EmotionIcon` | main/display/lcd_display.cc:866-882 | the icon shown is always one of the table's icons |
| `LcdDisplay.SetEmotion` | main/display/lcd_display.cc:836-891 | without the emotion label nothing changes; otherwise the label shows the name's icon |
| `LcdDisplay.EmotionNamesDistinct` | main/display/lcd_display.cc:842-864 | the table has 21 entries with distinct names |
| `LcdDisplay.EmotionLookup` | main/display/lcd_display.cc:842-882 | a listed name shows its icon and any other name the neutral face |
| `LcdDisplay.BubbleWidth` | main/display/lcd_display.cc:475-493 | the width is at most 85% of the screen less 16, at least 20 when that allows, and the text width when it lies between |
| `LcdDisplay.BubbleWidthNearest` | main/display/lcd_display.cc:475-493 | the width is the allowed width nearest the text width |
| `LcdDisplay.BubbleWidthMonotone` | main/display/lcd_display.cc:475-493 | a wider text never gets a narrower bubble |
| `LcdDisplay.NewMessage` | main/display/lcd_display.cc:504-550 | a new bubble has the role's kind and the message text |
| `LcdDisplay.CollapseAt` | main/display/lcd_display.cc:445-461 | a system bubble at the given index is removed, and nothing else changes |
| `LcdDisplay.AddMessage` | main/display/lcd_display.cc:430-461 | the corrected history ends with the new message |
| `LcdDisplay.AddMessageAsWritten` | main/display/lcd_display.cc:430-461 | the firmware's history ends with the new message |
| `LcdDisplay.SetChatMessage` | main/display/lcd_display.cc:421-602 | no content, or empty text, changes nothing; otherwise the firmware's history step adds the new bubble |
| `LcdDisplay.SetChatMessageCorrected` | main/display/lcd_display.cc:421-602 | the same with the corrected history step |
| `LcdDisplay.SetChatMessageShows` | main/display/lcd_display.cc:421-461 | with text, the firmware's history stays within the cap, ends with a bubble of the role's kind holding the text, and keeps a stretch of the earlier bubbles, in order, before it; at the cap it is exactly the old history without its oldest bubble, plus the new one |
| `LcdDisplay.AddMessageBounded` | main/display/lcd_display.cc:416-443 | a history within the cap stays within it |
| `LcdDisplay.AddMessageNoSystemRun` | main/display/lcd_display.cc:445-461 | the corrected history never shows two system bubbles in a row |
| `LcdDisplay.AddMessageKeepsOrder` | main/display/lcd_display.cc:430-461 | in the firmware's history and in the corrected one, the bubbles before the new one are a contiguous stretch of the earlier bubbles, short of at most the first and the last |
| `LcdDisplay.AddMessageAtCap` | main/display/lcd_display.cc:430-461 | at the cap the oldest bubble, child 0, is deleted: as written the history is the rest plus the message; the corrected step also drops a last system bubble before a new system message |
| `LcdDisplay.AddMessageReplaces` | main/display/lcd_display.cc:445-461 | below the cap, a system message after a system message replaces it, and any other message is appended |
| `LcdDisplay.CollapseSkippedAtCap` | main/display/lcd_display.cc:430-461 | at the cap the firmware keeps the old system bubble next to the new one |
| `LcdDisplay.AsWrittenAgreesBelowCap` | main/display/lcd_display.cc:430-461 | below the cap the firmware and the corrected history agree |
| `LcdDisplay.CollapseSkippedExample` | main/display/lcd_display.cc:430-461 | nineteen user bubbles and a system bubble, then a system message, leave two system bubbles in a row |
| `LcdDisplay.Zoom` | main/display/lcd_display.cc:656-669 | the zoom is at most 256 and the scaled image fits the 70% by 50% box |
| `LcdDisplay.ZoomIsLargest` | main/display/lcd_display.cc:656-669 | no larger zoom up to 256 fits the box |
| `LcdDisplay.PreviewFits` | main/display/lcd_display.cc:656-690 | the scaled size fits the box, and the bubble is the scaled width plus 16 |
| `LcdDisplay.SetPreviewImage` | main/display/lcd_display.cc:604-704 | an image bubble is added exactly when content, image and buffer exist, with a zoom at most 256 |

## Left out

- The audio front-end engine and the rest of the audio path are not modelled.
- NimBLE GATT/GAP plumbing, advertising, mbuf allocation and notify calls. Sends are lists of notifications, and they always succeed.
- The cJSON parser. Parsing is a function parameter, and JSON numbers are integers.
- BleSend.ChunkedAgreesOnWideMtu: agreement is proved for text without control bytes and an ATT MTU of 325 or more. Below that, whether the firmware shortens a piece depends on how much its text grows when escaped.
- BleReceive.ProcessCommand: re-processing a reassembled message is bounded by a fuel parameter, and the firmware has no such bound.
- BleReceive.HandleChunk: the firmware's write past the slot vector is undefined behaviour in C++; the model gives it the outcome `SlotOutOfBounds`, with no event and the store unchanged beyond the entry for the id.
- MCP tool-call threading, heap and task checks, thread retries, and the tool callbacks into board, codec and camera. These are concurrency and foreign calls.
- Each tool's own JSON: `McpTool::to_json` is not part of this model, so it is a parameter.
- McpServer.DoToolCall: the "Argument parsing error: " reply is not modelled. It answers an exception thrown while binding (main/mcp_server.cc:343-347), and the `Property` class that throws is in main/mcp_server.h, which is not part of this model.
- McpServer.ToolCallRuns: the range 0 to 100 declared for `volume` and `brightness` (main/mcp_server.cc:51 and :64) is not modelled, so an out-of-range integer binds like any other. How a `Property` enforces its range is in main/mcp_server.h, which is not part of this model.
- McpServer.ToolsList: an empty page is recognised from the page's bounds. The firmware instead looks at the last character left after removing one comma (main/mcp_server.cc:288-292). The two agree when every tool's JSON is non-empty and ends in `}`, as cJSON's output of an object does; a tool JSON that is empty or ends in `[` is not modelled.
- McpServer.InitializeNamesServer: only a board name and version that need no JSON escaping are read back. The firmware pastes both into the text unescaped.
- OTA HTTP, flash, efuse, HMAC, the settings store, the activation payload, and the `server_time` handling, which uses floating point and sets the clock. The download's progress and speed reporting.
- Ota.Upgrade: the outcome of each attempt is an input. The 3 s delay between attempts is not modelled.
- Ota.UpgradeAsWrittenWrites: the results of the flash calls are inputs. ESP-IDF's `esp_ota_write` also checks that the first byte written is the image magic 0xE9, and that check is not modelled.
- Ota.UpgradeChecks: the image header size is taken as 288 bytes. That is ESP-IDF's structure sizes, which are not part of this model.
- Opus decoding, sounddevice, tkinter, threads and sleeps in the P3 scripts. The packet's type byte is kept but not interpreted.
- P3Player.PlayOrder: the loop checkbox is fixed for a whole run. The script re-reads it on every pass. The playlist is also fixed for a run, so the case where `remove_files` empties it during looped playback is not modelled; there the index is reset to 0 and `self.playlist[self.current_index]` (scripts/p3_tools/p3_gui_player.py:181-185) raises `IndexError`.
- gen_lang.py directory listing and file writes. The listings are inputs.
- GenLang.StringLineDeclares: `str.upper()` is modelled on ASCII only. Python upper-cases all of Unicode.
- GenLang.StringLineAsWritten: `str.upper()` of the key is modelled on ASCII only, one character for one. Python upper-cases all of Unicode, and some characters change length.
- GenLang.FontMacro: `str.lower()` is modelled on ASCII only, one character for one. Python lower-cases all of Unicode, and some characters change length (`'İ'.lower()` has two code points).
- GenLang.SoundBlockView: `str.upper()` of the base name is modelled on ASCII only, one character for one. Python upper-cases all of Unicode, and some characters change length (`'ß'.upper()` is `'SS'`).
- Non-string values in the language file. The script would fail on `replace`.
- HeySanta's embedded HTML, the HTTP server and handler registration, the `emotion_handler` and `stop_handler` replies, and the reply texts' emoji.
- The motor duty float math, the real-time delays, the IP notification, and the `dance`, `HeadShakeOnly` and `HipShakeOnly` timing. The stop flag a scene sees is an input, one value per check.
- Camera sensor bring-up, mirror and flip calls, the JPEG encoder thread, the FreeRTOS queue and the HTTP client. Only the body layout and the control flow of `Explain` are modelled.
- Camera.Explain: what the JPEG encoder does with a null frame is not modelled; the chunks it queues are an input, as for a real frame.
- Camera.Capture: it requires the frames to fit the preview buffer. The firmware copies without checking, so a larger frame would overrun it.
- A freshly allocated preview buffer is modelled as zeros.
- LVGL and panel work: port initialisation, widget creation and styling, theme restyling, scrolling, and the chat container layout. The second, non-WeChat `SetPreviewImage` is not modelled.
- LcdDisplay.SetTheme: saving the theme through the settings store is modelled as recording the name.
- LcdDisplay.SetPreviewImage: the image bubble is not counted against the message cap, and `lv_coord_t` overflow of the scaled size is not modelled.
- main/application.cc, main/application.h, main/audio/processors/afe_audio_processor.h, main/boards/common/dual_network_board.h, main/boards/common/press_to_talk_mcp_tool.h and scripts/Image_Converter/lvgl_tools_gui.py. They are context, not core.

## Findings

| source | as written | input that shows it | evidently intended | confidence | as-written member | corrected member |
|---|---|---|---|---|---|---|
| main/protocols/ble_protocol.cc:101-117 | the index is checked against the current chunk's `total`, but the slots were sized by the first chunk of the id | chunk `{id 7, index 5, total 1}` creates one-slot storage for id 7 (lines 101-107) and is then rejected (lines 112-117); `{id 7, index 1, total 2}` then writes slot 1 of that one-slot vector | also reject an index at or beyond the stored slot count | not executed | BleReceive.FirmwareSlotOverrun | BleReceive.CheckedStaysInBounds |
| main/protocols/ble_protocol.cc:607-690 | when the envelope exceeds the MTU the data is cut, but the offset still advances by 120 | MTU 100 and a 121-byte response: bytes 21 to 119 are never sent | choose one piece size that fits the MTU and advance by it | not executed | BleSend.NarrowMtuDropsData | BleSend.ChunkedCarriesEverything |
| main/mcp_server.cc:248-254 | the error message is pasted into the JSON string without escaping | method name `"` gives "Method not implemented: "" and ends the string early | escape the message as a JSON string | not executed | McpServer.RenderErrorAsWrittenBreaks | McpServer.RenderErrorReadsBack |
| main/ota.cc:339-392 | reads before the image header is complete are buffered, then only the read that completes the header is written | reads of 100 and 200 bytes: 300 bytes counted but only the last 200 written, so the first byte written is not the image's first byte, which in a real image is the magic 0xE9. ESP-IDF's `esp_ota_write` most likely refuses that first write, so such a download fails instead of installing a truncated image | write the whole buffered header once the write begins | not executed | Ota.DownloadAsWrittenLosesFirstRead | Ota.DownloadBufferedWritesEverything |
| scripts/gen_lang.py:45-46 | only double quotes are escaped in the C string literal | value `ab\` gives `"ab\"`, a literal that never closes | escape backslashes and line breaks too | not executed | GenLang.QuoteEscapeBreaksLiteral | GenLang.ReadCEscaped |
| main/display/lcd_display.cc:430-461 | the system-message collapse uses the child count taken before the cap deletion | 19 user bubbles and a system bubble (cap 20), then a system message: two system bubbles in a row | take the last child after the deletion | not executed | LcdDisplay.CollapseSkippedAtCap | LcdDisplay.AddMessageNoSystemRun |
| main/boards/common/esp32_camera.cc:184-210 | the documentation promises an error reply when the camera buffer is empty, but `fb_` is never tested and is handed to `frame2jpg_cb` as it is | `Explain` called before any capture, with the URL set: the encoder is started on a null frame, and the connection is opened and the first parts are written | reply with an error before encoding when no frame is held | not executed | Camera.ExplainSendsWithoutFrame | Camera.ExplainChecked |

=== FILE: ble_receive.dfy ===
/** The inbound side of the BLE command channel: a command arrives as one
    write to the characteristic; a JSON envelope `{"chunk": {...}}` carries
    one piece of a longer command, and pieces are collected per message id
    until all of them have arrived. */
module BleReceive {
  import opened Common
  import opened Json

  /** The reassembly slots of one message. The slot vector is sized once, from
      the `total` of the first chunk seen for the id; an empty slot counts as
      not yet received. */
  datatype ChunkData = ChunkData(slots: seq<string>, received: nat)
  {
    function Total(): nat { |slots| }
  }

  type Store = map<nat, ChunkData>

  /** The fields of a chunk envelope after the `(uint32_t)valueint` casts. */
  datatype ChunkFields = ChunkFields(id: nat, index: nat, total: nat, data: string)

  /** What one chunk did to the store. */
  datatype ChunkResult =
    | InvalidFormat
    | IndexOutOfRange
    | SlotOutOfBounds
    | Duplicate
    | Stored
    | Completed(message: string)

  /** What the command channel hands on: the raw text to the command callback,
      and a JSON object to the protocol's JSON handler. */
  datatype Event = CommandText(text: string) | JsonCommand(json: Json)

  /** Storage for a message first seen with `total` chunks. */
  function Fresh(total: nat): (c: ChunkData)
    ensures c.Total() == total && c.received == 0
    ensures forall i :: 0 <= i < total ==> c.slots[i] == []
  {
    ChunkData(seq(total, _ => []), 0)
  }

  /** Number of non-empty slots. */
  function Filled(slots: seq<string>): (n: nat)
    ensures n <= |slots|
  {
    if slots == [] then 0 else Filled(slots[..|slots| - 1]) + (if slots[|slots| - 1] != [] then 1 else 0)
  }

  /** Every stored message still waits for a chunk: fewer received than its
      total (an entry for a message announced with zero chunks stays at zero),
      and every non-empty slot was counted when it was filled. */
  predicate GoodEntry(c: ChunkData)
  {
    && (c.received < c.Total() || (c.Total() == 0 && c.received == 0))
    && Filled(c.slots) <= c.received
  }

  predicate GoodStore(store: Store)
  {
    forall id :: id in store ==> GoodEntry(store[id])
  }

  /** Reads `id`, `index`, `total` (numbers) and `data` (a string) from a
      chunk object; any missing or mistyped field invalidates the chunk. */
  function ReadChunkFields(chunk: Option<Json>): (r: Option<ChunkFields>)
    ensures r.Some? <==>
      && IsNumber(GetObjectItem(chunk, "id"))
      && IsNumber(GetObjectItem(chunk, "index"))
      && IsNumber(GetObjectItem(chunk, "total"))
      && IsString(GetObjectItem(chunk, "data"))
    ensures r.Some? ==> r.value.id < UINT32_MODULUS && r.value.index < UINT32_MODULUS && r.value.total < UINT32_MODULUS
    ensures r.Some? ==> r.value.data == GetObjectItem(chunk, "data").value.s
  {
    var id := GetObjectItem(chunk, "id");
    var index := GetObjectItem(chunk, "index");
    var total := GetObjectItem(chunk, "total");
    var data := GetObjectItem(chunk, "data");
    if IsNumber(id) && IsNumber(index) && IsNumber(total) && IsString(data) then
      Some(ChunkFields(ToUint32(ValueInt(id.value.n)), ToUint32(ValueInt(index.value.n)),
                       ToUint32(ValueInt(total.value.n)), data.value.s))
    else None
  }

  /** The store once storage for the chunk's message exists: an existing
      entry is kept, a new one is sized from this chunk's `total`. */
  function WithEntry(store: Store, f: ChunkFields): (s: Store)
    ensures f.id in s
    ensures f.id in store ==> s == store
    ensures f.id !in store ==> s == store[f.id := Fresh(f.total)]
  {
    if f.id in store then store else store[f.id := Fresh(f.total)]
  }

  /** Stores the chunk in slot `f.index` of its entry (when that slot is still
      empty), then completes the message when every chunk has been counted. */
  function Place(store: Store, f: ChunkFields): (r: (Store, ChunkResult))
    requires f.id in store && f.index < store[f.id].Total()
  {
    var c := store[f.id];
    var isNew := c.slots[f.index] == [];
    var c' := if isNew then ChunkData(c.slots[f.index := f.data], c.received + 1) else c;
    if c'.received == c'.Total() then (store - {f.id}, Completed(Concat(c'.slots)))
    else (store[f.id := c'], if isNew then Stored else Duplicate)
  }

  /** Placing into an empty slot fills it and counts it; the message completes
      exactly when the count reaches the total. */
  lemma PlaceEmpty(store: Store, f: ChunkFields)
    requires f.id in store && f.index < store[f.id].Total() && store[f.id].slots[f.index] == []
    ensures var c := store[f.id];
      var c' := ChunkData(c.slots[f.index := f.data], c.received + 1);
      Place(store, f) == if c'.received == c'.Total() then (store - {f.id}, Completed(Concat(c'.slots)))
                         else (store[f.id := c'], Stored)
  {
  }

  /** One chunk, as the firmware handles it: storage is created before the
      index is validated, and the index is validated against this chunk's
      `total`, not against the size of the stored slot vector. An index that
      passes that check but lies beyond the slot vector is an out-of-bounds
      access in the firmware; here it is the outcome SlotOutOfBounds. */
  function AcceptChunkAsWritten(store: Store, f: ChunkFields): (r: (Store, ChunkResult))
  {
    var s := WithEntry(store, f);
    if f.index >= f.total then (s, IndexOutOfRange)
    else if f.index >= s[f.id].Total() then (s, SlotOutOfBounds)
    else Place(s, f)
  }

  /** One chunk with the index also checked against the stored slot vector. */
  function AcceptChunk(store: Store, f: ChunkFields): (r: (Store, ChunkResult))
    ensures !r.1.SlotOutOfBounds? && !r.1.InvalidFormat?
    ensures r.1.IndexOutOfRange? <==> f.index >= f.total || f.index >= WithEntry(store, f)[f.id].Total()
    ensures r.1.IndexOutOfRange? ==> r.0 == WithEntry(store, f)
    ensures r.1.Completed? ==> f.id !in r.0 && r.0 == store - {f.id}
  {
    var s := WithEntry(store, f);
    if f.index >= f.total || f.index >= s[f.id].Total() then (s, IndexOutOfRange)
    else Place(s, f)
  }

  /** The JSON object a plain-text command is wrapped in. */
  function TextCommand(text: string): (j: Json)
    ensures GetObjectItem(Some(j), "text") == Some(JStr(text))
    ensures GetObjectItem(Some(j), "type") == Some(JStr("text_command"))
  {
    var j := StringObject([("text", text), ("type", "text_command")]);
    assert j.members[0] == Member("text", JStr(text)) && j.members[1] == Member("type", JStr("text_command"));
    assert !KeyMatches("text", "type") by { assert ToLowerChar("text"[1]) != ToLowerChar("type"[1]); }
    FindMemberAt(j.members, "text", 0);
    FindMemberAt(j.members, "type", 1);
    j
  }

  /** Handling of one incoming command. `parse` stands for the JSON parser
      (None: not JSON); a completed message is handled again, as a command of
      its own, at most `fuel` times. */
  function ProcessCommand(store: Store, text: string, parse: string -> Option<Json>, fuel: nat): (r: (Store, seq<Event>))
    decreases fuel, 2
  {
    match parse(text)
    case None => (store, [CommandText(text), JsonCommand(TextCommand(text))])
    case Some(j) => HandleJson(store, text, j, parse, fuel)
  }

  /** A command that parsed as JSON: a chunk envelope or a plain JSON command. */
  function HandleJson(store: Store, text: string, j: Json, parse: string -> Option<Json>, fuel: nat): (r: (Store, seq<Event>))
    decreases fuel, 1
  {
    var chunk := GetObjectItem(Some(j), "chunk");
    if chunk.None? then (store, [CommandText(text), JsonCommand(j)])
    else
      match ReadChunkFields(chunk)
      case None => (store, [])
      case Some(f) => HandleChunk(store, f, parse, fuel)
  }

  /** A well-formed chunk, taken by the firmware's reassembly step; a message
      it completes is handled as a new command. */
  function HandleChunk(store: Store, f: ChunkFields, parse: string -> Option<Json>, fuel: nat): (r: (Store, seq<Event>))
    decreases fuel, 0
  {
    var step := AcceptChunkAsWritten(store, f);
    if step.1.Completed? && fuel > 0 then ProcessCommand(step.0, step.1.message, parse, fuel - 1)
    else (step.0, [])
  }

  // ---------------------------------------------------------------------
  // Properties

  /** Text that is not JSON goes to the command callback unchanged and, wrapped
      as a text command, to the JSON handler; the store is untouched. */
  lemma NonJsonIsTextCommand(store: Store, text: string, parse: string -> Option<Json>, fuel: nat)
    requires parse(text).None?
    ensures ProcessCommand(store, text, parse, fuel).0 == store
    ensures var ev := ProcessCommand(store, text, parse, fuel).1;
      |ev| == 2 && ev[0] == CommandText(text) && ev[1].JsonCommand?
      && GetObjectItem(Some(ev[1].json), "text") == Some(JStr(text))
      && GetObjectItem(Some(ev[1].json), "type") == Some(JStr("text_command"))
  {
  }

  /** JSON without a `chunk` member is handed on as it is. */
  lemma PlainJsonPassesThrough(store: Store, text: string, parse: string -> Option<Json>, fuel: nat)
    requires parse(text).Some? && GetObjectItem(parse(text), "chunk").None?
    ensures ProcessCommand(store, text, parse, fuel) == (store, [CommandText(text), JsonCommand(parse(text).value)])
  {
  }

  /** A chunk envelope with a missing or mistyped field is dropped: no event,
      and the store is exactly as before. */
  lemma InvalidChunkLeavesStore(store: Store, text: string, parse: string -> Option<Json>, fuel: nat)
    requires parse(text).Some?
    requires var chunk := GetObjectItem(parse(text), "chunk");
      chunk.Some? &&
      !(IsNumber(GetObjectItem(chunk, "id")) && IsNumber(GetObjectItem(chunk, "index"))
        && IsNumber(GetObjectItem(chunk, "total")) && IsString(GetObjectItem(chunk, "data")))
    ensures ProcessCommand(store, text, parse, fuel) == (store, [])
  {
  }

  /** An index at or beyond the chunk's total stores nothing: the only change
      is the (possibly new, empty) entry for the message id. */
  lemma BadIndexStoresNothing(store: Store, f: ChunkFields)
    requires f.index >= f.total
    ensures AcceptChunk(store, f).1 == IndexOutOfRange
    ensures var s := AcceptChunk(store, f).0;
      && (f.id in store ==> s == store)
      && (f.id !in store ==> s == store[f.id := Fresh(f.total)] && s[f.id].received == 0)
  {
  }

  lemma {:induction false} FilledUpdate(slots: seq<string>, i: nat, d: string)
    requires i < |slots| && slots[i] == []
    ensures Filled(slots[i := d]) <= Filled(slots) + 1
    decreases |slots|
  {
    var n := |slots| - 1;
    if i < n {
      assert slots[i := d][..n] == slots[..n][i := d];
      FilledUpdate(slots[..n], i, d);
    } else {
      assert slots[i := d][..n] == slots[..n];
    }
  }

  lemma {:induction false} FilledAllEmpty(total: nat)
    ensures Filled(Fresh(total).slots) == 0
    decreases total
  {
    if total > 0 {
      assert Fresh(total).slots[..total - 1] == Fresh(total - 1).slots;
      FilledAllEmpty(total - 1);
    }
  }

  /** Reassembly keeps every stored entry waiting for a chunk. */
  lemma AcceptChunkKeepsGood(store: Store, f: ChunkFields)
    requires GoodStore(store)
    ensures GoodStore(AcceptChunk(store, f).0)
  {
    var s := WithEntry(store, f);
    if f.id !in store {
      FilledAllEmpty(f.total);
    }
    assert GoodStore(s);
    if !(f.index >= f.total || f.index >= s[f.id].Total()) {
      var c := s[f.id];
      if c.slots[f.index] == [] {
        FilledUpdate(c.slots, f.index, f.data);
      }
    }
  }

  /** The firmware's step leaves the store exactly as the corrected step
      does; the outcomes differ only where the firmware leaves the slot vector,
      which happens exactly for an index below this chunk's total but not
      below the stored slot count. */
  lemma AsWrittenStoreAgrees(store: Store, f: ChunkFields)
    ensures AcceptChunkAsWritten(store, f).0 == AcceptChunk(store, f).0
    ensures AcceptChunkAsWritten(store, f).1.SlotOutOfBounds? <==>
      f.index < f.total && f.index >= WithEntry(store, f)[f.id].Total()
    ensures !AcceptChunkAsWritten(store, f).1.SlotOutOfBounds? ==>
      AcceptChunkAsWritten(store, f).1 == AcceptChunk(store, f).1
    ensures AcceptChunkAsWritten(store, f).1.SlotOutOfBounds? ==> AcceptChunk(store, f).1 == IndexOutOfRange
  {
  }

  /** The firmware's step keeps every stored entry waiting for a chunk. */
  lemma AcceptChunkAsWrittenKeepsGood(store: Store, f: ChunkFields)
    requires GoodStore(store)
    ensures GoodStore(AcceptChunkAsWritten(store, f).0)
  {
    AcceptChunkKeepsGood(store, f);
    AsWrittenStoreAgrees(store, f);
  }

  /** The firmware's whole handler, re-processing included, keeps the store good. */
  lemma {:induction false} ProcessKeepsGood(store: Store, text: string, parse: string -> Option<Json>, fuel: nat)
    requires GoodStore(store)
    ensures GoodStore(ProcessCommand(store, text, parse, fuel).0)
    decreases fuel, 2
  {
    match parse(text)
    case None =>
    case Some(j) => HandleJsonKeepsGood(store, text, j, parse, fuel);
  }

  lemma {:induction false} HandleJsonKeepsGood(store: Store, text: string, j: Json, parse: string -> Option<Json>, fuel: nat)
    requires GoodStore(store)
    ensures GoodStore(HandleJson(store, text, j, parse, fuel).0)
    decreases fuel, 1
  {
    var chunk := GetObjectItem(Some(j), "chunk");
    var fields := ReadChunkFields(chunk);
    if chunk.Some? && fields.Some? {
      HandleChunkKeepsGood(store, fields.value, parse, fuel);
    }
  }

  lemma {:induction false} HandleChunkKeepsGood(store: Store, f: ChunkFields, parse: string -> Option<Json>, fuel: nat)
    requires GoodStore(store)
    ensures GoodStore(HandleChunk(store, f, parse, fuel).0)
    decreases fuel, 0
  {
    AcceptChunkAsWrittenKeepsGood(store, f);
    var step := AcceptChunkAsWritten(store, f);
    if step.1.Completed? && fuel > 0 {
      ProcessKeepsGood(step.0, step.1.message, parse, fuel - 1);
    }
  }

  /** A chunk with a valid index: an empty slot takes the data and is
      counted, and the message completes, with its slots concatenated in index
      order, exactly when that count reaches the total; a filled slot makes the
      chunk a duplicate that changes nothing (on a good entry). */
  lemma ValidChunkPlaced(store: Store, f: ChunkFields)
    requires f.id in store ==> GoodEntry(store[f.id])
    requires f.index < f.total && f.index < WithEntry(store, f)[f.id].Total()
    ensures var c := WithEntry(store, f)[f.id];
      var r := AcceptChunk(store, f);
      && (c.slots[f.index] != [] ==> r == (store, Duplicate))
      && (c.slots[f.index] == [] && c.received + 1 == c.Total() ==>
            r == (store - {f.id}, Completed(Concat(c.slots[f.index := f.data]))))
      && (c.slots[f.index] == [] && c.received + 1 < c.Total() ==>
            r == (WithEntry(store, f)[f.id := ChunkData(c.slots[f.index := f.data], c.received + 1)], Stored))
  {
    var c := WithEntry(store, f)[f.id];
    if f.id !in store {
      assert c.slots[f.index] == [];
    } else if c.slots[f.index] != [] {
      assert store[f.id := c] == store;
    }
  }

  /** Wherever the firmware does not run off the slot vector, the checked
      handler behaves exactly as the firmware. */
  lemma CheckedAgreesWithFirmware(store: Store, f: ChunkFields)
    requires !AcceptChunkAsWritten(store, f).1.SlotOutOfBounds?
    ensures AcceptChunk(store, f) == AcceptChunkAsWritten(store, f)
  {
  }

  /** The firmware's index check is not enough: a chunk with index 5 of 1 is
      rejected only after it has created one-slot storage for its id, and a
      later chunk claiming index 1 of 2 for that id reaches slot 1 of the
      one-slot vector. */
  lemma FirmwareSlotOverrun()
    ensures var first := AcceptChunkAsWritten(map[], ChunkFields(7, 5, 1, "x"));
      && first == (map[7 := Fresh(1)], IndexOutOfRange)
      && AcceptChunkAsWritten(first.0, ChunkFields(7, 1, 2, "y")).1 == SlotOutOfBounds
  {
  }

  /** The checked handler never addresses a slot outside the vector: every
      chunk it stores or completes with lies within the stored total. */
  lemma CheckedStaysInBounds(store: Store, f: ChunkFields)
    ensures var r := AcceptChunk(store, f).1;
      (r.Stored? || r.Duplicate? || r.Completed?) ==> f.index < WithEntry(store, f)[f.id].Total()
  {
  }

  /** An empty data string is counted although its slot stays empty, so the
      same empty chunk twice completes a two-chunk message. */
  lemma EmptyChunkCountsAgain()
    ensures var f := ChunkFields(3, 0, 2, []);
      var first := AcceptChunk(map[], f);
      first.1 == Stored && AcceptChunk(first.0, f) == (map[], Completed([]))
  {
    var f := ChunkFields(3, 0, 2, []);
    var e := Fresh(2);
    assert e.slots[0 := []] == e.slots;
    ValidChunkPlaced(map[], f);
    var s1 := map[3 := ChunkData(e.slots, 1)];
    assert WithEntry(map[], f)[3 := ChunkData(e.slots, 1)] == s1;
    assert AcceptChunk(map[], f) == (s1, Stored);
    FilledAllEmpty(2);
    ValidChunkPlaced(s1, f);
    assert e.slots == [[], []];
    assert Concat([[], []]) == Concat([[]]) + [] == [];
    assert s1 - {3} == map[];
  }

  // ---------------------------------------------------------------------
  // In-order delivery

  /** The fields of chunk `i` of `data`, as the sender numbers them. */
  function SenderChunk(id: nat, data: seq<string>, i: nat): ChunkFields
    requires i < |data|
  {
    ChunkFields(id, i, |data|, data[i])
  }

  /** Feeds the chunks one after the other to the firmware's step; the
      results in order. */
  function AcceptAll(store: Store, fs: seq<ChunkFields>): (r: (Store, seq<ChunkResult>))
    ensures |r.1| == |fs|
    decreases |fs|
  {
    if fs == [] then (store, [])
    else
      var step := AcceptChunkAsWritten(store, fs[0]);
      var rest := AcceptAll(step.0, fs[1..]);
      (rest.0, [step.1] + rest.1)
  }

  function SenderChunks(id: nat, data: seq<string>, from: nat): (fs: seq<ChunkFields>)
    requires from <= |data|
    ensures |fs| == |data| - from
    ensures forall k :: 0 <= k < |fs| ==> fs[k] == SenderChunk(id, data, from + k)
    decreases |data| - from
  {
    if from == |data| then [] else [SenderChunk(id, data, from)] + SenderChunks(id, data, from + 1)
  }

  /** Slots after chunks 0 .. k-1 have arrived in order. */
  function PartialSlots(data: seq<string>, k: nat): (s: seq<string>)
    requires k <= |data|
    ensures |s| == |data|
    ensures forall i :: 0 <= i < |data| ==> s[i] == if i < k then data[i] else []
  {
    seq(|data|, i requires 0 <= i < |data| => if i < k then data[i] else [])
  }

  /** Overwriting or removing the entry of `f.id` forgets whether WithEntry created it. */
  lemma WithEntryForgotten(store: Store, f: ChunkFields, c: ChunkData)
    ensures WithEntry(store, f)[f.id := c] == store[f.id := c]
    ensures WithEntry(store, f) - {f.id} == store - {f.id}
  {
  }

  /** Filling slot `k` of the partial slots gives the partial slots of `k + 1`. */
  lemma PartialSlotsNext(data: seq<string>, k: nat)
    requires k < |data|
    ensures PartialSlots(data, k)[k] == []
    ensures PartialSlots(data, k)[k := data[k]] == PartialSlots(data, k + 1)
    ensures PartialSlots(data, |data|) == data
  {
    var a := PartialSlots(data, k)[k := data[k]];
    var b := PartialSlots(data, k + 1);
    forall i | 0 <= i < |data|
      ensures a[i] == b[i]
    {
    }
  }

  /** The last chunk, arriving after all the others, completes the message
      and frees its storage. */
  lemma InOrderLast(store: Store, id: nat, data: seq<string>, k: nat)
    requires k + 1 == |data|
    requires k == 0 ==> id !in store
    requires k > 0 ==> id in store && store[id] == ChunkData(PartialSlots(data, k), k)
    ensures AcceptChunkAsWritten(store, SenderChunk(id, data, k)) == (store - {id}, Completed(Concat(data)))
  {
    var f := SenderChunk(id, data, k);
    var s := WithEntry(store, f);
    PartialSlotsNext(data, k);
    assert s[id] == ChunkData(PartialSlots(data, k), k) by {
      if k == 0 {
        assert Fresh(|data|).slots == PartialSlots(data, 0);
      }
    }
    PlaceEmpty(s, f);
    WithEntryForgotten(store, f, ChunkData(data, k + 1));
    CheckedAgreesWithFirmware(store, f);
  }

  /** Any earlier chunk, arriving after its predecessors, fills its slot. */
  lemma InOrderMiddle(store: Store, id: nat, data: seq<string>, k: nat)
    requires k + 1 < |data|
    requires k == 0 ==> id !in store
    requires k > 0 ==> id in store && store[id] == ChunkData(PartialSlots(data, k), k)
    ensures AcceptChunkAsWritten(store, SenderChunk(id, data, k)) ==
      (store[id := ChunkData(PartialSlots(data, k + 1), k + 1)], Stored)
  {
    var f := SenderChunk(id, data, k);
    var s := WithEntry(store, f);
    PartialSlotsNext(data, k);
    assert s[id] == ChunkData(PartialSlots(data, k), k) by {
      if k == 0 {
        assert Fresh(|data|).slots == PartialSlots(data, 0);
      }
    }
    PlaceEmpty(s, f);
    WithEntryForgotten(store, f, ChunkData(PartialSlots(data, k + 1), k + 1));
    CheckedAgreesWithFirmware(store, f);
  }

  lemma AcceptAllFirst(store: Store, fs: seq<ChunkFields>)
    requires fs != []
    ensures var step := AcceptChunkAsWritten(store, fs[0]);
      AcceptAll(store, fs) == (AcceptAll(step.0, fs[1..]).0, [step.1] + AcceptAll(step.0, fs[1..]).1)
  {
  }

  /** The in-order run when chunk `k` is the last one. */
  lemma InOrderFromLast(store: Store, id: nat, data: seq<string>, k: nat)
    requires k + 1 == |data|
    requires k == 0 ==> id !in store
    requires k > 0 ==> id in store && store[id] == ChunkData(PartialSlots(data, k), k)
    ensures AcceptAll(store, SenderChunks(id, data, k)) == (store - {id}, [Completed(Concat(data))])
  {
    var fs := SenderChunks(id, data, k);
    assert fs[0] == SenderChunk(id, data, k) && fs[1..] == [];
    AcceptAllFirst(store, fs);
    InOrderLast(store, id, data, k);
    var step := AcceptChunkAsWritten(store, fs[0]);
    assert AcceptAll(step.0, fs[1..]) == (store - {id}, []);
    assert [step.1] + [] == [Completed(Concat(data))];
  }

  /** The in-order run from an earlier chunk `k`, given the run from `k + 1`. */
  lemma InOrderFromMiddle(store: Store, id: nat, data: seq<string>, k: nat)
    requires k + 1 < |data|
    requires k == 0 ==> id !in store
    requires k > 0 ==> id in store && store[id] == ChunkData(PartialSlots(data, k), k)
    requires var next := store[id := ChunkData(PartialSlots(data, k + 1), k + 1)];
      AcceptAll(next, SenderChunks(id, data, k + 1)) ==
        (next - {id}, seq(|data| - k - 2, _ => Stored) + [Completed(Concat(data))])
    ensures AcceptAll(store, SenderChunks(id, data, k)) ==
      (store - {id}, seq(|data| - k - 1, _ => Stored) + [Completed(Concat(data))])
  {
    var fs := SenderChunks(id, data, k);
    assert fs[0] == SenderChunk(id, data, k) && fs[1..] == SenderChunks(id, data, k + 1);
    var next := store[id := ChunkData(PartialSlots(data, k + 1), k + 1)];
    AcceptAllFirst(store, fs);
    InOrderMiddle(store, id, data, k);
    var step := AcceptChunkAsWritten(store, fs[0]);
    assert step == (next, Stored);
    var done := [Completed(Concat(data))];
    assert next - {id} == store - {id};
    assert seq(|data| - k - 1, _ => Stored) + done == [Stored] + (seq(|data| - k - 2, _ => Stored) + done);
  }

  lemma {:induction false} InOrderFrom(store: Store, id: nat, data: seq<string>, k: nat)
    requires k < |data|
    requires k == 0 ==> id !in store
    requires k > 0 ==> id in store && store[id] == ChunkData(PartialSlots(data, k), k)
    ensures AcceptAll(store, SenderChunks(id, data, k)) ==
      (store - {id}, seq(|data| - k - 1, _ => Stored) + [Completed(Concat(data))])
    decreases |data| - k
  {
    if k + 1 == |data| {
      InOrderFromLast(store, id, data, k);
      assert seq(0, _ => Stored) + [Completed(Concat(data))] == [Completed(Concat(data))];
    } else {
      InOrderFrom(store[id := ChunkData(PartialSlots(data, k + 1), k + 1)], id, data, k + 1);
      InOrderFromMiddle(store, id, data, k);
    }
  }

  /** Delivering the sender's chunks of a message in order, for an id with no
      storage yet, stores every chunk but the last, and the last completes the
      message with the concatenation of the data; the store ends as it began. */
  lemma InOrderDeliveryReassembles(store: Store, id: nat, data: seq<string>)
    requires id !in store && |data| > 0
    ensures AcceptAll(store, SenderChunks(id, data, 0)).0 == store
    ensures AcceptAll(store, SenderChunks(id, data, 0)).1 == seq(|data| - 1, _ => Stored) + [Completed(Concat(data))]
  {
    InOrderFrom(store, id, data, 0);
    assert store - {id} == store;
  }

  /** The object inside the envelope the sender's text denotes. */
  function ChunkObject(id: nat, index: nat, total: nat, data: string): Json
  {
    JObj([Member("id", JNum(id)), Member("index", JNum(index)), Member("total", JNum(total)), Member("data", JStr(data))])
  }

  /** The envelope the sender's text denotes. */
  function ChunkEnvelope(id: nat, index: nat, total: nat, data: string): Json
  {
    JObj([Member("chunk", ChunkObject(id, index, total, data))])
  }

  lemma ChunkObjectLookups(id: nat, index: nat, total: nat, data: string)
    ensures var o := Some(ChunkObject(id, index, total, data));
      && GetObjectItem(o, "id") == Some(JNum(id))
      && GetObjectItem(o, "index") == Some(JNum(index))
      && GetObjectItem(o, "total") == Some(JNum(total))
      && GetObjectItem(o, "data") == Some(JStr(data))
  {
    var ms := ChunkObject(id, index, total, data).members;
    assert !KeyMatches("index", "total") by { assert ToLowerChar("index"[0]) != ToLowerChar("total"[0]); }
    assert ms[1..][1..][1..] == [Member("data", JStr(data))];
    FindMemberFirst(ms, "id");
    FindMemberFirst(ms, "index");
    FindMemberFirst(ms[1..], "index");
    FindMemberFirst(ms, "total");
    FindMemberFirst(ms[1..], "total");
    FindMemberFirst(ms[1..][1..], "total");
    FindMemberFirst(ms, "data");
    FindMemberFirst(ms[1..], "data");
    FindMemberFirst(ms[1..][1..], "data");
    FindMemberFirst(ms[1..][1..][1..], "data");
  }

  /** Reading the sender's envelope gives back its fields, as long as the
      numbers fit the `int` that `valueint` holds. */
  lemma EnvelopeFields(id: nat, index: nat, total: nat, data: string)
    requires id <= INT32_MAX && index <= INT32_MAX && total <= INT32_MAX
    ensures ReadChunkFields(GetObjectItem(Some(ChunkEnvelope(id, index, total, data)), "chunk"))
            == Some(ChunkFields(id, index, total, data))
  {
    FindMemberAt(ChunkEnvelope(id, index, total, data).members, "chunk", 0);
    ChunkObjectLookups(id, index, total, data);
  }
}

=== FILE: ble_send.dfy ===
/** The outbound side of the BLE command channel: a response of at most
    MAX_CHUNK_SIZE bytes goes out as one notification; a longer one is cut
    into pieces, and each piece travels JSON-escaped inside a chunk envelope
    `{"chunk":{"id":…,"index":…,"total":…,"data":"…"}}`. */
module BleSend {
  import opened Common
  import opened JsonText
  import BleReceive

  const MAX_CHUNK_SIZE: nat := 120
  /** The ATT MTU assumed when the stack reports none. */
  const DEFAULT_MTU: nat := 23
  /** The MTU margin the sender keeps for the ATT header and safety. */
  const MTU_MARGIN: nat := 10
  /** Size of the buffer the chunk header is formatted into. */
  const HEADER_BUFFER: nat := 100
  /** Header length with three ten-digit numbers, plus the closing `"}}`. */
  const WORST_OVERHEAD: nat := 75

  /** The id of the first chunked response after start-up. */
  const FIRST_MESSAGE_ID: nat := 1

  /** The state the sender keeps between responses: whether a central is
      connected, the MTU the stack reports (0 when unknown), and the message
      id the next chunked response will use. */
  datatype Link = Link(connected: bool, mtu: nat, nextId: nat)

  /** The fixed pieces of the envelope text around the numbers and the data. */
  const ID_LABEL: string := "{\"chunk\":{\"id\":"
  const INDEX_LABEL: string := ",\"index\":"
  const TOTAL_LABEL: string := ",\"total\":"
  const DATA_LABEL: string := ",\"data\":\""
  /** The closing quote of the data and the two closing braces. */
  const TRAILER: string := "\"}}"

  /** The envelope text up to and including the opening quote of the data. */
  function ChunkHeader(id: nat, index: nat, total: nat): string
  {
    ID_LABEL + NatToDecimal(id) + INDEX_LABEL + NatToDecimal(index) + TOTAL_LABEL + NatToDecimal(total) + DATA_LABEL
  }

  /** The notification text of one chunk. */
  function ChunkMessage(id: nat, index: nat, total: nat, data: string): string
  {
    ChunkHeader(id, index, total) + Escape(data) + TRAILER
  }

  /** The header of a chunk whose numbers are `uint32_t`s always fits the
      100-byte formatting buffer, so `snprintf` never truncates it. */
  lemma HeaderFits(id: nat, index: nat, total: nat)
    requires id < UINT32_MODULUS && index < UINT32_MODULUS && total < UINT32_MODULUS
    ensures |ChunkHeader(id, index, total)| + 3 <= WORST_OVERHEAD
    ensures |ChunkHeader(id, index, total)| < HEADER_BUFFER
  {
    Uint32Width(id);
    Uint32Width(index);
    Uint32Width(total);
  }

  /** The payload limit the sender assumes: the reported MTU (23 when
      unknown) less the margin, as a 32-bit `size_t`. */
  function EffectiveMtu(mtu: nat): (e: nat)
    requires mtu < 0x1_0000
    ensures e < UINT32_MODULUS
    ensures mtu >= MTU_MARGIN ==> e == mtu - MTU_MARGIN
    ensures mtu == 0 ==> e == DEFAULT_MTU - MTU_MARGIN
  {
    ToUint32((if mtu == 0 then DEFAULT_MTU else mtu) - MTU_MARGIN)
  }

  /** The number of pieces of `step` bytes (the last may be shorter) that
      cover `len` bytes. */
  function PieceCount(len: nat, step: nat): (n: nat)
    requires step >= 1
  {
    (len + step - 1) / step
  }

  /** Piece `i` starts inside the text exactly when `i` is below the piece count. */
  lemma PieceCountBound(len: nat, step: nat, i: nat)
    requires step >= 1
    ensures i < PieceCount(len, step) <==> i * step < len
  {
    var n := PieceCount(len, step);
    assert n * step <= len + step - 1 < (n + 1) * step;
    if i < n {
      assert i * step <= (n - 1) * step by { MulMono(i, n - 1, step); }
    } else {
      assert n * step <= i * step by { MulMono(n, i, step); }
    }
  }

  lemma MulMono(a: nat, b: nat, c: nat)
    requires a <= b
    ensures a * c <= b * c
  {
  }

  /** Piece `i` of `text` cut every `step` bytes. */
  function Piece(text: string, step: nat, i: nat): (p: string)
    requires step >= 1 && i < PieceCount(|text|, step)
    ensures 1 <= |p| <= step
    ensures i * step + |p| <= |text|
    ensures p == text[i * step .. i * step + |p|]
  {
    PieceCountBound(|text|, step, i);
    text[i * step .. Min((i + 1) * step, |text|)]
  }

  /** There are never more pieces than bytes. */
  lemma PieceCountAtMost(len: nat, step: nat)
    requires step >= 1
    ensures PieceCount(len, step) <= len
  {
    var n := PieceCount(len, step);
    if n > 0 {
      PieceCountBound(len, step, n - 1);
      MulMono(1, step, n - 1);
    }
  }

  /** A piece of text without control bytes has none either. */
  lemma PiecePrintable(text: string, step: nat, i: nat)
    requires step >= 1 && i < PieceCount(|text|, step)
    requires Printable(text)
    ensures Printable(Piece(text, step, i))
  {
    var p := Piece(text, step, i);
    var lo := i * step;
    forall j | 0 <= j < |p|
      ensures (p[j] as int) >= 0x20
    {
      assert p[j] == text[lo + j];
    }
  }

  /** All the pieces of `text`, in order. */
  function Pieces(text: string, step: nat): (ps: seq<string>)
    requires step >= 1
    ensures |ps| == PieceCount(|text|, step)
    ensures forall i :: 0 <= i < |ps| ==> ps[i] == Piece(text, step, i)
  {
    seq(PieceCount(|text|, step), i requires 0 <= i < PieceCount(|text|, step) => Piece(text, step, i))
  }

  /** The first `k` pieces concatenate to the first `k * step` bytes. */
  lemma {:induction false} PiecesPrefix(text: string, step: nat, k: nat)
    requires step >= 1 && k <= PieceCount(|text|, step)
    ensures Concat(Pieces(text, step)[..k]) == text[..Min(k * step, |text|)]
    decreases k
  {
    var ps := Pieces(text, step);
    if k == 0 {
      assert ps[..0] == [];
    } else {
      PiecesPrefix(text, step, k - 1);
      assert ps[..k] == ps[..k - 1] + [ps[k - 1]];
      ConcatAppend(ps[..k - 1], ps[k - 1]);
      PieceExtends(text, step, k);
    }
  }

  /** Piece `k - 1` continues the text where the first `k - 1` pieces end. */
  lemma PieceExtends(text: string, step: nat, k: nat)
    requires step >= 1 && 1 <= k <= PieceCount(|text|, step)
    ensures text[..Min((k - 1) * step, |text|)] + Piece(text, step, k - 1) == text[..Min(k * step, |text|)]
  {
    PieceCountBound(|text|, step, k - 1);
    var lo := (k - 1) * step;
    MulStep(k, step);
    var p := Piece(text, step, k - 1);
    assert lo + |p| == Min(k * step, |text|);
    SliceJoin(text, lo, lo + |p|);
  }

  lemma MulStep(k: nat, step: nat)
    requires k >= 1
    ensures (k - 1) * step + step == k * step
  {
  }

  lemma SliceJoin(s: string, i: nat, j: nat)
    requires i <= j <= |s|
    ensures s[..i] + s[i..j] == s[..j]
  {
  }

  /** Cutting loses nothing: the pieces concatenate back to the text. */
  lemma PiecesConcat(text: string, step: nat)
    requires step >= 1
    ensures Concat(Pieces(text, step)) == text
  {
    var ps := Pieces(text, step);
    PiecesPrefix(text, step, |ps|);
    assert ps[..|ps|] == ps;
    if |ps| > 0 {
      PieceCountBound(|text|, step, |ps| - 1);
      PieceCountBound(|text|, step, |ps|);
    } else {
      PieceCountBound(|text|, step, 0);
    }
  }

  // ---------------------------------------------------------------------
  // The chunked response as the firmware writes it.
  // ---------------------------------------------------------------------

  /** The data chunk `index` carries. The envelope of the full 120-byte piece
      is shortened when it exceeds the effective MTU: the piece is cut to
      half of the room left after the header (computed in 32-bit `size_t`),
      when that is shorter. The loop still advances by 120 bytes. */
  function SentDataAsWritten(response: string, id: nat, total: nat, index: nat, effective: nat): (d: string)
    requires index < PieceCount(|response|, MAX_CHUNK_SIZE)
    ensures d <= Piece(response, MAX_CHUNK_SIZE, index)
  {
    var raw := Piece(response, MAX_CHUNK_SIZE, index);
    var header := ChunkHeader(id, index, total);
    if |header + Escape(raw) + TRAILER| > effective then
      var safe := ToUint32(effective - (|header| + 3)) / 2;
      if safe < |raw| then raw[..safe] else raw
    else raw
  }

  /** The notifications of a chunked response, as the firmware writes them. */
  function ChunkedAsWritten(response: string, id: nat, mtu: nat): (msgs: seq<string>)
    requires mtu < 0x1_0000
    ensures |msgs| == PieceCount(|response|, MAX_CHUNK_SIZE)
  {
    var total := PieceCount(|response|, MAX_CHUNK_SIZE);
    seq(total, i requires 0 <= i < total =>
      ChunkMessage(id, i, total, SentDataAsWritten(response, id, total, i, EffectiveMtu(mtu))))
  }

  /** The send loop as the firmware runs it: the offset moves by 120 bytes per
      chunk whatever was sent, and the chunk index counts up from 0. */
  method SendChunkedAsWritten(response: string, mtu: nat, msgId: nat) returns (sent: seq<string>)
    requires mtu < 0x1_0000 && msgId < UINT32_MODULUS
    ensures sent == ChunkedAsWritten(response, msgId, mtu)
    ensures |sent| == PieceCount(|response|, MAX_CHUNK_SIZE)
  {
    var effective := EffectiveMtu(mtu);
    var total := (|response| + MAX_CHUNK_SIZE - 1) / MAX_CHUNK_SIZE;
    ghost var want := ChunkedAsWritten(response, msgId, mtu);
    var offset := 0;
    var index := 0;
    sent := [];
    while offset < |response|
      invariant offset == index * MAX_CHUNK_SIZE && index <= total
      invariant index < total <==> offset < |response|
      invariant sent == want[..index]
      decreases |response| - offset
    {
      PieceCountBound(|response|, MAX_CHUNK_SIZE, index);
      var msg := ChunkAsWritten(response, offset, index, total, msgId, effective, mtu);
      SentGrows(want, sent, index, msg);
      sent := sent + [msg];
      index := index + 1;
      offset := offset + MAX_CHUNK_SIZE;
      PieceCountBound(|response|, MAX_CHUNK_SIZE, index);
    }
    assert want[..index] == want;
  }

  lemma SentGrows(want: seq<string>, sent: seq<string>, index: nat, msg: string)
    requires index < |want| && sent == want[..index] && msg == want[index]
    ensures sent + [msg] == want[..index + 1]
  {
  }

  /** One pass of the send loop: the notification for the chunk at `offset`. */
  method ChunkAsWritten(response: string, offset: nat, index: nat, total: nat, msgId: nat, effective: nat, ghost mtu: nat)
    returns (msg: string)
    requires total == PieceCount(|response|, MAX_CHUNK_SIZE) && index < total
    requires offset == index * MAX_CHUNK_SIZE && offset < |response|
    ensures msg == ChunkMessage(msgId, index, total, SentDataAsWritten(response, msgId, total, index, effective))
    ensures mtu < 0x1_0000 && effective == EffectiveMtu(mtu) ==> msg == ChunkedAsWritten(response, msgId, mtu)[index]
  {
    var size := Min(MAX_CHUNK_SIZE, |response| - offset);
    var data := response[offset .. offset + size];
    ghost var raw := Piece(response, MAX_CHUNK_SIZE, index);
    assert data == raw;
    var header := ChunkHeader(msgId, index, total);
    msg := header + Escape(data) + TRAILER;
    if |msg| > effective {
      var overhead := |header| + 3;
      var maxEscaped := ToUint32(effective - overhead);
      var safe := maxEscaped / 2;
      if safe < |data| {
        data := response[offset .. offset + safe];
        assert data == raw[..safe];
        msg := header + Escape(data) + TRAILER;
      }
    }
    assert data == SentDataAsWritten(response, msgId, total, index, effective);
  }

  /** When the response holds no control byte and the MTU leaves room for
      the envelope of 120 bytes escaped at twice their size (an ATT MTU of
      325 or more), no chunk is shortened and the data concatenate back to
      the response. */
  lemma WideMtuSendsEverything(response: string, id: nat, mtu: nat)
    requires mtu < 0x1_0000 && id < UINT32_MODULUS && |response| < UINT32_MODULUS
    requires Printable(response) && EffectiveMtu(mtu) >= WORST_OVERHEAD + 2 * MAX_CHUNK_SIZE
    ensures var total := PieceCount(|response|, MAX_CHUNK_SIZE);
      forall i :: 0 <= i < total ==>
        SentDataAsWritten(response, id, total, i, EffectiveMtu(mtu)) == Pieces(response, MAX_CHUNK_SIZE)[i]
    ensures Concat(Pieces(response, MAX_CHUNK_SIZE)) == response
  {
    var total := PieceCount(|response|, MAX_CHUNK_SIZE);
    PieceCountAtMost(|response|, MAX_CHUNK_SIZE);
    forall i | 0 <= i < total
      ensures SentDataAsWritten(response, id, total, i, EffectiveMtu(mtu)) == Pieces(response, MAX_CHUNK_SIZE)[i]
    {
      var raw := Piece(response, MAX_CHUNK_SIZE, i);
      HeaderFits(id, i, total);
      PiecePrintable(response, MAX_CHUNK_SIZE, i);
      EscapeGrowth(raw);
    }
    PiecesConcat(response, MAX_CHUNK_SIZE);
  }

  /** With an MTU of 100 the first envelope of a 121-byte response is too
      long, its data is cut to 21 bytes, and the next chunk starts at byte 120:
      bytes 21 .. 119 are never sent. */
  lemma NarrowMtuDropsData()
    ensures var response := seq(121, _ => 'a');
      var total := PieceCount(|response|, MAX_CHUNK_SIZE);
      && total == 2
      && |SentDataAsWritten(response, 1, total, 0, EffectiveMtu(100))| == 21
      && |SentDataAsWritten(response, 1, total, 1, EffectiveMtu(100))| == 1
      && |SentDataAsWritten(response, 1, total, 0, EffectiveMtu(100))|
         + |SentDataAsWritten(response, 1, total, 1, EffectiveMtu(100))| < |response|
  {
    var response := seq(121, _ => 'a');
    var raw := Piece(response, MAX_CHUNK_SIZE, 0);
    assert Printable(raw);
    EscapeGrowth(raw);
    assert NatToDecimal(1) == "1" && NatToDecimal(0) == "0" && NatToDecimal(2) == "2";
    assert |ChunkHeader(1, 0, 2)| == 45;
    assert |ChunkHeader(1, 1, 2)| == 45;
    var raw1 := Piece(response, MAX_CHUNK_SIZE, 1);
    assert Printable(raw1);
    EscapeGrowth(raw1);
  }

  // ---------------------------------------------------------------------
  // The corrected chunking: the piece size is fixed before the loop.
  // ---------------------------------------------------------------------

  /** The piece size the corrected sender uses: 120 bytes when the envelope of
      120 bytes escaped at the sender's own twofold estimate fits the
      effective MTU with the longest possible header; otherwise half of the
      room that header leaves; at least one byte. */
  function ChunkStep(mtu: nat): (step: nat)
    requires mtu < 0x1_0000
    ensures 1 <= step <= MAX_CHUNK_SIZE
    ensures step == MAX_CHUNK_SIZE <==> EffectiveMtu(mtu) >= WORST_OVERHEAD + 2 * MAX_CHUNK_SIZE
    ensures EffectiveMtu(mtu) >= WORST_OVERHEAD + 2 ==> WORST_OVERHEAD + 2 * step <= EffectiveMtu(mtu)
  {
    var e := EffectiveMtu(mtu);
    if e >= WORST_OVERHEAD + 2 * MAX_CHUNK_SIZE then MAX_CHUNK_SIZE
    else if e >= WORST_OVERHEAD + 2 then (e - WORST_OVERHEAD) / 2
    else 1
  }

  /** The envelopes of the pieces `ps` of one message, numbered from 0. */
  function ChunkMessages(id: nat, ps: seq<string>): (msgs: seq<string>)
    ensures |msgs| == |ps|
    ensures forall i :: 0 <= i < |ps| ==> msgs[i] == ChunkMessage(id, i, |ps|, ps[i])
  {
    seq(|ps|, i requires 0 <= i < |ps| => ChunkMessage(id, i, |ps|, ps[i]))
  }

  /** The notifications of a chunked response, corrected: every piece has the
      same size (the last may be shorter) and the total counts those pieces. */
  function Chunked(response: string, id: nat, mtu: nat): (msgs: seq<string>)
    requires mtu < 0x1_0000
    ensures |msgs| == PieceCount(|response|, ChunkStep(mtu))
  {
    ChunkMessages(id, Pieces(response, ChunkStep(mtu)))
  }

  /** The corrected sender carries every byte exactly once, in order. */
  lemma ChunkedCarriesEverything(response: string, mtu: nat)
    requires mtu < 0x1_0000
    ensures Concat(Pieces(response, ChunkStep(mtu))) == response
  {
    PiecesConcat(response, ChunkStep(mtu));
  }

  /** An envelope fits a limit that leaves the worst-case overhead for the
      escaped data. */
  lemma EnvelopeFits(id: nat, index: nat, total: nat, data: string, limit: nat)
    requires id < UINT32_MODULUS && index < UINT32_MODULUS && total < UINT32_MODULUS
    requires WORST_OVERHEAD + |Escape(data)| <= limit
    ensures |ChunkMessage(id, index, total, data)| <= limit
  {
    HeaderFits(id, index, total);
  }

  /** One corrected envelope of printable text fits the effective MTU. */
  lemma PieceFits(response: string, id: nat, mtu: nat, i: nat)
    requires mtu < 0x1_0000 && id < UINT32_MODULUS && |response| < UINT32_MODULUS
    requires Printable(response) && EffectiveMtu(mtu) >= WORST_OVERHEAD + 2
    requires i < PieceCount(|response|, ChunkStep(mtu))
    ensures |ChunkMessage(id, i, PieceCount(|response|, ChunkStep(mtu)), Piece(response, ChunkStep(mtu), i))| <= EffectiveMtu(mtu)
  {
    var step := ChunkStep(mtu);
    var p := Piece(response, step, i);
    PiecePrintable(response, step, i);
    EscapeGrowth(p);
    PieceCountAtMost(|response|, step);
    EnvelopeFits(id, i, PieceCount(|response|, step), p, EffectiveMtu(mtu));
  }

  /** Every corrected envelope fits the effective MTU when the response holds
      no control byte (the case the twofold estimate covers) and the MTU
      leaves room for a header and one escaped byte. */
  lemma ChunkedFits(response: string, id: nat, mtu: nat)
    requires mtu < 0x1_0000 && id < UINT32_MODULUS && |response| < UINT32_MODULUS
    requires Printable(response) && EffectiveMtu(mtu) >= WORST_OVERHEAD + 2
    ensures forall i :: 0 <= i < |Chunked(response, id, mtu)| ==> |Chunked(response, id, mtu)[i]| <= EffectiveMtu(mtu)
  {
    forall i | 0 <= i < |Chunked(response, id, mtu)|
      ensures |Chunked(response, id, mtu)[i]| <= EffectiveMtu(mtu)
    {
      PieceFits(response, id, mtu, i);
    }
  }

  /** Where the firmware's loop never shortens a chunk (text without control
      bytes, an ATT MTU of 325 or more), the corrected sender writes exactly
      the same notifications. */
  lemma ChunkedAgreesOnWideMtu(response: string, id: nat, mtu: nat)
    requires mtu < 0x1_0000 && id < UINT32_MODULUS && |response| < UINT32_MODULUS
    requires Printable(response) && EffectiveMtu(mtu) >= WORST_OVERHEAD + 2 * MAX_CHUNK_SIZE
    ensures Chunked(response, id, mtu) == ChunkedAsWritten(response, id, mtu)
  {
    WideMtuSendsEverything(response, id, mtu);
    var a := Chunked(response, id, mtu);
    var b := ChunkedAsWritten(response, id, mtu);
    forall i | 0 <= i < |a|
      ensures a[i] == b[i]
    {
    }
  }

  // ---------------------------------------------------------------------
  // SendResponse.
  // ---------------------------------------------------------------------

  /** The message id after a chunked response: the `uint32_t` counter moves on. */
  function NextId(link: Link): Link
    requires link.nextId < UINT32_MODULUS
  {
    link.(nextId := ToUint32(link.nextId + 1))
  }

  /** `SendResponse` as the firmware runs it: nothing is sent without a
      connection; a short response goes out verbatim as one notification; a
      longer one goes through the firmware's chunk loop under the next
      message id, and the id counter moves on (modulo 2^32). Returns whether
      it was sent, the notifications, and the new link state. */
  function SendResponse(link: Link, response: string): (r: (bool, seq<string>, Link))
    requires link.mtu < 0x1_0000 && link.nextId < UINT32_MODULUS
    ensures !link.connected ==> r == (false, [], link)
    ensures link.connected && |response| <= MAX_CHUNK_SIZE ==> r == (true, [response], link)
    ensures link.connected && |response| > MAX_CHUNK_SIZE ==>
      && r.0
      && |r.1| == PieceCount(|response|, MAX_CHUNK_SIZE)
      && r.2 == link.(nextId := if link.nextId == UINT32_MODULUS - 1 then 0 else link.nextId + 1)
  {
    if !link.connected then (false, [], link)
    else if |response| <= MAX_CHUNK_SIZE then (true, [response], link)
    else (true, ChunkedAsWritten(response, link.nextId, link.mtu), NextId(link))
  }

  /** `SendResponse` with the corrected chunking: the same, except that a long
      response is cut into pieces of `ChunkStep` bytes. */
  function SendResponseCorrected(link: Link, response: string): (r: (bool, seq<string>, Link))
    requires link.mtu < 0x1_0000 && link.nextId < UINT32_MODULUS
    ensures !link.connected ==> r == (false, [], link)
    ensures link.connected && |response| <= MAX_CHUNK_SIZE ==> r == (true, [response], link)
    ensures link.connected && |response| > MAX_CHUNK_SIZE ==>
      && r.0
      && |r.1| == PieceCount(|response|, ChunkStep(link.mtu))
      && r.2 == link.(nextId := if link.nextId == UINT32_MODULUS - 1 then 0 else link.nextId + 1)
  {
    if !link.connected then (false, [], link)
    else if |response| <= MAX_CHUNK_SIZE then (true, [response], link)
    else (true, Chunked(response, link.nextId, link.mtu), NextId(link))
  }

  // ---------------------------------------------------------------------
  // Reading an envelope back.
  // ---------------------------------------------------------------------

  /** Reads `lead` followed by a decimal number; the number and what follows. */
  function ReadNumberField(t: string, lead: string): (r: Option<(nat, string)>)
    ensures r.Some? ==> |r.value.1| < |t|
  {
    if !StartsWith(t, lead) then None
    else
      var u := t[|lead|..];
      var n := DigitRun(u);
      if n == 0 then None else Some((DecimalValue(u[..n]), u[n..]))
  }

  lemma ReadNumberFieldOf(lead: string, n: nat, rest: string)
    requires rest == [] || !IsDigit(rest[0])
    ensures ReadNumberField(lead + NatToDecimal(n) + rest, lead) == Some((n, rest))
  {
    var t := lead + NatToDecimal(n) + rest;
    assert t[..|lead|] == lead;
    var u := t[|lead|..];
    assert u == NatToDecimal(n) + rest;
    DecimalPrefixRoundTrip(n, rest);
    assert u[|NatToDecimal(n)|..] == rest;
  }

  /** Reads the data label, a JSON string body and the two closing braces. */
  function ReadDataField(t: string): Option<string>
  {
    if !StartsWith(t, DATA_LABEL) then None
    else
      var r := ReadString(t[|DATA_LABEL|..]);
      if r.Some? && r.value.1 == "}}" then Some(r.value.0) else None
  }

  /** A reader for the envelope text the sender writes (a JSON text of exactly
      this layout): the fields it carries, the data unescaped. */
  function ReadChunkMessage(t: string): (r: Option<BleReceive.ChunkFields>)
  {
    var a := ReadNumberField(t, ID_LABEL);
    if a.None? then None
    else
      var b := ReadNumberField(a.value.1, INDEX_LABEL);
      if b.None? then None
      else
        var c := ReadNumberField(b.value.1, TOTAL_LABEL);
        if c.None? then None
        else
          var d := ReadDataField(c.value.1);
          if d.None? then None else Some(BleReceive.ChunkFields(a.value.0, b.value.0, c.value.0, d.value))
  }

  /** The data part of an envelope reads back as the data, leaving the braces. */
  lemma ReadDataOf(data: string)
    ensures ReadDataField(DATA_LABEL + Escape(data) + TRAILER) == Some(data)
  {
    var t := DATA_LABEL + Escape(data) + TRAILER;
    assert StartsWith(t, DATA_LABEL) by {
      assert t[..|DATA_LABEL|] == DATA_LABEL;
    }
    assert ReadString(t[|DATA_LABEL|..]) == Some((data, "}}")) by {
      assert t[|DATA_LABEL|..] == Escape(data) + "\"" + "}}";
      ReadEscaped(data, "}}");
    }
  }

  /** The envelope text after the id, after the index and after the total. */
  function AfterId(index: nat, total: nat, data: string): string
  {
    INDEX_LABEL + NatToDecimal(index) + AfterIndex(total, data)
  }

  function AfterIndex(total: nat, data: string): string
  {
    TOTAL_LABEL + NatToDecimal(total) + AfterTotal(data)
  }

  function AfterTotal(data: string): string
  {
    DATA_LABEL + Escape(data) + TRAILER
  }

  lemma ReadIdOf(id: nat, index: nat, total: nat, data: string)
    ensures ReadNumberField(ChunkMessage(id, index, total, data), ID_LABEL) == Some((id, AfterId(index, total, data)))
  {
    var rest := AfterId(index, total, data);
    assert ChunkMessage(id, index, total, data) == ID_LABEL + NatToDecimal(id) + rest;
    assert rest[0] == ',';
    ReadNumberFieldOf(ID_LABEL, id, rest);
  }

  lemma ReadIndexOf(index: nat, total: nat, data: string)
    ensures ReadNumberField(AfterId(index, total, data), INDEX_LABEL) == Some((index, AfterIndex(total, data)))
  {
    assert AfterIndex(total, data)[0] == ',';
    ReadNumberFieldOf(INDEX_LABEL, index, AfterIndex(total, data));
  }

  lemma ReadTotalOf(total: nat, data: string)
    ensures ReadNumberField(AfterIndex(total, data), TOTAL_LABEL) == Some((total, AfterTotal(data)))
  {
    assert AfterTotal(data)[0] == ',';
    ReadNumberFieldOf(TOTAL_LABEL, total, AfterTotal(data));
  }

  /** Every envelope the sender writes reads back as the fields it was made from. */
  lemma ReadChunkMessageOf(id: nat, index: nat, total: nat, data: string)
    ensures ReadChunkMessage(ChunkMessage(id, index, total, data)) == Some(BleReceive.ChunkFields(id, index, total, data))
  {
    ReadIdOf(id, index, total, data);
    ReadIndexOf(index, total, data);
    ReadTotalOf(total, data);
    ReadDataOf(data);
  }

  /** Reads every notification of a chunked response; None when one of them
      is not an envelope. */
  function ReadAllMessages(msgs: seq<string>): (r: Option<seq<BleReceive.ChunkFields>>)
    ensures r.Some? ==> |r.value| == |msgs|
  {
    if msgs == [] then Some([])
    else
      var f := ReadChunkMessage(msgs[0]);
      var rest := ReadAllMessages(msgs[1..]);
      if f.Some? && rest.Some? then Some([f.value] + rest.value) else None
  }

  lemma {:induction false} ReadAllFrom(id: nat, ps: seq<string>, k: nat)
    requires k <= |ps|
    ensures ReadAllMessages(ChunkMessages(id, ps)[k..]) == Some(BleReceive.SenderChunks(id, ps, k))
    decreases |ps| - k
  {
    var m := ChunkMessages(id, ps)[k..];
    if k < |ps| {
      assert m[0] == ChunkMessage(id, k, |ps|, ps[k]);
      assert m[1..] == ChunkMessages(id, ps)[k + 1..];
      ReadChunkMessageOf(id, k, |ps|, ps[k]);
      ReadAllFrom(id, ps, k + 1);
    } else {
      assert m == [];
    }
  }

  /** Round trip through the receiver: the corrected chunks of a response,
      read back, are the sender's chunks of its pieces; fed in order to a
      store that holds nothing for the id, they leave the store as it was and
      complete with the response. */
  lemma ChunksReassemble(store: BleReceive.Store, response: string, id: nat, mtu: nat)
    requires mtu < 0x1_0000 && id !in store && |response| > 0
    ensures var fs := BleReceive.SenderChunks(id, Pieces(response, ChunkStep(mtu)), 0);
      && ReadAllMessages(Chunked(response, id, mtu)) == Some(fs)
      && BleReceive.AcceptAll(store, fs).0 == store
      && BleReceive.AcceptAll(store, fs).1 == seq(|fs| - 1, _ => BleReceive.Stored) + [BleReceive.Completed(response)]
  {
    var ps := Pieces(response, ChunkStep(mtu));
    PieceCountBound(|response|, ChunkStep(mtu), 0);
    ReadAllFrom(id, ps, 0);
    assert ChunkMessages(id, ps)[0..] == ChunkMessages(id, ps);
    BleReceive.InOrderDeliveryReassembles(store, id, ps);
    PiecesConcat(response, ChunkStep(mtu));
  }

  /** What a central receives from the firmware's `SendResponse` of a long
      response without control bytes over an ATT MTU of 325 or more: the
      notifications read back as envelopes and, fed in order to a store that
      holds nothing for the id, complete with the response itself. */
  lemma SendResponseReassembles(store: BleReceive.Store, link: Link, response: string)
    requires link.mtu < 0x1_0000 && link.nextId < UINT32_MODULUS && |response| < UINT32_MODULUS
    requires link.connected && |response| > MAX_CHUNK_SIZE && link.nextId !in store
    requires Printable(response) && EffectiveMtu(link.mtu) >= WORST_OVERHEAD + 2 * MAX_CHUNK_SIZE
    ensures var fs := ReadAllMessages(SendResponse(link, response).1);
      && fs.Some? && |fs.value| == PieceCount(|response|, MAX_CHUNK_SIZE)
      && BleReceive.AcceptAll(store, fs.value).0 == store
      && BleReceive.AcceptAll(store, fs.value).1
         == seq(|fs.value| - 1, _ => BleReceive.Stored) + [BleReceive.Completed(response)]
  {
    ChunkedAgreesOnWideMtu(response, link.nextId, link.mtu);
    ChunksReassemble(store, response, link.nextId, link.mtu);
    assert ChunkStep(link.mtu) == MAX_CHUNK_SIZE;
  }

  /** The corrected `SendResponse` is received whole at every MTU. */
  lemma SendResponseCorrectedReassembles(store: BleReceive.Store, link: Link, response: string)
    requires link.mtu < 0x1_0000 && link.nextId < UINT32_MODULUS
    requires link.connected && |response| > MAX_CHUNK_SIZE && link.nextId !in store
    ensures var fs := ReadAllMessages(SendResponseCorrected(link, response).1);
      && fs.Some?
      && BleReceive.AcceptAll(store, fs.value).0 == store
      && BleReceive.AcceptAll(store, fs.value).1
         == seq(|fs.value| - 1, _ => BleReceive.Stored) + [BleReceive.Completed(response)]
  {
    ChunksReassemble(store, response, link.nextId, link.mtu);
  }
}

=== FILE: ble_uuid.dfy ===
/** The 128-bit UUIDs of the BLE service and its characteristic. The header
    gives each UUID in its textual form and as the little-endian byte array
    NimBLE expects, which is the textual byte order reversed. */
module BleUuid {
  import opened Common
  import opened JsonText

  const SERVICE_UUID_TEXT: string := "0d9be2a0-4757-43d9-83df-704ae274b8df"
  const CHARACTERISTIC_UUID_TEXT: string := "8116d8c0-d45d-4fdf-998e-33ab8c471d59"

  const SERVICE_UUID_BYTES: seq<nat> :=
    [0xdf, 0xb8, 0x74, 0xe2, 0x4a, 0x70, 0xdf, 0x83,
     0xd9, 0x43, 0x57, 0x47, 0xa0, 0xe2, 0x9b, 0x0d]

  const CHARACTERISTIC_UUID_BYTES: seq<nat> :=
    [0x59, 0x1d, 0x47, 0x8c, 0xab, 0x33, 0x8e, 0x99,
     0xdf, 0x4f, 0x5d, 0xd4, 0xc0, 0xd8, 0x16, 0x81]

  predicate IsBytes(b: seq<nat>) { forall i :: 0 <= i < |b| ==> b[i] < 256 }

  function Reverse<T>(s: seq<T>): (r: seq<T>)
    ensures |r| == |s|
    ensures forall i :: 0 <= i < |s| ==> r[i] == s[|s| - 1 - i]
  {
    seq(|s|, i requires 0 <= i < |s| => s[|s| - 1 - i])
  }

  /** Positions of the four hyphens of the 8-4-4-4-12 textual layout. */
  predicate IsHyphenPos(k: int) { k == 8 || k == 13 || k == 18 || k == 23 }

  /** Number of hyphens before text position `k`. */
  function HyphensBefore(k: int): nat
  {
    (if k > 8 then 1 else 0) + (if k > 13 then 1 else 0) + (if k > 18 then 1 else 0) + (if k > 23 then 1 else 0)
  }

  /** Text position of the high hex digit of byte `i` (the low digit follows it). */
  function BytePos(i: nat): nat
    requires i < 16
  {
    2 * i + (if i >= 4 then 1 else 0) + (if i >= 6 then 1 else 0) + (if i >= 8 then 1 else 0) + (if i >= 10 then 1 else 0)
  }

  /** The hex digit at text position `k` (not a hyphen position) of the UUID with bytes `b`. */
  function NibbleAt(b: seq<nat>, k: nat): (c: char)
    requires |b| == 16 && IsBytes(b)
    requires k < 36 && !IsHyphenPos(k)
  {
    var n := k - HyphensBefore(k);
    if n % 2 == 0 then HexDigit(b[n / 2] / 16) else HexDigit(b[n / 2] % 16)
  }

  /** The textual form, lower-case hex, of a UUID given in textual byte order. */
  function FormatUuid(b: seq<nat>): (t: string)
    requires |b| == 16 && IsBytes(b)
    ensures |t| == 36
  {
    seq(36, k requires 0 <= k < 36 => if IsHyphenPos(k) then '-' else NibbleAt(b, k))
  }

  predicate WellFormedUuidText(t: string)
  {
    && |t| == 36
    && (forall k :: 0 <= k < 36 && IsHyphenPos(k) ==> t[k] == '-')
    && (forall k :: 0 <= k < 36 && !IsHyphenPos(k) ==> IsHexChar(t[k]))
  }

  /** Parses 8-4-4-4-12 hex text (either case) into its 16 bytes in textual order. */
  function ParseUuid(t: string): (r: Option<seq<nat>>)
    ensures r.Some? <==> WellFormedUuidText(t)
    ensures r.Some? ==> |r.value| == 16 && IsBytes(r.value)
  {
    if !WellFormedUuidText(t) then None
    else
      assert forall i :: 0 <= i < 16 ==> !IsHyphenPos(BytePos(i)) && !IsHyphenPos(BytePos(i) + 1) && BytePos(i) + 1 < 36;
      Some(seq(16, i requires 0 <= i < 16 => HexValue(t[BytePos(i)]) * 16 + HexValue(t[BytePos(i) + 1])))
  }

  lemma BytePosNibbles(i: nat)
    requires i < 16
    ensures BytePos(i) + 1 < 36 && !IsHyphenPos(BytePos(i)) && !IsHyphenPos(BytePos(i) + 1)
    ensures BytePos(i) - HyphensBefore(BytePos(i)) == 2 * i
    ensures BytePos(i) + 1 - HyphensBefore(BytePos(i) + 1) == 2 * i + 1
  {
  }

  /** Formatting then parsing gives back the bytes. */
  lemma ParseFormatUuid(b: seq<nat>)
    requires |b| == 16 && IsBytes(b)
    ensures ParseUuid(FormatUuid(b)) == Some(b)
  {
    var t := FormatUuid(b);
    forall k | 0 <= k < 36 && !IsHyphenPos(k)
      ensures IsHexChar(t[k])
    {
      var n := k - HyphensBefore(k);
      HexDigitValue(b[n / 2] / 16);
      HexDigitValue(b[n / 2] % 16);
    }
    assert WellFormedUuidText(t);
    var r := ParseUuid(t).value;
    forall i | 0 <= i < 16
      ensures r[i] == b[i]
    {
      BytePosNibbles(i);
      HexDigitValue(b[i] / 16);
      HexDigitValue(b[i] % 16);
      var k := BytePos(i);
      assert t[k] == HexDigit(b[i] / 16) && t[k + 1] == HexDigit(b[i] % 16);
    }
    assert r == b;
  }

  lemma ServiceTextPart0()
    ensures forall k :: 0 <= k < 4 ==> FormatUuid(Reverse(SERVICE_UUID_BYTES))[k] == SERVICE_UUID_TEXT[k]
  {
    var f := FormatUuid(Reverse(SERVICE_UUID_BYTES));
    forall k | 0 <= k < 4
      ensures f[k] == SERVICE_UUID_TEXT[k]
    {
      if k == 0 { } else if k == 1 { } else if k == 2 { } else { }
    }
  }

  lemma ServiceTextPart1()
    ensures forall k :: 4 <= k < 8 ==> FormatUuid(Reverse(SERVICE_UUID_BYTES))[k] == SERVICE_UUID_TEXT[k]
  {
    var f := FormatUuid(Reverse(SERVICE_UUID_BYTES));
    forall k | 4 <= k < 8
      ensures f[k] == SERVICE_UUID_TEXT[k]
    {
      if k == 4 { } else if k == 5 { } else if k == 6 { } else { }
    }
  }

  lemma ServiceTextPart2()
    ensures forall k :: 8 <= k < 12 ==> FormatUuid(Reverse(SERVICE_UUID_BYTES))[k] == SERVICE_UUID_TEXT[k]
  {
    var f := FormatUuid(Reverse(SERVICE_UUID_BYTES));
    forall k | 8 <= k < 12
      ensures f[k] == SERVICE_UUID_TEXT[k]
    {
      if k == 8 { } else if k == 9 { } else if k == 10 { } else { }
    }
  }

  lemma ServiceTextPart3()
    ensures forall k :: 12 <= k < 16 ==> FormatUuid(Reverse(SERVICE_UUID_BYTES))[k] == SERVICE_UUID_TEXT[k]
  {
    var f := FormatUuid(Reverse(SERVICE_UUID_BYTES));
    forall k | 12 <= k < 16
      ensures f[k] == SERVICE_UUID_TEXT[k]
    {
      if k == 12 { } else if k == 13 { } else if k == 14 { } else { }
    }
  }

  lemma ServiceTextPart4()
    ensures forall k :: 16 <= k < 20 ==> FormatUuid(Reverse(SERVICE_UUID_BYTES))[k] == SERVICE_UUID_TEXT[k]
  {
    var f := FormatUuid(Reverse(SERVICE_UUID_BYTES));
    forall k | 16 <= k < 20
      ensures f[k] == SERVICE_UUID_TEXT[k]
    {
      if k == 16 { } else if k == 17 { } else if k == 18 { } else { }
    }
  }

  lemma ServiceTextPart5()
    ensures forall k :: 20 <= k < 24 ==> FormatUuid(Reverse(SERVICE_UUID_BYTES))[k] == SERVICE_UUID_TEXT[k]
  {
    var f := FormatUuid(Reverse(SERVICE_UUID_BYTES));
    forall k | 20 <= k < 24
      ensures f[k] == SERVICE_UUID_TEXT[k]
    {
      if k == 20 { } else if k == 21 { } else if k == 22 { } else { }
    }
  }

  lemma ServiceTextPart6()
    ensures forall k :: 24 <= k < 28 ==> FormatUuid(Reverse(SERVICE_UUID_BYTES))[k] == SERVICE_UUID_TEXT[k]
  {
    var f := FormatUuid(Reverse(SERVICE_UUID_BYTES));
    forall k | 24 <= k < 28
      ensures f[k] == SERVICE_UUID_TEXT[k]
    {
      if k == 24 { } else if k == 25 { } else if k == 26 { } else { }
    }
  }

  lemma ServiceTextPart7()
    ensures forall k :: 28 <= k < 32 ==> FormatUuid(Reverse(SERVICE_UUID_BYTES))[k] == SERVICE_UUID_TEXT[k]
  {
    var f := FormatUuid(Reverse(SERVICE_UUID_BYTES));
    forall k | 28 <= k < 32
      ensures f[k] == SERVICE_UUID_TEXT[k]
    {
      if k == 28 { } else if k == 29 { } else if k == 30 { } else { }
    }
  }

  lemma ServiceTextPart8()
    ensures forall k :: 32 <= k < 36 ==> FormatUuid(Reverse(SERVICE_UUID_BYTES))[k] == SERVICE_UUID_TEXT[k]
  {
    var f := FormatUuid(Reverse(SERVICE_UUID_BYTES));
    forall k | 32 <= k < 36
      ensures f[k] == SERVICE_UUID_TEXT[k]
    {
      if k == 32 { } else if k == 33 { } else if k == 34 { } else { }
    }
  }

  /** The service UUID array, read in reverse, is the UUID written in its comment. */
  lemma ServiceUuidMatchesText()
    ensures |SERVICE_UUID_BYTES| == 16
    ensures FormatUuid(Reverse(SERVICE_UUID_BYTES)) == SERVICE_UUID_TEXT
    ensures ParseUuid(SERVICE_UUID_TEXT) == Some(Reverse(SERVICE_UUID_BYTES))
  {
    ServiceTextPart0();
    ServiceTextPart1();
    ServiceTextPart2();
    ServiceTextPart3();
    ServiceTextPart4();
    ServiceTextPart5();
    ServiceTextPart6();
    ServiceTextPart7();
    ServiceTextPart8();
    ParseFormatUuid(Reverse(SERVICE_UUID_BYTES));
  }

  lemma CharacteristicTextPart0()
    ensures forall k :: 0 <= k < 4 ==> FormatUuid(Reverse(CHARACTERISTIC_UUID_BYTES))[k] == CHARACTERISTIC_UUID_TEXT[k]
  {
    var f := FormatUuid(Reverse(CHARACTERISTIC_UUID_BYTES));
    forall k | 0 <= k < 4
      ensures f[k] == CHARACTERISTIC_UUID_TEXT[k]
    {
      if k == 0 { } else if k == 1 { } else if k == 2 { } else { }
    }
  }

  lemma CharacteristicTextPart1()
    ensures forall k :: 4 <= k < 8 ==> FormatUuid(Reverse(CHARACTERISTIC_UUID_BYTES))[k] == CHARACTERISTIC_UUID_TEXT[k]
  {
    var f := FormatUuid(Reverse(CHARACTERISTIC_UUID_BYTES));
    forall k | 4 <= k < 8
      ensures f[k] == CHARACTERISTIC_UUID_TEXT[k]
    {
      if k == 4 { } else if k == 5 { } else if k == 6 { } else { }
    }
  }

  lemma CharacteristicTextPart2()
    ensures forall k :: 8 <= k < 12 ==> FormatUuid(Reverse(CHARACTERISTIC_UUID_BYTES))[k] == CHARACTERISTIC_UUID_TEXT[k]
  {
    var f := FormatUuid(Reverse(CHARACTERISTIC_UUID_BYTES));
    forall k | 8 <= k < 12
      ensures f[k] == CHARACTERISTIC_UUID_TEXT[k]
    {
      if k == 8 { } else if k == 9 { } else if k == 10 { } else { }
    }
  }

  lemma CharacteristicTextPart3()
    ensures forall k :: 12 <= k < 16 ==> FormatUuid(Reverse(CHARACTERISTIC_UUID_BYTES))[k] == CHARACTERISTIC_UUID_TEXT[k]
  {
    var f := FormatUuid(Reverse(CHARACTERISTIC_UUID_BYTES));
    forall k | 12 <= k < 16
      ensures f[k] == CHARACTERISTIC_UUID_TEXT[k]
    {
      if k == 12 { } else if k == 13 { } else if k == 14 { } else { }
    }
  }

  lemma CharacteristicTextPart4()
    ensures forall k :: 16 <= k < 20 ==> FormatUuid(Reverse(CHARACTERISTIC_UUID_BYTES))[k] == CHARACTERISTIC_UUID_TEXT[k]
  {
    var f := FormatUuid(Reverse(CHARACTERISTIC_UUID_BYTES));
    forall k | 16 <= k < 20
      ensures f[k] == CHARACTERISTIC_UUID_TEXT[k]
    {
      if k == 16 { } else if k == 17 { } else if k == 18 { } else { }
    }
  }

  lemma CharacteristicTextPart5()
    ensures forall k :: 20 <= k < 24 ==> FormatUuid(Reverse(CHARACTERISTIC_UUID_BYTES))[k] == CHARACTERISTIC_UUID_TEXT[k]
  {
    var f := FormatUuid(Reverse(CHARACTERISTIC_UUID_BYTES));
    forall k | 20 <= k < 24
      ensures f[k] == CHARACTERISTIC_UUID_TEXT[k]
    {
      if k == 20 { } else if k == 21 { } else if k == 22 { } else { }
    }
  }

  lemma CharacteristicTextPart6()
    ensures forall k :: 24 <= k < 28 ==> FormatUuid(Reverse(CHARACTERISTIC_UUID_BYTES))[k] == CHARACTERISTIC_UUID_TEXT[k]
  {
    var f := FormatUuid(Reverse(CHARACTERISTIC_UUID_BYTES));
    forall k | 24 <= k < 28
      ensures f[k] == CHARACTERISTIC_UUID_TEXT[k]
    {
      if k == 24 { } else if k == 25 { } else if k == 26 { } else { }
    }
  }

  lemma CharacteristicTextPart7()
    ensures forall k :: 28 <= k < 32 ==> FormatUuid(Reverse(CHARACTERISTIC_UUID_BYTES))[k] == CHARACTERISTIC_UUID_TEXT[k]
  {
    var f := FormatUuid(Reverse(CHARACTERISTIC_UUID_BYTES));
    forall k | 28 <= k < 32
      ensures f[k] == CHARACTERISTIC_UUID_TEXT[k]
    {
      if k == 28 { } else if k == 29 { } else if k == 30 { } else { }
    }
  }

  lemma CharacteristicTextPart8()
    ensures forall k :: 32 <= k < 36 ==> FormatUuid(Reverse(CHARACTERISTIC_UUID_BYTES))[k] == CHARACTERISTIC_UUID_TEXT[k]
  {
    var f := FormatUuid(Reverse(CHARACTERISTIC_UUID_BYTES));
    forall k | 32 <= k < 36
      ensures f[k] == CHARACTERISTIC_UUID_TEXT[k]
    {
      if k == 32 { } else if k == 33 { } else if k == 34 { } else { }
    }
  }

  /** The characteristic UUID array, read in reverse, is the UUID written in its comment. */
  lemma CharacteristicUuidMatchesText()
    ensures |CHARACTERISTIC_UUID_BYTES| == 16
    ensures FormatUuid(Reverse(CHARACTERISTIC_UUID_BYTES)) == CHARACTERISTIC_UUID_TEXT
    ensures ParseUuid(CHARACTERISTIC_UUID_TEXT) == Some(Reverse(CHARACTERISTIC_UUID_BYTES))
  {
    CharacteristicTextPart0();
    CharacteristicTextPart1();
    CharacteristicTextPart2();
    CharacteristicTextPart3();
    CharacteristicTextPart4();
    CharacteristicTextPart5();
    CharacteristicTextPart6();
    CharacteristicTextPart7();
    CharacteristicTextPart8();
    ParseFormatUuid(Reverse(CHARACTERISTIC_UUID_BYTES));
  }
}

=== FILE: camera.dfy ===
/** The pure parts of the ESP32 camera driver: the preview buffer chosen for
    a frame size, the byte swap that turns a captured RGB565 frame into the
    preview, the hand-back of driver frame buffers while capturing, and the
    multipart/form-data request that uploads a photo to the explain server
    (RFC 7578 section 4.1, with delimiters as in section 5.1.1 of RFC 2046).
    The sensor, the JPEG encoder thread, its queue and the HTTP client are
    parameters: what they return is given, not computed. */
module Camera {
  import opened Common

  type Byte = x: int | 0 <= x < 256

  // ---------------------------------------------------------------------
  // The preview buffer.
  // ---------------------------------------------------------------------

  /** The frame sizes of the camera configuration; `OtherSize` stands for
      every size the preview does not support. */
  datatype FrameSize = SVGA | VGA | QVGA | Size128x128 | Size240x240 | OtherSize(code: nat)

  /** The preview image: width, height, bytes per row, buffer size and the
      buffer itself, or None where it is a null pointer. */
  datatype Preview = Preview(w: nat, h: nat, stride: nat, dataSize: nat, data: Option<seq<Byte>>)

  /** The pixel dimensions of the sizes the preview supports. */
  function Dimensions(size: FrameSize): Option<(nat, nat)>
  {
    match size
    case SVGA => Some((800, 600))
    case VGA => Some((640, 480))
    case QVGA => Some((320, 240))
    case Size128x128 => Some((128, 128))
    case Size240x240 => Some((240, 240))
    case OtherSize(_) => None
  }

  /** A preview buffer holds exactly one RGB565 image: two bytes a pixel. */
  predicate HoldsRgb565(p: Preview)
  {
    p.stride == 2 * p.w && p.dataSize == p.stride * p.h
    && (p.data.Some? ==> |p.data.value| == p.dataSize)
  }

  /** The constructor's preview set-up; `allocOk` is whether the buffer
      allocation succeeded. Fresh memory is modelled as zero bytes. */
  function MakePreview(size: FrameSize, allocOk: bool): (p: Preview)
    ensures HoldsRgb565(p)
    ensures p.dataSize > 0 <==> Dimensions(size).Some?
    ensures p.data.Some? <==> Dimensions(size).Some? && allocOk
    ensures Dimensions(size).Some? ==> (p.w, p.h) == Dimensions(size).value
  {
    match Dimensions(size)
    case None => Preview(0, 0, 0, 0, None)
    case Some(dims) =>
      var w := dims.0;
      var h := dims.1;
      var n := w * h * 2;
      Preview(w, h, w * 2, n, if allocOk then Some(seq(n, _ => 0)) else None)
  }

  /** The largest preview buffer is the SVGA one, 960000 bytes. */
  lemma PreviewAtMostSvga(size: FrameSize, allocOk: bool)
    ensures MakePreview(size, allocOk).dataSize <= MakePreview(SVGA, allocOk).dataSize == 960000
  {
  }

  // ---------------------------------------------------------------------
  // The byte swap.
  // ---------------------------------------------------------------------

  /** `__builtin_bswap16`. */
  function Bswap16(x: nat): (r: nat)
    requires x < 0x10000
    ensures r < 0x10000
    ensures r % 256 == x / 256 && r / 256 == x % 256
  {
    (x % 256) * 256 + x / 256
  }

  lemma Bswap16Involution(x: nat)
    requires x < 0x10000
    ensures Bswap16(Bswap16(x)) == x
  {
  }

  /** Pixel `i` of a buffer as a little-endian 16-bit word, as the ESP32
      reads a `uint16_t`. */
  function Word(s: seq<Byte>, i: nat): (x: nat)
    requires 2 * i + 1 < |s|
    ensures x < 0x10000
  {
    s[2 * i] as int + 256 * s[2 * i + 1] as int
  }

  /** The copy loop on bytes: the two bytes of every whole pixel swap
      places; an odd last byte is not copied. */
  function SwapPixels(src: seq<Byte>): (r: seq<Byte>)
    ensures |r| == |src| / 2 * 2
    ensures forall k :: 0 <= k < |src| / 2 ==> r[2 * k] == src[2 * k + 1] && r[2 * k + 1] == src[2 * k]
    decreases |src|
  {
    if |src| < 2 then []
    else
      var tail := SwapPixels(src[2..]);
      assert forall k :: 1 <= k < |src| / 2 ==> ([src[1], src[0]] + tail)[2 * k] == tail[2 * (k - 1)];
      [src[1], src[0]] + tail
  }

  /** A little-endian word splits back into its two bytes. */
  lemma WordBytes(lo: nat, hi: nat)
    requires lo < 256 && hi < 256
    ensures (lo + 256 * hi) % 256 == lo && (lo + 256 * hi) / 256 == hi
  {
  }

  /** Every pixel of the swapped buffer is the byte-swapped source pixel. */
  lemma SwapIsBswap16(src: seq<Byte>, i: nat)
    requires i < |src| / 2
    ensures Word(SwapPixels(src), i) == Bswap16(Word(src, i))
  {
    var r := SwapPixels(src);
    var lo: nat, hi: nat := src[2 * i], src[2 * i + 1];
    assert r[2 * i] == hi && r[2 * i + 1] == lo;
    assert Word(src, i) == lo + 256 * hi;
    assert Word(r, i) == hi + 256 * lo;
    WordBytes(lo, hi);
  }

  /** Swapping twice restores each whole pixel's two bytes. */
  lemma SwapPixelsTwicePixel(src: seq<Byte>, k: nat)
    requires k < |src| / 2
    ensures |SwapPixels(SwapPixels(src))| == |src| / 2 * 2
    ensures SwapPixels(SwapPixels(src))[2 * k] == src[2 * k]
    ensures SwapPixels(SwapPixels(src))[2 * k + 1] == src[2 * k + 1]
  {
    var once := SwapPixels(src);
    var n := |src| / 2;
    assert |once| == 2 * n && |once| / 2 == n;
    assert SwapPixels(once)[2 * k] == once[2 * k + 1];
  }

  /** Swapping twice gives back the whole pixels of the source. */
  lemma SwapPixelsInvolution(src: seq<Byte>)
    ensures SwapPixels(SwapPixels(src)) == src[..|src| / 2 * 2]
  {
    var once := SwapPixels(src);
    var twice := SwapPixels(once);
    var n := |src| / 2;
    assert |once| == 2 * n;
    assert |once| / 2 == n;
    assert |twice| == 2 * n;
    forall i | 0 <= i < 2 * n
      ensures twice[i] == src[i]
    {
      var k := i / 2;
      assert 0 <= k < n && (i == 2 * k || i == 2 * k + 1);
      SwapPixelsTwicePixel(src, k);
    }
  }

  /** The preview after a capture: the swapped pixels of the frame, over
      the start of the previous buffer contents. */
  function WritePreview(buffer: seq<Byte>, frame: seq<Byte>): (r: seq<Byte>)
    requires |frame| <= |buffer|
    ensures |r| == |buffer|
    ensures r[..|frame| / 2 * 2] == SwapPixels(frame)
    ensures r[|frame| / 2 * 2..] == buffer[|frame| / 2 * 2..]
  {
    SwapPixels(frame) + buffer[|frame| / 2 * 2..]
  }

  /** An RGB565 frame of the preview's own size replaces the whole buffer,
      and swapping the preview back gives the frame. */
  lemma FullFrameRoundTrip(buffer: seq<Byte>, frame: seq<Byte>)
    requires |frame| == |buffer| && |frame| % 2 == 0
    ensures WritePreview(buffer, frame) == SwapPixels(frame)
    ensures SwapPixels(WritePreview(buffer, frame)) == frame
  {
    SwapPixelsInvolution(frame);
  }


  // ---------------------------------------------------------------------
  // Capturing.
  // ---------------------------------------------------------------------

  /** A frame buffer of the driver; `id` tells buffers apart. */
  datatype Frame = Frame(id: nat, bytes: seq<Byte>)

  /** The driver state the camera object keeps: the frame buffer it holds,
      the preview, and whether the preview has been handed to the display. */
  datatype Camera = Camera(fb: Option<Frame>, preview: Preview, shown: bool)

  /** `Capture` takes this many frames and keeps the last, for a stable image. */
  const FRAMES_TO_GET: nat := 2

  /** The frame buffers an optional pointer stands for. */
  function Held(fb: Option<Frame>): seq<Frame>
  {
    if fb.Some? then [fb.value] else []
  }

  /** The buffers among the results of a run of frame requests. */
  function Obtained(gets: seq<Option<Frame>>): (r: seq<Frame>)
    ensures |r| <= |gets|
  {
    if gets == [] then [] else Held(gets[0]) + Obtained(gets[1..])
  }

  lemma ObtainedAppend(gets: seq<Option<Frame>>, g: Option<Frame>)
    ensures Obtained(gets + [g]) == Obtained(gets) + Held(g)
  {
    if gets != [] {
      assert (gets + [g])[1..] == gets[1..] + [g];
      ObtainedAppend(gets[1..], g);
    }
  }

  /** Every frame the driver hands out fits the preview buffer. */
  predicate FramesFit(gets: seq<Option<Frame>>, p: Preview)
  {
    forall i :: 0 <= i < |gets| && gets[i].Some? && p.data.Some? ==> |gets[i].value.bytes| <= |p.data.value|
  }

  /** Frames the driver captures as RGB565 at no more than the configured
      size fit the preview buffer the constructor made for that size, so
      they meet what `Capture` asks of its frames. */
  lemma FrameFitsPreview(size: FrameSize, allocOk: bool, gets: seq<Option<Frame>>)
    requires Dimensions(size).Some?
    requires forall i :: 0 <= i < |gets| && gets[i].Some? ==>
      |gets[i].value.bytes| <= 2 * Dimensions(size).value.0 * Dimensions(size).value.1
    ensures FramesFit(gets, MakePreview(size, allocOk))
  {
  }

  /** `Capture`: `gets` are the results of the driver's frame requests in
      order (None for a failed request), `hasDisplay` whether the board has
      a display. Returns the result, the new state, the buffers handed back
      to the driver in order, and how many requests were made. */
  method Capture(cam: Camera, gets: seq<Option<Frame>>, hasDisplay: bool)
    returns (ok: bool, next: Camera, returned: seq<Frame>, used: nat)
    requires |gets| >= FRAMES_TO_GET
    requires FramesFit(gets, cam.preview)
    ensures ok <==> gets[0].Some? && gets[1].Some?
    ensures used == if gets[0].Some? then 2 else 1
    ensures Held(cam.fb) + Obtained(gets[..used]) == returned + Held(next.fb)
    ensures next.fb == gets[used - 1]
    ensures !ok || cam.preview.dataSize == 0 || cam.preview.data.None? || !hasDisplay ==>
      next.preview == cam.preview && next.shown == cam.shown
    ensures ok && cam.preview.dataSize != 0 && cam.preview.data.Some? && hasDisplay ==>
      next.preview == cam.preview.(data := Some(WritePreview(cam.preview.data.value, gets[1].value.bytes)))
      && next.shown
  {
    var fb := cam.fb;
    returned := [];
    used := 0;
    var i := 0;
    while i < FRAMES_TO_GET
      invariant 0 <= i <= FRAMES_TO_GET && used == i
      invariant Held(cam.fb) + Obtained(gets[..used]) == returned + Held(fb)
      invariant i > 0 ==> fb == gets[i - 1] && fb.Some?
      invariant i == 2 ==> gets[0].Some?
    {
      // The held buffer, if any, goes back to the driver.
      returned := returned + Held(fb);
      fb := gets[i];
      used := used + 1;
      assert gets[..used] == gets[..used - 1] + [gets[used - 1]];
      ObtainedAppend(gets[..used - 1], gets[used - 1]);
      if fb.None? {
        ok := false;
        next := cam.(fb := fb);
        return;
      }
      i := i + 1;
    }
    ok := true;
    next := cam.(fb := fb);
    if cam.preview.dataSize == 0 || cam.preview.data.None? || !hasDisplay {
      return;
    }
    var frame := fb.value.bytes;
    next := next.(preview := cam.preview.(data := Some(WritePreview(cam.preview.data.value, frame))), shown := true);
  }

  // ---------------------------------------------------------------------
  // The multipart upload.
  // ---------------------------------------------------------------------

  const CRLF: string := "\r\n"
  const BOUNDARY: string := "----ESP32_CAMERA_BOUNDARY"
  /** A delimiter line between parts, with the line break that ends the part before it. */
  const DELIMITER: string := CRLF + "--" + BOUNDARY
  /** The dash-boundary line that opens the body. */
  const OPEN: string := "--" + BOUNDARY + CRLF
  /** What follows the last delimiter: the close marker and a line break. */
  const CLOSE: string := "--" + CRLF
  const QUESTION_HEAD: string := "Content-Disposition: form-data; name=\"question\"" + CRLF + CRLF
  const FILE_HEAD: string :=
    "Content-Disposition: form-data; name=\"file\"; filename=\"camera.jpg\"" + CRLF
    + "Content-Type: image/jpeg" + CRLF + CRLF

  /** The request body, written in the source's four pieces: the question
      field, the file header, the JPEG bytes and the closing delimiter. */
  function MultipartBody(question: string, jpeg: string): string
  {
    var questionField := "--" + BOUNDARY + CRLF + QUESTION_HEAD + question + CRLF;
    var fileHeader := "--" + BOUNDARY + CRLF + FILE_HEAD;
    var footer := CRLF + "--" + BOUNDARY + "--" + CRLF;
    questionField + fileHeader + jpeg + footer
  }

  /** The first part: the question field with its headers. */
  function QuestionPart(question: string): string { QUESTION_HEAD + question }

  /** The second part: the photo with its headers. */
  function FilePart(jpeg: string): string { FILE_HEAD + jpeg }

  /** `d` occurs in `s` at position `p`. */
  predicate OccursAt(s: string, d: string, p: nat)
  {
    p + |d| <= |s| && s[p..p + |d|] == d
  }

  /** The first position at or after `from` where `d` occurs in `s`. */
  function FindFrom(s: string, d: string, from: nat): (r: Option<nat>)
    ensures r.Some? ==> from <= r.value && OccursAt(s, d, r.value)
    ensures r.Some? ==> forall p :: from <= p < r.value ==> !OccursAt(s, d, p)
    ensures forall p :: from <= p && OccursAt(s, d, p) ==> r.Some? && r.value <= p
    decreases |s| - from
  {
    if from + |d| > |s| then None
    else if s[from..from + |d|] == d then Some(from)
    else FindFrom(s, d, from + 1)
  }

  /** The delimiter does not occur in a part, as section 5.1.1 of RFC 2046
      demands of every encapsulated part. */
  predicate Free(s: string)
  {
    forall p :: 0 <= p <= |s| - |DELIMITER| ==> !OccursAt(s, DELIMITER, p)
  }

  /** A multipart body split at its delimiters into its two parts, or None
      where it is not a two-part body with this boundary. */
  function SplitBody(body: string): Option<(string, string)>
  {
    if !(OPEN <= body) then None
    else
      var rest := body[|OPEN|..];
      var first := FindFrom(rest, DELIMITER, 0);
      if first.None? then None
      else
        var after := rest[first.value + |DELIMITER|..];
        if !(CRLF <= after) then None
        else
          var rest2 := after[|CRLF|..];
          var second := FindFrom(rest2, DELIMITER, 0);
          if second.None? then None
          else if rest2[second.value + |DELIMITER|..] == CLOSE then
            Some((rest[..first.value], rest2[..second.value]))
          else None
  }

  /** The body is the opening dash-boundary, the question part, a
      delimiter, the file part and the close delimiter. */
  lemma BodyShape(question: string, jpeg: string)
    ensures MultipartBody(question, jpeg)
      == OPEN + (QuestionPart(question) + DELIMITER + (CRLF + (FilePart(jpeg) + DELIMITER + CLOSE)))
  {
    Regroup("--", BOUNDARY, CRLF, QUESTION_HEAD, question, FILE_HEAD, jpeg);
  }

  /** The regrouping behind `BodyShape`, for any pieces. */
  lemma Regroup(dd: string, b: string, crlf: string, qh: string, q: string, fh: string, j: string)
    ensures (dd + b + crlf + qh + q + crlf) + (dd + b + crlf + fh) + j + (crlf + dd + b + dd + crlf)
      == (dd + b + crlf) + ((qh + q) + (crlf + dd + b) + (crlf + ((fh + j) + (crlf + dd + b) + (dd + crlf))))
  {
  }

  /** Only the delimiter's first character is a carriage return, so an
      occurrence cannot start inside a part and end inside the delimiter. */
  lemma DelimiterCrOnlyFirst(k: nat)
    requires 0 < k < |DELIMITER|
    ensures DELIMITER[k] != '\r'
  {
    assert DELIMITER == "\r\n------ESP32_CAMERA_BOUNDARY";
  }

  /** In `s + DELIMITER + t` the first delimiter from position `from` on is
      the one after `s`, when `s` holds none. */
  lemma {:induction false} FindAfterFree(s: string, t: string, from: nat)
    requires Free(s) && from <= |s|
    ensures FindFrom(s + DELIMITER + t, DELIMITER, from) == Some(|s|)
    decreases |s| - from
  {
    var whole := s + DELIMITER + t;
    assert whole[|s|..|s| + |DELIMITER|] == DELIMITER;
    if from < |s| {
      if from + |DELIMITER| <= |s| {
        assert whole[from..from + |DELIMITER|] == s[from..from + |DELIMITER|];
        assert !OccursAt(s, DELIMITER, from);
      } else {
        var k := |s| - from;
        DelimiterCrOnlyFirst(k);
        assert whole[from..from + |DELIMITER|][k] == whole[|s|] == '\r';
      }
      FindAfterFree(s, t, from + 1);
    }
  }

  /** An occurrence of the delimiter inside `s` is found before the end of `s`. */
  lemma FindInsideNotFree(s: string, t: string)
    requires !Free(s)
    ensures FindFrom(s + t, DELIMITER, 0).Some?
    ensures FindFrom(s + t, DELIMITER, 0).value + |DELIMITER| <= |s|
  {
    var p :| 0 <= p <= |s| - |DELIMITER| && OccursAt(s, DELIMITER, p);
    assert (s + t)[p..p + |DELIMITER|] == s[p..p + |DELIMITER|];
    assert OccursAt(s + t, DELIMITER, p);
  }

  /** With no delimiter inside either part, splitting finds both parts. */
  lemma SplitFreeParts(q: string, f: string)
    requires Free(q) && Free(f)
    ensures SplitBody(OPEN + (q + DELIMITER + (CRLF + (f + DELIMITER + CLOSE)))) == Some((q, f))
  {
    var rest2 := f + DELIMITER + CLOSE;
    var rest := q + DELIMITER + (CRLF + rest2);
    assert (OPEN + rest)[|OPEN|..] == rest;
    FindAfterFree(q, CRLF + rest2, 0);
    assert rest[..|q|] == q;
    assert rest[|q| + |DELIMITER|..] == CRLF + rest2;
    assert (CRLF + rest2)[|CRLF|..] == rest2;
    FindAfterFree(f, CLOSE, 0);
    assert rest2[..|f|] == f;
    assert rest2[|f| + |DELIMITER|..] == CLOSE;
  }

  /** A delimiter inside the first part cuts it short. */
  lemma SplitFirstNotFree(q: string, f: string)
    requires !Free(q)
    ensures var r := SplitBody(OPEN + (q + DELIMITER + (CRLF + (f + DELIMITER + CLOSE)))); r.None? || |r.value.0| < |q|
  {
    var tail := DELIMITER + (CRLF + (f + DELIMITER + CLOSE));
    var rest := q + tail;
    assert rest == q + DELIMITER + (CRLF + (f + DELIMITER + CLOSE));
    assert (OPEN + rest)[|OPEN|..] == rest;
    FindInsideNotFree(q, tail);
  }

  /** A delimiter inside the second part cuts it short. */
  lemma SplitSecondNotFree(q: string, f: string)
    requires Free(q) && !Free(f)
    ensures var r := SplitBody(OPEN + (q + DELIMITER + (CRLF + (f + DELIMITER + CLOSE)))); r.None? || |r.value.1| < |f|
  {
    var rest2 := f + DELIMITER + CLOSE;
    var rest := q + DELIMITER + (CRLF + rest2);
    assert (OPEN + rest)[|OPEN|..] == rest;
    FindAfterFree(q, CRLF + rest2, 0);
    assert rest[|q| + |DELIMITER|..] == CRLF + rest2;
    assert (CRLF + rest2)[|CRLF|..] == rest2;
    FindInsideNotFree(f, DELIMITER + CLOSE);
    assert f + (DELIMITER + CLOSE) == rest2;
  }

  /** Splitting the body gives back exactly the question part and the file
      part if and only if neither part holds the delimiter. */
  lemma SplitBodyExact(question: string, jpeg: string)
    ensures SplitBody(MultipartBody(question, jpeg)) == Some((QuestionPart(question), FilePart(jpeg)))
        <==> Free(QuestionPart(question)) && Free(FilePart(jpeg))
  {
    var q := QuestionPart(question);
    var f := FilePart(jpeg);
    BodyShape(question, jpeg);
    if Free(q) && Free(f) {
      SplitFreeParts(q, f);
    } else if Free(q) {
      SplitSecondNotFree(q, f);
    } else {
      SplitFirstNotFree(q, f);
    }
  }

  /** The JPEG section: the queued chunks in order up to the first null
      chunk; the end of `chunks` stands for a failed receive. */
  function JpegData(chunks: seq<Option<string>>): string
  {
    if chunks == [] || chunks[0].None? then [] else chunks[0].value + JpegData(chunks[1..])
  }

  function Queued(parts: seq<string>): (r: seq<Option<string>>)
    ensures |r| == |parts| && forall k :: 0 <= k < |r| ==> r[k] == Some(parts[k])
  {
    if parts == [] then [] else [Some(parts[0])] + Queued(parts[1..])
  }

  lemma ConcatFront(parts: seq<string>)
    requires parts != []
    ensures Concat(parts) == parts[0] + Concat(parts[1..])
  {
    assert parts == [parts[0]] + parts[1..];
    ConcatAll([parts[0]], parts[1..]);
    assert [parts[0]][..0] == [];
  }

  /** The data chunks before the null chunk are sent, in order and whole;
      nothing queued after it is sent. */
  lemma {:induction false} JpegDataStopsAtNull(parts: seq<string>, rest: seq<Option<string>>)
    ensures JpegData(Queued(parts) + [None] + rest) == Concat(parts)
    ensures JpegData(Queued(parts)) == Concat(parts)
    decreases |parts|
  {
    if parts != [] {
      assert (Queued(parts) + [None] + rest)[1..] == Queued(parts[1..]) + [None] + rest;
      assert Queued(parts)[1..] == Queued(parts[1..]);
      JpegDataStopsAtNull(parts[1..], rest);
      ConcatFront(parts);
    }
  }

  // ---------------------------------------------------------------------
  // Explain.
  // ---------------------------------------------------------------------

  datatype Header = Header(name: string, value: string)

  datatype Request = Request(url: string, headers: seq<Header>, body: string)

  /** What the network side does: whether the JPEG queue was created,
      whether the connection opened, the status code and the response. */
  datatype Link = Link(queueOk: bool, connectOk: bool, status: int, response: string)

  /** The request sent, if one was, and the string `Explain` returns. */
  datatype Explained = Explained(request: Option<Request>, reply: string)

  /** Every failure reply opens with this. */
  const FAILURE_OPEN: string := "{\"success\": false, \"message\": \""
  const URL_NOT_SET: string := FAILURE_OPEN + "Image explain URL or token is not set\"}"
  const QUEUE_FAILED: string := FAILURE_OPEN + "Failed to create JPEG queue\"}"
  const CONNECT_FAILED: string := FAILURE_OPEN + "Failed to connect to explain URL\"}"
  const UPLOAD_FAILED: string := FAILURE_OPEN + "Failed to upload photo\"}"
  /** The corrected `Explain`'s reply when no frame is held; the firmware
      has no such reply, so the wording is this model's. */
  const NO_FRAME: string := FAILURE_OPEN + "Camera buffer is empty\"}"

  /** The request headers: the device and client ids, a bearer token when
      one is set, and the multipart content type with chunked transfer. */
  function Headers(deviceId: string, clientId: string, token: string): seq<Header>
  {
    [Header("Device-Id", deviceId), Header("Client-Id", clientId)]
    + (if token != "" then [Header("Authorization", "Bearer " + token)] else [])
    + [Header("Content-Type", "multipart/form-data; boundary=" + BOUNDARY),
       Header("Transfer-Encoding", "chunked")]
  }

  predicate HasHeader(hs: seq<Header>, name: string, value: string)
  {
    exists k :: 0 <= k < |hs| && hs[k] == Header(name, value)
  }

  /** An Authorization header is sent exactly when a token is set, and it
      carries that token; the content type names the body's boundary. */
  lemma AuthorizationIffToken(deviceId: string, clientId: string, token: string)
    ensures token != "" ==> HasHeader(Headers(deviceId, clientId, token), "Authorization", "Bearer " + token)
    ensures token == "" ==> forall k :: 0 <= k < |Headers(deviceId, clientId, token)| ==>
      Headers(deviceId, clientId, token)[k].name != "Authorization"
    ensures HasHeader(Headers(deviceId, clientId, token), "Content-Type", "multipart/form-data; boundary=" + BOUNDARY)
  {
    var hs := Headers(deviceId, clientId, token);
    if token != "" {
      assert hs[2] == Header("Authorization", "Bearer " + token);
      assert hs[3] == Header("Content-Type", "multipart/form-data; boundary=" + BOUNDARY);
    } else {
      assert hs[2] == Header("Content-Type", "multipart/form-data; boundary=" + BOUNDARY);
    }
  }

  /** `Explain` as the firmware runs it: asks the server about the captured
      photo. The held frame `fb` is never inspected: without one the encoder
      is handed a null frame, and the request goes out all the same. */
  function Explain(url: string, token: string, question: string, deviceId: string, clientId: string,
                   fb: Option<Frame>, chunks: seq<Option<string>>, link: Link): (r: Explained)
    ensures r.request.Some? <==> url != "" && link.queueOk && link.connectOk
    ensures url == "" ==> r == Explained(None, URL_NOT_SET)
    ensures r.request.Some? ==>
      r.request.value.url == url && r.request.value.headers == Headers(deviceId, clientId, token)
      && r.request.value.body == MultipartBody(question, JpegData(chunks))
    ensures r.request.Some? && link.status == 200 ==> r.reply == link.response
    ensures !(r.request.Some? && link.status == 200) ==> FAILURE_OPEN <= r.reply
  {
    if url == "" then Explained(None, URL_NOT_SET)
    else if !link.queueOk then Explained(None, QUEUE_FAILED)
    else if !link.connectOk then Explained(None, CONNECT_FAILED)
    else
      var request := Request(url, Headers(deviceId, clientId, token), MultipartBody(question, JpegData(chunks)));
      if link.status != 200 then Explained(Some(request), UPLOAD_FAILED)
      else Explained(Some(request), link.response)
  }

  /** The firmware's `Explain` uploads even when no frame is held: with a
      URL set and the queue and connection working, a request is sent for
      the missing frame instead of the error reply its documentation
      promises. */
  lemma ExplainSendsWithoutFrame()
    ensures var r := Explain("http://host/explain", "", "what is this?", "dev", "client",
                             None, [None], Link(true, true, 200, "{}"));
      && r.request.Some?
      && r.reply != NO_FRAME
  {
  }

  /** `Explain` with the check its documentation promises: an empty camera
      buffer is an error reply, tested after the URL and before anything is
      encoded or sent. */
  function ExplainChecked(url: string, token: string, question: string, deviceId: string, clientId: string,
                          fb: Option<Frame>, chunks: seq<Option<string>>, link: Link): (r: Explained)
    ensures r.request.Some? <==> url != "" && fb.Some? && link.queueOk && link.connectOk
    ensures url == "" ==> r == Explained(None, URL_NOT_SET)
    ensures url != "" && fb.None? ==> r == Explained(None, NO_FRAME)
    ensures r.request.Some? ==>
      r.request.value.url == url && r.request.value.headers == Headers(deviceId, clientId, token)
      && r.request.value.body == MultipartBody(question, JpegData(chunks))
    ensures r.request.Some? && link.status == 200 ==> r.reply == link.response
    ensures !(r.request.Some? && link.status == 200) ==> FAILURE_OPEN <= r.reply
  {
    if url != "" && fb.None? then Explained(None, NO_FRAME)
    else Explain(url, token, question, deviceId, clientId, fb, chunks, link)
  }

  /** With a frame held the corrected `Explain` is the firmware's; they
      differ only when the camera buffer is empty and a URL is set. */
  lemma ExplainCheckedAgrees(url: string, token: string, question: string, deviceId: string, clientId: string,
                             fb: Option<Frame>, chunks: seq<Option<string>>, link: Link)
    ensures ExplainChecked(url, token, question, deviceId, clientId, fb, chunks, link)
      != Explain(url, token, question, deviceId, clientId, fb, chunks, link)
      <==> url != "" && fb.None?
  {
    var r := Explain(url, token, question, deviceId, clientId, fb, chunks, link);
    if url != "" && fb.None? {
      if r.request.None? {
        var k := |FAILURE_OPEN|;
        assert r.reply == QUEUE_FAILED || r.reply == CONNECT_FAILED;
        assert r.reply[k] == 'F' != NO_FRAME[k];
      }
    }
  }

  /** An uploaded photo reaches the server whole: the body splits into the
      question part and the file part holding the JPEG chunks up to the
      null chunk, whenever neither holds the delimiter. */
  lemma ExplainUploadsPhoto(url: string, token: string, question: string, deviceId: string, clientId: string,
                            fb: Option<Frame>, parts: seq<string>, link: Link)
    requires url != "" && link.queueOk && link.connectOk
    requires Free(QuestionPart(question)) && Free(FilePart(Concat(parts)))
    ensures Explain(url, token, question, deviceId, clientId, fb, Queued(parts) + [None], link).request.Some?
    ensures SplitBody(Explain(url, token, question, deviceId, clientId, fb, Queued(parts) + [None], link).request.value.body)
      == Some((QuestionPart(question), FilePart(Concat(parts))))
  {
    JpegDataStopsAtNull(parts, []);
    assert Queued(parts) + [None] + [] == Queued(parts) + [None];
    SplitBodyExact(question, Concat(parts));
  }
}

=== FILE: common.dfy ===
/** Small shared vocabulary: an Option type, machine-integer helpers, C-style
    division, ASCII case mapping and decimal formatting/parsing of integers.
    Text of the firmware (C++ std::string, JSON text) is modelled as `string`,
    where every character stands for one byte of the original byte string. */
module Common {

  datatype Option<+T> = None | Some(value: T)

  const UINT32_MODULUS: int := 0x1_0000_0000
  const INT32_MAX: int := 0x7FFF_FFFF
  const INT32_MIN: int := -0x8000_0000

  /** A conversion to `uint32_t` (wrap-around modulo 2^32). */
  function ToUint32(x: int): (r: nat)
    ensures r < UINT32_MODULUS
    ensures 0 <= x < UINT32_MODULUS ==> r == x
  {
    if 0 <= x < UINT32_MODULUS then x else x % UINT32_MODULUS
  }

  /** The conversion keeps the value modulo 2^32. */
  lemma ToUint32Congruent(x: int)
    ensures (ToUint32(x) - x) % UINT32_MODULUS == 0
  {
  }

  /** Reinterprets a 32-bit pattern as a two's-complement `int32_t`. */
  function ToInt32(x: nat): (r: int)
    requires x < UINT32_MODULUS
    ensures INT32_MIN <= r <= INT32_MAX
    ensures ToUint32(r) == x
  {
    if x <= INT32_MAX then x else x - UINT32_MODULUS
  }

  /** Integer division as C and C++ define it: the quotient is truncated toward zero. */
  function CDiv(a: int, b: int): (q: int)
    requires b != 0
    ensures a >= 0 && b > 0 ==> q == a / b
    ensures 0 <= a - q * b < (if b > 0 then b else -b) || -(if b > 0 then b else -b) < a - q * b <= 0
  {
    if a >= 0 then a / b
    else if b > 0 then -((-a) / b)
    else (-a) / (-b)
  }

  function Min(a: int, b: int): int { if a < b then a else b }
  function Max(a: int, b: int): int { if a < b then b else a }

  predicate IsDigit(c: char) { '0' <= c <= '9' }

  predicate IsAsciiUpper(c: char) { 'A' <= c <= 'Z' }
  predicate IsAsciiLower(c: char) { 'a' <= c <= 'z' }

  function ToLowerChar(c: char): (r: char)
    ensures !IsAsciiUpper(r)
    ensures !IsAsciiUpper(c) ==> r == c
  {
    if IsAsciiUpper(c) then (c as int + 32) as char else c
  }

  function ToUpperChar(c: char): (r: char)
    ensures !IsAsciiLower(r)
    ensures !IsAsciiLower(c) ==> r == c
  {
    if IsAsciiLower(c) then (c as int - 32) as char else c
  }

  /** ASCII upper-casing of a whole string, character by character. */
  function Upper(s: string): (r: string)
    ensures |r| == |s|
    ensures forall i :: 0 <= i < |s| ==> r[i] == ToUpperChar(s[i])
  {
    if s == [] then [] else [ToUpperChar(s[0])] + Upper(s[1..])
  }

  /** ASCII lower-casing of a whole string, character by character. */
  function Lower(s: string): (r: string)
    ensures |r| == |s|
    ensures forall i :: 0 <= i < |s| ==> r[i] == ToLowerChar(s[i])
  {
    if s == [] then [] else [ToLowerChar(s[0])] + Lower(s[1..])
  }

  /** Replaces every occurrence of character `a` by the string `b`. */
  function ReplaceChar(s: string, a: char, b: string): (r: string)
    ensures a !in s ==> r == s
  {
    if s == [] then [] else (if s[0] == a then b else [s[0]]) + ReplaceChar(s[1..], a, b)
  }

  predicate StartsWith(s: string, prefix: string)
  {
    |prefix| <= |s| && s[..|prefix|] == prefix
  }

  predicate EndsWith(s: string, suffix: string)
  {
    |suffix| <= |s| && s[|s| - |suffix|..] == suffix
  }

  function DigitChar(d: nat): (c: char)
    requires d < 10
    ensures IsDigit(c)
  {
    ('0' as int + d) as char
  }

  function DigitValue(c: char): (d: nat)
    requires IsDigit(c)
    ensures d < 10
    ensures DigitChar(d) == c
  {
    c as int - '0' as int
  }

  /** Decimal digits of a natural number, most significant first (`%u`, `%lu`). */
  function NatToDecimal(n: nat): (s: string)
    ensures |s| > 0
    ensures forall i :: 0 <= i < |s| ==> IsDigit(s[i])
    decreases n
  {
    if n < 10 then [DigitChar(n)] else NatToDecimal(n / 10) + [DigitChar(n % 10)]
  }

  function Pow10(k: nat): (p: nat)
    ensures p >= 1
  {
    if k == 0 then 1 else 10 * Pow10(k - 1)
  }

  /** A number below 10^k has at most k decimal digits. */
  lemma {:induction false} DecimalWidth(n: nat, k: nat)
    requires 1 <= k && n < Pow10(k)
    ensures |NatToDecimal(n)| <= k
    decreases k
  {
    if n >= 10 {
      assert k >= 2;
      DecimalWidth(n / 10, k - 1);
    }
  }

  /** Every `uint32_t` prints with at most ten digits. */
  lemma Uint32Width(n: nat)
    requires n < UINT32_MODULUS
    ensures |NatToDecimal(n)| <= 10
  {
    assert Pow10(10) == 10_000_000_000 by {
      assert Pow10(5) == 100_000;
    }
    DecimalWidth(n, 10);
  }

  /** Decimal text of an integer with a leading '-' when negative (`std::to_string(int)`). */
  function IntToDecimal(n: int): (s: string)
    ensures |s| > 0
  {
    if n < 0 then "-" + NatToDecimal(-n) else NatToDecimal(n)
  }

  /** The value of a non-empty all-digit string. */
  function DecimalValue(s: string): nat
    requires forall i :: 0 <= i < |s| ==> IsDigit(s[i])
  {
    if s == [] then 0 else DecimalValue(s[..|s| - 1]) * 10 + DigitValue(s[|s| - 1])
  }

  /** Length of the longest all-digit prefix of `s`. */
  function DigitRun(s: string): (n: nat)
    ensures n <= |s|
    ensures forall i :: 0 <= i < n ==> IsDigit(s[i])
    ensures n < |s| ==> !IsDigit(s[n])
  {
    if s == [] || !IsDigit(s[0]) then 0 else 1 + DigitRun(s[1..])
  }

  lemma {:induction false} DecimalRoundTrip(n: nat)
    ensures DecimalValue(NatToDecimal(n)) == n
    decreases n
  {
    if n >= 10 {
      DecimalRoundTrip(n / 10);
      var s := NatToDecimal(n);
      assert s[..|s| - 1] == NatToDecimal(n / 10);
    }
  }

  /** Reading the leading digit run of decimal text followed by a non-digit
      recovers the number and the rest of the text. */
  lemma {:induction false} DecimalPrefixRoundTrip(n: nat, rest: string)
    requires rest == [] || !IsDigit(rest[0])
    ensures DigitRun(NatToDecimal(n) + rest) == |NatToDecimal(n)|
    ensures (NatToDecimal(n) + rest)[..|NatToDecimal(n)|] == NatToDecimal(n)
    ensures DecimalValue(NatToDecimal(n)) == n
  {
    DigitRunOfDigits(NatToDecimal(n), rest);
    DecimalRoundTrip(n);
  }

  lemma {:induction false} DigitRunOfDigits(d: string, rest: string)
    requires forall i :: 0 <= i < |d| ==> IsDigit(d[i])
    requires rest == [] || !IsDigit(rest[0])
    ensures DigitRun(d + rest) == |d|
    decreases |d|
  {
    if d != [] {
      assert (d + rest)[1..] == d[1..] + rest;
      DigitRunOfDigits(d[1..], rest);
    } else {
      assert d + rest == rest;
    }
  }

  /** A sequence is the part before position `k`, the element there, and the
      part after it. */
  lemma SplitAround<T>(s: seq<T>, k: nat)
    requires k < |s|
    ensures s == s[..k] + [s[k]] + s[k + 1..]
  {
  }

  /** Concatenation of a sequence of strings. */
  function Concat(parts: seq<string>): (r: string)
    ensures parts == [] ==> r == []
  {
    if parts == [] then [] else Concat(parts[..|parts| - 1]) + parts[|parts| - 1]
  }

  lemma ConcatAppend(parts: seq<string>, p: string)
    ensures Concat(parts + [p]) == Concat(parts) + p
  {
    assert (parts + [p])[..|parts|] == parts;
  }

  lemma {:induction false} ConcatAll(a: seq<string>, b: seq<string>)
    ensures Concat(a + b) == Concat(a) + Concat(b)
    decreases |b|
  {
    if b == [] {
      assert a + b == a;
    } else {
      var b' := b[..|b| - 1];
      assert a + b == (a + b') + [b[|b| - 1]];
      ConcatAll(a, b');
      ConcatAppend(a + b', b[|b| - 1]);
      ConcatAppend(b', b[|b| - 1]);
      assert b' + [b[|b| - 1]] == b;
    }
  }

  /** Joins strings with a separator, as Python's `sep.join(items)`. */
  function Join(items: seq<string>, sep: string): (r: string)
    ensures items == [] ==> r == []
    ensures |items| == 1 ==> r == items[0]
  {
    if items == [] then []
    else if |items| == 1 then items[0]
    else items[0] + sep + Join(items[1..], sep)
  }
}

=== FILE: gen_lang.dfy ===
/** The language header generator: a language file (a language code and
    string resources) and the names of the `.p3` sound files beside it and
    in the shared directory become a C++ header that declares one
    `constexpr const char*` per string and one `std::string_view` per sound,
    sorted, under a font macro derived from the language code. Reading
    JSON, listing directories and writing the file are not modelled. */
module GenLang {
  import opened Common
  import opened StringOrder

  /** One string resource. */
  datatype Entry = Entry(key: string, value: string)

  /** The parsed language file. `language` is None when the key is absent
      and Some(None) when it is present without a string `type`;
      `strings` is None when the key is absent. */
  datatype LanguageFile = LanguageFile(language: Option<Option<string>>, strings: Option<seq<Entry>>)

  datatype GenError =
    | InvalidStructure   // `ValueError("Invalid JSON structure")`
    | MissingType        // the lookup of `type` fails

  /** What goes into the template. */
  datatype Generated = Generated(code: string, fontMacro: string, stringLines: seq<string>, soundBlocks: seq<string>)

  datatype Outcome = Header(header: Generated) | Failed(error: GenError)

  // ---------------------------------------------------------------------
  // Escaping string values.
  // ---------------------------------------------------------------------

  /** The escaping the generator applies: a backslash before every double
      quote, nothing else. */
  function QuoteEscape(v: string): (r: string)
    ensures r != [] ==> r[0] != '"'
    ensures '"' !in v ==> r == v
  {
    ReplaceChar(v, '"', "\\\"")
  }

  /** Drops the backslash of every backslash-quote pair. */
  function Unquote(r: string): string
    decreases |r|
  {
    if r == [] then []
    else if |r| >= 2 && r[0] == '\\' && r[1] == '"' then ['"'] + Unquote(r[2..])
    else [r[0]] + Unquote(r[1..])
  }

  lemma QuoteEscapeStep(v: string)
    requires v != []
    ensures QuoteEscape(v) == (if v[0] == '"' then "\\\"" else [v[0]]) + QuoteEscape(v[1..])
  {
  }

  /** The inserted backslashes are the only change: removing them gives the
      value back. */
  lemma {:induction false} UnquoteQuoteEscape(v: string)
    ensures Unquote(QuoteEscape(v)) == v
    decreases |v|
  {
    if v != [] {
      var rest := QuoteEscape(v[1..]);
      QuoteEscapeStep(v);
      UnquoteQuoteEscape(v[1..]);
      if v[0] == '"' {
        assert QuoteEscape(v)[2..] == rest;
      } else {
        assert QuoteEscape(v) == [v[0]] + rest;
        assert QuoteEscape(v)[1..] == rest;
      }
      assert v == [v[0]] + v[1..];
    }
  }

  /** Every double quote of the escaped value has a backslash before it. */
  lemma {:induction false} QuotesPreceded(v: string)
    ensures var r := QuoteEscape(v);
      forall i :: 0 <= i < |r| ==> (r[i] == '"' ==> i > 0 && r[i - 1] == '\\')
    decreases |v|
  {
    if v != [] {
      var r := QuoteEscape(v);
      var head: string := if v[0] == '"' then "\\\"" else [v[0]];
      var rest := QuoteEscape(v[1..]);
      QuoteEscapeStep(v);
      QuotesPreceded(v[1..]);
      forall i | 0 <= i < |r|
        ensures r[i] == '"' ==> i > 0 && r[i - 1] == '\\'
      {
        if i >= |head| {
          assert r[i] == rest[i - |head|];
          if i - |head| > 0 {
            assert r[i - 1] == rest[i - |head| - 1];
          }
        }
      }
    }
  }

  /** The escaping a C string literal needs for every value: backslash and
      double quote get a backslash, a line break becomes `\n`. */
  function CEscapeChar(c: char): (e: string)
    ensures e != [] && e[0] != '"'
  {
    if c == '\\' then "\\\\"
    else if c == '"' then "\\\""
    else if c == '\n' then "\\n"
    else [c]
  }

  function CEscape(v: string): string
  {
    if v == [] then [] else CEscapeChar(v[0]) + CEscape(v[1..])
  }

  /** The character a C escape sequence `\c` stands for, for the three
      sequences the escaping uses. */
  function CUnescapeChar(c: char): Option<char>
  {
    if c == '\\' then Some('\\')
    else if c == '"' then Some('"')
    else if c == 'n' then Some('\n')
    else None
  }

  /** How a C compiler reads a string literal whose opening quote has been
      consumed: the characters up to the closing quote and what follows it.
      None where the literal never closes, holds a raw line break, or uses
      an escape sequence other than the three above. */
  function ReadLiteral(t: string): Option<(string, string)>
    decreases |t|
  {
    if t == [] then None
    else if t[0] == '"' then Some(([], t[1..]))
    else if t[0] == '\n' then None
    else if t[0] == '\\' then
      if |t| < 2 || CUnescapeChar(t[1]).None? then None
      else
        match ReadLiteral(t[2..])
        case None => None
        case Some((s, rest)) => Some(([CUnescapeChar(t[1]).value] + s, rest))
    else
      match ReadLiteral(t[1..])
      case None => None
      case Some((s, rest)) => Some(([t[0]] + s, rest))
  }

  lemma CEscapeCharReads(c: char, tail: string)
    ensures CEscapeChar(c)[0] == '\\' ==>
      |CEscapeChar(c)| == 2 && CUnescapeChar(CEscapeChar(c)[1]) == Some(c)
    ensures CEscapeChar(c)[0] != '\\' ==> CEscapeChar(c) == [c] && c != '\n'
  {
  }

  /** A C-escaped value followed by a closing quote is read back as the value. */
  lemma {:induction false} ReadCEscaped(v: string, rest: string)
    ensures ReadLiteral(CEscape(v) + "\"" + rest) == Some((v, rest))
    decreases |v|
  {
    if v == [] {
      assert CEscape(v) + "\"" + rest == "\"" + rest;
    } else {
      var e := CEscapeChar(v[0]);
      var tail := CEscape(v[1..]) + "\"" + rest;
      assert CEscape(v) + "\"" + rest == e + tail;
      CEscapeCharReads(v[0], tail);
      ReadCEscaped(v[1..], rest);
      assert [v[0]] + v[1..] == v;
      if e[0] == '\\' {
        assert (e + tail)[2..] == tail;
      } else {
        assert (e + tail)[1..] == tail;
      }
    }
  }

  /** For values without backslashes and line breaks the generator's
      escaping is the C escaping. */
  lemma {:induction false} EscapesAgree(v: string)
    requires '\\' !in v && '\n' !in v
    ensures QuoteEscape(v) == CEscape(v)
    decreases |v|
  {
    if v != [] {
      QuoteEscapeStep(v);
      assert v[0] in v;
      assert forall c :: c in v[1..] ==> c in v;
      EscapesAgree(v[1..]);
    }
  }

  /** The generator's escaping leaves a trailing backslash in front of the
      closing quote, so the literal of the value `ab\` never closes. */
  lemma QuoteEscapeBreaksLiteral()
    ensures QuoteEscape("ab\\") == "ab\\"
    ensures ReadLiteral(QuoteEscape("ab\\") + "\";") == None
    ensures ReadLiteral(CEscape("ab\\") + "\";") == Some(("ab\\", ";"))
  {
    var t: string := "ab\\\";";
    assert QuoteEscape("ab\\") + "\";" == t;
    assert t[1..] == "b\\\";" && t[2..] == "\\\";";
    var semi: string := ";";
    assert t[2..][2..] == semi && semi[1..] == [];
    ReadCEscaped("ab\\", ";");
    assert CEscape("ab\\") + "\";" == CEscape("ab\\") + "\"" + ";";
  }

  // ---------------------------------------------------------------------
  // Lines and blocks.
  // ---------------------------------------------------------------------

  const LINE_OPEN: string := "        constexpr const char* "

  /** One string resource as a line of the header, with the value escaped by `escape`. */
  function StringLineWith(e: Entry, escape: string -> string): string
  {
    LINE_OPEN + Upper(e.key) + " = \"" + escape(e.value) + "\";"
  }

  function StringLine(e: Entry): string
  {
    StringLineWith(e, CEscape)
  }

  /** A line declares the upper-cased key, and its literal reads back as
      the value. */
  lemma StringLineDeclares(e: Entry)
    ensures var open := LINE_OPEN + Upper(e.key) + " = \"";
      StartsWith(StringLine(e), open) &&
      ReadLiteral(StringLine(e)[|open|..]) == Some((e.value, ";"))
  {
    var open := LINE_OPEN + Upper(e.key) + " = \"";
    assert StringLine(e) == open + (CEscape(e.value) + "\"" + ";");
    assert StringLine(e)[|open|..] == CEscape(e.value) + "\"" + ";";
    ReadCEscaped(e.value, ";");
  }

  /** The line the script writes (only double quotes escaped) declares the
      upper-cased key; removing the inserted backslashes from the text between
      the quotes gives the value back, and for a value without backslashes and
      line breaks the literal reads back as the value. */
  lemma StringLineAsWritten(e: Entry)
    ensures var open := LINE_OPEN + Upper(e.key) + " = \"";
      var line := StringLineWith(e, QuoteEscape);
      && StartsWith(line, open) && EndsWith(line, "\";")
      && Unquote(line[|open|..|line| - 2]) == e.value
      && ('\\' !in e.value && '\n' !in e.value ==> ReadLiteral(line[|open|..]) == Some((e.value, ";")))
  {
    var open := LINE_OPEN + Upper(e.key) + " = \"";
    var line := StringLineWith(e, QuoteEscape);
    var body := QuoteEscape(e.value);
    assert line == open + body + "\";";
    assert line[..|open|] == open;
    assert line[|line| - 2..] == "\";";
    assert line[|open|..|line| - 2] == body;
    UnquoteQuoteEscape(e.value);
    if '\\' !in e.value && '\n' !in e.value {
      EscapesAgree(e.value);
      assert line[|open|..] == CEscape(e.value) + "\"" + ";";
      ReadCEscaped(e.value, ";");
    }
  }

  function StringLinesWith(entries: seq<Entry>, escape: string -> string): (lines: seq<string>)
    ensures |lines| == |entries|
    ensures forall i :: 0 <= i < |entries| ==> lines[i] == StringLineWith(entries[i], escape)
  {
    if entries == [] then [] else [StringLineWith(entries[0], escape)] + StringLinesWith(entries[1..], escape)
  }

  const P3_SUFFIX: string := ".p3"

  /** `os.path.splitext(file)[0]` for a name ending in ".p3": the name
      without that suffix, unless only dots precede it, in which case the
      dots belong to the name and nothing is split off. */
  function Stem(file: string): (base: string)
    requires EndsWith(file, P3_SUFFIX)
  {
    var front := file[..|file| - |P3_SUFFIX|];
    if AllDots(front) then file else front
  }

  predicate AllDots(s: string)
  {
    forall i :: 0 <= i < |s| ==> s[i] == '.'
  }

  function StartSymbol(base: string): string { "_binary_" + base + "_p3_start" }
  function EndSymbol(base: string): string { "_binary_" + base + "_p3_end" }
  function ViewName(base: string): string { "P3_" + Upper(base) }

  function StartAsm(base: string): string { "asm(\"" + StartSymbol(base) + "\")" }
  function EndAsm(base: string): string { "asm(\"" + EndSymbol(base) + "\")" }
  function ViewDeclaration(base: string): string { "std::string_view " + ViewName(base) + " {" }

  /** The declarations for one sound: the two linker symbols of the embedded
      file and a view over the bytes between them. */
  function SoundBlock(base: string): string
  {
    StartLine(base) + EndLine(base) + ViewLine(base) + ViewBody(base)
  }

  function StartLine(base: string): string
  {
    "\n        extern const char p3_" + base + "_start[] " + StartAsm(base) + ";"
  }

  function EndLine(base: string): string
  {
    "\n        extern const char p3_" + base + "_end[] " + EndAsm(base) + ";"
  }

  function ViewLine(base: string): string
  {
    "\n        static const " + ViewDeclaration(base)
  }

  function ViewBody(base: string): string
  {
    "\n        static_cast<const char*>(p3_" + base + "_start),"
    + "\n        static_cast<size_t>(p3_" + base + "_end - p3_" + base + "_start)"
    + "\n        };"
  }

  predicate ContainsAt(s: string, part: string, i: int)
  {
    0 <= i <= |s| - |part| && s[i..i + |part|] == part
  }

  ghost predicate Contains(s: string, part: string)
  {
    exists i :: ContainsAt(s, part, i)
  }

  lemma ContainsMiddle(a: string, part: string, b: string)
    ensures Contains(a + part + b, part)
  {
    assert ContainsAt(a + part + b, part, |a|);
  }

  lemma ContainsLeft(s: string, b: string, part: string)
    requires Contains(s, part)
    ensures Contains(s + b, part)
  {
    var i :| ContainsAt(s, part, i);
    assert (s + b)[i..i + |part|] == s[i..i + |part|];
    assert ContainsAt(s + b, part, i);
  }

  lemma ContainsRight(a: string, s: string, part: string)
    requires Contains(s, part)
    ensures Contains(a + s, part)
  {
    var i :| ContainsAt(s, part, i);
    assert (a + s)[|a| + i..|a| + i + |part|] == s[i..i + |part|];
    assert ContainsAt(a + s, part, |a| + i);
  }

  /** A sound's block binds its view to the start symbol of `<base>.p3`. */
  lemma SoundBlockStart(base: string)
    ensures Contains(SoundBlock(base), StartAsm(base))
  {
    var start := StartLine(base);
    ContainsMiddle("\n        extern const char p3_" + base + "_start[] ", StartAsm(base), ";");
    ContainsLeft(start, EndLine(base), StartAsm(base));
    ContainsLeft(start + EndLine(base), ViewLine(base), StartAsm(base));
    ContainsLeft(start + EndLine(base) + ViewLine(base), ViewBody(base), StartAsm(base));
  }

  /** A sound's block binds its view to the end symbol of `<base>.p3`. */
  lemma SoundBlockEnd(base: string)
    ensures Contains(SoundBlock(base), EndAsm(base))
  {
    var front := StartLine(base) + EndLine(base);
    ContainsMiddle("\n        extern const char p3_" + base + "_end[] ", EndAsm(base), ";");
    ContainsRight(StartLine(base), EndLine(base), EndAsm(base));
    ContainsLeft(front, ViewLine(base), EndAsm(base));
    ContainsLeft(front + ViewLine(base), ViewBody(base), EndAsm(base));
  }

  /** A sound's block declares the view `P3_<BASE>`. */
  lemma SoundBlockView(base: string)
    ensures Contains(SoundBlock(base), ViewDeclaration(base))
  {
    ContainsMiddle("\n        static const ", ViewDeclaration(base), []);
    assert "\n        static const " + ViewDeclaration(base) + [] == ViewLine(base);
    ContainsRight(StartLine(base) + EndLine(base), ViewLine(base), ViewDeclaration(base));
    ContainsLeft(StartLine(base) + EndLine(base) + ViewLine(base), ViewBody(base), ViewDeclaration(base));
  }

  /** The blocks of the `.p3` files among `files`, in listing order. */
  function SoundBlocks(files: seq<string>): (blocks: seq<string>)
    ensures |blocks| <= |files|
  {
    if files == [] then []
    else (if EndsWith(files[0], P3_SUFFIX) then [SoundBlock(Stem(files[0]))] else []) + SoundBlocks(files[1..])
  }

  /** Every `.p3` file gets its block. */
  lemma {:induction false} SoundBlockEmitted(files: seq<string>, i: nat)
    requires i < |files| && EndsWith(files[i], P3_SUFFIX)
    ensures SoundBlock(Stem(files[i])) in SoundBlocks(files)
    decreases i
  {
    if i > 0 {
      assert files[1..][i - 1] == files[i];
      SoundBlockEmitted(files[1..], i - 1);
    }
  }

  /** Every block comes from a `.p3` file. */
  lemma {:induction false} SoundBlockSource(files: seq<string>, block: string) returns (i: nat)
    requires block in SoundBlocks(files)
    ensures i < |files| && EndsWith(files[i], P3_SUFFIX) && block == SoundBlock(Stem(files[i]))
    decreases |files|
  {
    if EndsWith(files[0], P3_SUFFIX) && block == SoundBlock(Stem(files[0])) {
      i := 0;
    } else {
      var j := SoundBlockSource(files[1..], block);
      i := j + 1;
    }
  }

  /** A block is emitted exactly for each `.p3` file. */
  lemma SoundBlocksExactly(files: seq<string>, block: string)
    ensures block in SoundBlocks(files) <==>
      exists i :: 0 <= i < |files| && EndsWith(files[i], P3_SUFFIX) && block == SoundBlock(Stem(files[i]))
  {
    if block in SoundBlocks(files) {
      var i := SoundBlockSource(files, block);
    }
    forall i | 0 <= i < |files| && EndsWith(files[i], P3_SUFFIX) && block == SoundBlock(Stem(files[i]))
      ensures block in SoundBlocks(files)
    {
      SoundBlockEmitted(files, i);
    }
  }

  /** The font macro: the language code with '-' as '_', lower-cased. */
  function FontMacro(code: string): (m: string)
    ensures |m| == |code|
    ensures forall i :: 0 <= i < |code| ==>
      m[i] == (if code[i] == '-' then '_' else ToLowerChar(code[i]))
  {
    ReplaceOneChar(code, '-', '_');
    Lower(ReplaceChar(code, '-', "_"))
  }

  lemma {:induction false} ReplaceOneChar(s: string, a: char, b: char)
    ensures |ReplaceChar(s, a, [b])| == |s|
    ensures forall i :: 0 <= i < |s| ==> ReplaceChar(s, a, [b])[i] == if s[i] == a then b else s[i]
    decreases |s|
  {
    if s != [] {
      ReplaceOneChar(s[1..], a, b);
      assert ReplaceChar(s, a, [b]) == [if s[0] == a then b else s[0]] + ReplaceChar(s[1..], a, [b]);
    }
  }

  /** The same macro is had by lower-casing first and then replacing '-'
      by '_'. */
  lemma FontMacroEitherOrder(code: string)
    ensures FontMacro(code) == ReplaceChar(Lower(code), '-', "_")
  {
    var l := Lower(code);
    ReplaceOneChar(l, '-', '_');
    var r := ReplaceChar(l, '-', "_");
    assert forall i :: 0 <= i < |code| ==> FontMacro(code)[i] == r[i];
  }

  /** A font macro is its own font macro: it holds no '-' and no capital. */
  lemma FontMacroIdempotent(code: string)
    ensures '-' !in FontMacro(code)
    ensures forall i :: 0 <= i < |code| ==> !IsAsciiUpper(FontMacro(code)[i])
    ensures FontMacro(FontMacro(code)) == FontMacro(code)
  {
    var m := FontMacro(code);
    assert forall i :: 0 <= i < |m| ==> m[i] != '-';
    assert forall i :: 0 <= i < |m| ==> FontMacro(m)[i] == m[i];
  }

  // ---------------------------------------------------------------------
  // The generator.
  // ---------------------------------------------------------------------

  /** `generate_header` with the value escaping `escape`: the checks in
      order, then the sorted lines and blocks. `langFiles` and
      `commonFiles` are the listings of the language file's directory and
      of the shared sound directory. */
  function GenerateWith(data: LanguageFile, langFiles: seq<string>, commonFiles: seq<string>, escape: string -> string): Outcome
  {
    if data.language.None? || data.strings.None? then Failed(InvalidStructure)
    else if data.language.value.None? then Failed(MissingType)
    else
      var code := data.language.value.value;
      Header(Generated(code, FontMacro(code),
        Sort(StringLinesWith(data.strings.value, escape)),
        Sort(SoundBlocks(langFiles) + SoundBlocks(commonFiles))))
  }

  /** The generator as written: only double quotes are escaped. */
  function GenerateAsWritten(data: LanguageFile, langFiles: seq<string>, commonFiles: seq<string>): Outcome
  {
    GenerateWith(data, langFiles, commonFiles, QuoteEscape)
  }

  /** The generator with values escaped for C. */
  function Generate(data: LanguageFile, langFiles: seq<string>, commonFiles: seq<string>): Outcome
  {
    GenerateWith(data, langFiles, commonFiles, CEscape)
  }

  /** A file without `language` or `strings` is rejected first, one whose
      language has no type next; otherwise a header is made. */
  lemma GenerateRejects(data: LanguageFile, langFiles: seq<string>, commonFiles: seq<string>, escape: string -> string)
    ensures data.language.None? || data.strings.None? <==>
      GenerateWith(data, langFiles, commonFiles, escape) == Failed(InvalidStructure)
    ensures data.language == Some(None) && data.strings.Some? <==>
      GenerateWith(data, langFiles, commonFiles, escape) == Failed(MissingType)
  {
  }

  lemma SortMembers(s: seq<string>, x: string)
    ensures |Sort(s)| == |s|
    ensures x in Sort(s) <==> x in s
  {
    assert |Sort(s)| == |multiset(Sort(s))| == |multiset(s)| == |s|;
    assert x in Sort(s) <==> x in multiset(Sort(s));
    assert x in s <==> x in multiset(s);
  }

  /** A header keeps the language code verbatim and derives the font macro
      from it, whatever the value escaping. */
  lemma GenerateNames(data: LanguageFile, langFiles: seq<string>, commonFiles: seq<string>, escape: string -> string)
    requires GenerateWith(data, langFiles, commonFiles, escape).Header?
    ensures var h := GenerateWith(data, langFiles, commonFiles, escape).header;
      data.language == Some(Some(h.code)) && h.fontMacro == FontMacro(h.code)
  {
  }

  /** A header holds, sorted, exactly one line per string entry, made with
      the generator's value escaping. */
  lemma GenerateStrings(data: LanguageFile, langFiles: seq<string>, commonFiles: seq<string>, escape: string -> string)
    requires GenerateWith(data, langFiles, commonFiles, escape).Header?
    ensures var h := GenerateWith(data, langFiles, commonFiles, escape).header;
      var entries := data.strings.value;
      && Sorted(h.stringLines)
      && |h.stringLines| == |entries|
      && (forall line :: line in h.stringLines <==>
            exists i :: 0 <= i < |entries| && line == StringLineWith(entries[i], escape))
  {
    var h := GenerateWith(data, langFiles, commonFiles, escape).header;
    var entries := data.strings.value;
    var lines := StringLinesWith(entries, escape);
    assert h.stringLines == Sort(lines);
    SortMembers(lines, []);
    forall line
      ensures line in h.stringLines <==> exists i :: 0 <= i < |entries| && line == StringLineWith(entries[i], escape)
    {
      SortMembers(lines, line);
      if line in lines {
        var i :| 0 <= i < |lines| && lines[i] == line;
        assert line == StringLineWith(entries[i], escape);
      }
      if exists i :: 0 <= i < |entries| && line == StringLineWith(entries[i], escape) {
        var i :| 0 <= i < |entries| && line == StringLineWith(entries[i], escape);
        assert lines[i] == line;
      }
    }
  }

  /** A header holds, sorted, the blocks of the sound files of both
      directories. */
  lemma GenerateSounds(data: LanguageFile, langFiles: seq<string>, commonFiles: seq<string>, escape: string -> string)
    requires GenerateWith(data, langFiles, commonFiles, escape).Header?
    ensures var h := GenerateWith(data, langFiles, commonFiles, escape).header;
      && Sorted(h.soundBlocks)
      && (forall b :: b in h.soundBlocks <==> b in SoundBlocks(langFiles) || b in SoundBlocks(commonFiles))
  {
    var h := GenerateWith(data, langFiles, commonFiles, escape).header;
    var blocks := SoundBlocks(langFiles) + SoundBlocks(commonFiles);
    assert h.soundBlocks == Sort(blocks);
    forall b
      ensures b in h.soundBlocks <==> b in SoundBlocks(langFiles) || b in SoundBlocks(commonFiles)
    {
      SortMembers(blocks, b);
    }
  }

  /** The header does not depend on the order of the string entries,
      whatever the value escaping. */
  lemma GenerateIgnoresOrder(data: LanguageFile, other: seq<Entry>, langFiles: seq<string>, commonFiles: seq<string>,
                             escape: string -> string)
    requires data.strings.Some? && multiset(other) == multiset(data.strings.value)
    ensures GenerateWith(data, langFiles, commonFiles, escape)
         == GenerateWith(data.(strings := Some(other)), langFiles, commonFiles, escape)
  {
    var a := StringLinesWith(data.strings.value, escape);
    var b := StringLinesWith(other, escape);
    LinesPermute(data.strings.value, other, escape);
    SortedUnique(Sort(a), Sort(b));
  }

  lemma LinesAppend(a: seq<Entry>, b: seq<Entry>, escape: string -> string)
    ensures StringLinesWith(a + b, escape) == StringLinesWith(a, escape) + StringLinesWith(b, escape)
  {
    var l := StringLinesWith(a + b, escape);
    var r := StringLinesWith(a, escape) + StringLinesWith(b, escape);
    forall i | 0 <= i < |l|
      ensures l[i] == r[i]
    {
      if i < |a| {
        assert (a + b)[i] == a[i];
      } else {
        assert (a + b)[i] == b[i - |a|];
      }
    }
  }

  lemma {:induction false} LinesPermute(a: seq<Entry>, b: seq<Entry>, escape: string -> string)
    requires multiset(a) == multiset(b)
    ensures multiset(StringLinesWith(a, escape)) == multiset(StringLinesWith(b, escape))
    decreases |a|
  {
    if a == [] {
      assert |b| == |multiset(b)| == 0;
    } else {
      var x := a[0];
      assert x in multiset(b);
      var j :| 0 <= j < |b| && b[j] == x;
      var front, back := b[..j], b[j + 1..];
      PickOut(a, b, j);
      LinesPermute(a[1..], front + back, escape);
      assert a == [x] + a[1..];
      SplitAround(b, j);
      LinesAppend([x], a[1..], escape);
      LinesAppend(front + [x], back, escape);
      LinesAppend(front, [x], escape);
      LinesAppend(front, back, escape);
      PutBack(StringLinesWith([x], escape), StringLinesWith(a[1..], escape),
        StringLinesWith(front, escape), StringLinesWith(back, escape));
    }
  }

  /** Taking the first element of `a` out of `b` leaves equal multisets. */
  lemma PickOut(a: seq<Entry>, b: seq<Entry>, j: nat)
    requires multiset(a) == multiset(b) && a != [] && j < |b| && b[j] == a[0]
    ensures multiset(a[1..]) == multiset(b[..j] + b[j + 1..])
  {
    var x := a[0];
    var one := multiset{x};
    assert a == [x] + a[1..];
    SplitAround(b, j);
    var f, k := multiset(b[..j]), multiset(b[j + 1..]);
    assert multiset(a) == one + multiset(a[1..]);
    assert multiset(b) == f + one + k;
    assert multiset(a[1..]) == multiset(a) - one;
    assert (f + one + k) - one == f + k;
    assert multiset(b[..j] + b[j + 1..]) == f + k;
  }

  /** Putting the same block back into equal multisets keeps them equal. */
  lemma PutBack(x: seq<string>, s: seq<string>, front: seq<string>, back: seq<string>)
    requires multiset(s) == multiset(front + back)
    ensures multiset(x + s) == multiset(front + x + back)
  {
    assert multiset(front + x + back) == multiset(front) + multiset(x) + multiset(back);
  }

  // ---------------------------------------------------------------------
  // The template.
  // ---------------------------------------------------------------------

  const BANNER: string := "// Auto-generated language config\n#pragma once\n\n#include <string_view>\n\n"

  /** The line that declares the language code. */
  function CodeLine(code: string): string
  {
    "constexpr const char* CODE = \"" + code + "\";"
  }

  /** The template text between the font macro line and the string lines. */
  function Metadata(h: Generated): string
  {
    "    #define " + h.fontMacro + "  // Default language\n#endif\n\n"
      + "namespace Lang {\n    // Language metadata\n    " + CodeLine(h.code) + "\n\n"
      + "    // String resources\n    namespace Strings {\n"
  }

  const BETWEEN: string := "\n    }\n\n    // Sound resources\n    namespace Sounds {\n"
  const CLOSE: string := "\n    }\n}\n"

  /** The header text: `HEADER_TEMPLATE` filled with the code, the font
      macro, and the lines and blocks joined by line breaks. It opens with
      the banner and the font macro guard, declares the language code, and
      holds every string line and every sound block. */
  function Render(h: Generated): (text: string)
    ensures StartsWith(text, BANNER + "#ifndef " + h.fontMacro + "\n")
    ensures EndsWith(text, CLOSE)
    ensures Contains(text, CodeLine(h.code))
    ensures forall i :: 0 <= i < |h.stringLines| ==> Contains(text, h.stringLines[i])
    ensures forall i :: 0 <= i < |h.soundBlocks| ==> Contains(text, h.soundBlocks[i])
  {
    var head := BANNER + "#ifndef " + h.fontMacro + "\n";
    var lines := Join(h.stringLines, "\n");
    var blocks := Join(h.soundBlocks, "\n");
    Framed(head, Metadata(h), lines, BETWEEN, blocks, CLOSE);
    RenderHoldsCode(h, head, lines, blocks);
    RenderHoldsLines(h, head, lines, blocks);
    RenderHoldsBlocks(h, head, lines, blocks);
    head + Metadata(h) + lines + BETWEEN + blocks + CLOSE
  }

  lemma Framed(a: string, b: string, c: string, d: string, e: string, f: string)
    ensures StartsWith(a + b + c + d + e + f, a) && EndsWith(a + b + c + d + e + f, f)
  {
    var t := a + b + c + d + e + f;
    assert t == a + (b + c + d + e + f);
    PrefixOfConcat(a, b + c + d + e + f);
    SuffixOfConcat(a + b + c + d + e, f);
  }

  lemma RenderHoldsCode(h: Generated, head: string, lines: string, blocks: string)
    ensures Contains(head + Metadata(h) + lines + BETWEEN + blocks + CLOSE, CodeLine(h.code))
  {
    var m1 := "    #define " + h.fontMacro + "  // Default language\n#endif\n\n"
      + "namespace Lang {\n    // Language metadata\n    ";
    var m2 := "\n\n" + "    // String resources\n    namespace Strings {\n";
    assert Metadata(h) == m1 + CodeLine(h.code) + m2;
    ContainsMiddle(m1, CodeLine(h.code), m2);
    ContainsRight(head, Metadata(h), CodeLine(h.code));
    ContainsLeft(head + Metadata(h), lines, CodeLine(h.code));
    ContainsLeft(head + Metadata(h) + lines, BETWEEN, CodeLine(h.code));
    ContainsLeft(head + Metadata(h) + lines + BETWEEN, blocks, CodeLine(h.code));
    ContainsLeft(head + Metadata(h) + lines + BETWEEN + blocks, CLOSE, CodeLine(h.code));
  }

  lemma RenderHoldsLines(h: Generated, head: string, lines: string, blocks: string)
    requires lines == Join(h.stringLines, "\n")
    ensures forall i :: 0 <= i < |h.stringLines| ==>
      Contains(head + Metadata(h) + lines + BETWEEN + blocks + CLOSE, h.stringLines[i])
  {
    forall i | 0 <= i < |h.stringLines|
      ensures Contains(head + Metadata(h) + lines + BETWEEN + blocks + CLOSE, h.stringLines[i])
    {
      var x := h.stringLines[i];
      JoinContains(h.stringLines, "\n", i);
      ContainsRight(head + Metadata(h), lines, x);
      ContainsLeft(head + Metadata(h) + lines, BETWEEN, x);
      ContainsLeft(head + Metadata(h) + lines + BETWEEN, blocks, x);
      ContainsLeft(head + Metadata(h) + lines + BETWEEN + blocks, CLOSE, x);
    }
  }

  lemma RenderHoldsBlocks(h: Generated, head: string, lines: string, blocks: string)
    requires blocks == Join(h.soundBlocks, "\n")
    ensures forall i :: 0 <= i < |h.soundBlocks| ==>
      Contains(head + Metadata(h) + lines + BETWEEN + blocks + CLOSE, h.soundBlocks[i])
  {
    forall i | 0 <= i < |h.soundBlocks|
      ensures Contains(head + Metadata(h) + lines + BETWEEN + blocks + CLOSE, h.soundBlocks[i])
    {
      var x := h.soundBlocks[i];
      JoinContains(h.soundBlocks, "\n", i);
      ContainsRight(head + Metadata(h) + lines + BETWEEN, blocks, x);
      ContainsLeft(head + Metadata(h) + lines + BETWEEN + blocks, CLOSE, x);
    }
  }

  /** Every item of a joined list appears in the joined text. */
  lemma {:induction false} JoinContains(items: seq<string>, sep: string, i: nat)
    requires i < |items|
    ensures Contains(Join(items, sep), items[i])
    decreases |items|
  {
    if |items| == 1 {
      assert ContainsAt(items[0], items[0], 0);
    } else {
      var rest := Join(items[1..], sep);
      assert Join(items, sep) == items[0] + sep + rest;
      if i == 0 {
        assert ContainsAt(items[0], items[0], 0);
        ContainsLeft(items[0], sep + rest, items[0]);
        assert items[0] + (sep + rest) == items[0] + sep + rest;
      } else {
        assert items[1..][i - 1] == items[i];
        JoinContains(items[1..], sep, i - 1);
        ContainsRight(items[0] + sep, rest, items[i]);
      }
    }
  }

  lemma PrefixOfConcat(a: string, b: string)
    ensures StartsWith(a + b, a)
  {
    assert (a + b)[..|a|] == a;
  }

  lemma SuffixOfConcat(a: string, b: string)
    ensures EndsWith(a + b, b)
  {
    assert (a + b)[|a|..] == b;
  }
}

=== FILE: json.dfy ===
/** An abstract JSON value standing in for a parsed cJSON tree, with the cJSON
    accessors the firmware relies on. The parser itself is not modelled. */
module Json {
  import opened Common

  /** Numbers are integers (the firmware only reads `valueint` of the numbers
      it inspects, apart from the excluded server-time handling). */
  datatype Json =
    | JNull
    | JBool(b: bool)
    | JNum(n: int)
    | JStr(s: string)
    | JArr(items: seq<Json>)
    | JObj(members: seq<Member>)

  datatype Member = Member(key: string, value: Json)

  predicate IsObject(j: Option<Json>) { j.Some? && j.value.JObj? }
  predicate IsString(j: Option<Json>) { j.Some? && j.value.JStr? }
  predicate IsNumber(j: Option<Json>) { j.Some? && j.value.JNum? }
  predicate IsBool(j: Option<Json>) { j.Some? && j.value.JBool? }

  /** cJSON compares object keys ignoring ASCII case. */
  predicate KeyMatches(key: string, name: string)
  {
    |key| == |name| && forall i :: 0 <= i < |key| ==> ToLowerChar(key[i]) == ToLowerChar(name[i])
  }

  /** Index of the first member of `members` whose key matches `name`. */
  function FirstMatch(members: seq<Member>, name: string): (r: Option<nat>)
    ensures r.None? <==> forall i :: 0 <= i < |members| ==> !KeyMatches(members[i].key, name)
    ensures r.Some? ==> r.value < |members| && KeyMatches(members[r.value].key, name)
    ensures r.Some? ==> forall k :: 0 <= k < r.value ==> !KeyMatches(members[k].key, name)
  {
    if members == [] then None
    else if KeyMatches(members[0].key, name) then Some(0)
    else
      var r := FirstMatch(members[1..], name);
      assert forall i :: 1 <= i < |members| ==> members[i] == members[1..][i - 1];
      if r.Some? then Some(r.value + 1) else None
  }

  /** The value of the first member of `members` whose key matches `name`. */
  function FindMember(members: seq<Member>, name: string): (r: Option<Json>)
    ensures r.Some? <==> exists i :: 0 <= i < |members| && KeyMatches(members[i].key, name)
    ensures r.Some? ==> FirstMatch(members, name).Some? && r.value == members[FirstMatch(members, name).value].value
  {
    var m := FirstMatch(members, name);
    if m.Some? then Some(members[m.value].value) else None
  }

  /** The lookup finds member `k` when its key is the first that matches. */
  lemma FindMemberAt(members: seq<Member>, name: string, k: nat)
    requires k < |members| && KeyMatches(members[k].key, name)
    requires forall j :: 0 <= j < k ==> !KeyMatches(members[j].key, name)
    ensures FindMember(members, name) == Some(members[k].value)
  {
    var m := FirstMatch(members, name);
    assert m.Some?;
    assert !(m.value < k) && !(k < m.value);
  }

  /** The lookup examines the members from the first one on. */
  lemma FindMemberFirst(members: seq<Member>, name: string)
    requires members != []
    ensures FindMember(members, name) ==
      if KeyMatches(members[0].key, name) then Some(members[0].value) else FindMember(members[1..], name)
  {
    if !KeyMatches(members[0].key, name) {
      var r := FirstMatch(members[1..], name);
      assert FirstMatch(members, name) == if r.Some? then Some(r.value + 1) else None;
    }
  }

  /** `cJSON_GetObjectItem`: a lookup in an object; anything else (or an absent
      node) yields no item. */
  function GetObjectItem(j: Option<Json>, name: string): (r: Option<Json>)
    ensures !IsObject(j) ==> r.None?
  {
    if j.Some? && j.value.JObj? then FindMember(j.value.members, name) else None
  }

  /** `valueint` of a number: the value saturated to the `int` range. */
  function ValueInt(n: int): (r: int)
    ensures INT32_MIN <= r <= INT32_MAX
    ensures INT32_MIN <= n <= INT32_MAX ==> r == n
  {
    if n > INT32_MAX then INT32_MAX else if n < INT32_MIN then INT32_MIN else n
  }

  /** An object built with `cJSON_AddStringToObject` calls, in order. */
  function StringObject(pairs: seq<(string, string)>): Json
  {
    JObj(seq(|pairs|, i requires 0 <= i < |pairs| => Member(pairs[i].0, JStr(pairs[i].1))))
  }
}

=== FILE: json_text.dfy ===
/** JSON string escaping as the BLE chunk sender writes it, and the decoding
    of a JSON string literal body (section 7 of RFC 8259) that undoes it. */
module JsonText {
  import opened Common

  function HexDigit(d: nat): (c: char)
    requires d < 16
  {
    if d < 10 then ('0' as int + d) as char else ('a' as int + d - 10) as char
  }

  predicate IsHexChar(c: char)
  {
    ('0' <= c <= '9') || ('a' <= c <= 'f') || ('A' <= c <= 'F')
  }

  function HexValue(c: char): (v: nat)
    requires IsHexChar(c)
    ensures v < 16
  {
    if '0' <= c <= '9' then c as int - '0' as int
    else if 'a' <= c <= 'f' then c as int - 'a' as int + 10
    else c as int - 'A' as int + 10
  }

  lemma HexDigitValue(d: nat)
    requires d < 16
    ensures IsHexChar(HexDigit(d)) && HexValue(HexDigit(d)) == d
  {
  }

  /** `\u%04x` of a byte below 0x20: backslash, 'u', then four lower-case hex digits. */
  function UnicodeEscape(b: nat): (r: string)
    requires b < 0x20
    ensures |r| == 6
  {
    "\\u00" + [HexDigit(b / 16), HexDigit(b % 16)]
  }

  /** The escape of one byte, following the sender's switch statement. */
  function EscapeChar(c: char): (r: string)
    ensures 1 <= |r| <= 6
  {
    if c == '"' then "\\\""
    else if c == '\\' then "\\\\"
    else if c == '\U{8}' then "\\b"
    else if c == '\U{C}' then "\\f"
    else if c == '\n' then "\\n"
    else if c == '\r' then "\\r"
    else if c == '\t' then "\\t"
    else if (c as int) < 0x20 then UnicodeEscape(c as int)
    else [c]
  }

  /** The escaped form of `s`, one byte after the other. */
  function Escape(s: string): (r: string)
    ensures |r| >= |s|
  {
    if s == [] then [] else EscapeChar(s[0]) + Escape(s[1..])
  }

  /** Text that may stand inside a JSON string literal, as a reader scanning
      for the closing quote sees it: every character is printable, a
      backslash takes the character after it along, and a quote met outside
      such a pair would end the literal, so there is none. */
  predicate LiteralSafe(t: string)
    decreases |t|
  {
    if t == [] then true
    else if (t[0] as int) < 0x20 || t[0] == '"' then false
    else if t[0] == '\\' then |t| >= 2 && (t[1] as int) >= 0x20 && LiteralSafe(t[2..])
    else LiteralSafe(t[1..])
  }

  /** Decodes the escape sequence at the start of `t` (which starts with a
      backslash): the character it denotes and the number of characters it uses. */
  function DecodeEscape(t: string): (r: Option<(char, nat)>)
    requires |t| >= 1 && t[0] == '\\'
    ensures r.Some? ==> 2 <= r.value.1 <= |t|
  {
    if |t| < 2 then None
    else if t[1] == '"' then Some(('"', 2))
    else if t[1] == '\\' then Some(('\\', 2))
    else if t[1] == '/' then Some(('/', 2))
    else if t[1] == 'b' then Some(('\U{8}', 2))
    else if t[1] == 'f' then Some(('\U{C}', 2))
    else if t[1] == 'n' then Some(('\n', 2))
    else if t[1] == 'r' then Some(('\r', 2))
    else if t[1] == 't' then Some(('\t', 2))
    else if t[1] == 'u' && |t| >= 6 && IsHexChar(t[2]) && IsHexChar(t[3]) && IsHexChar(t[4]) && IsHexChar(t[5]) then
      var v := ((HexValue(t[2]) * 16 + HexValue(t[3])) * 16 + HexValue(t[4])) * 16 + HexValue(t[5]);
      if 0xD800 <= v <= 0xDFFF then None else Some((v as char, 6))
    else None
  }

  /** Reads the body of a JSON string literal up to its closing quote: the
      decoded string and the text after the quote; None when the body holds a
      raw control character or a malformed escape, or is unterminated. */
  function ReadString(t: string): (r: Option<(string, string)>)
    decreases |t|
  {
    if t == [] then None
    else if t[0] == '"' then Some(([], t[1..]))
    else if (t[0] as int) < 0x20 then None
    else if t[0] == '\\' then
      match DecodeEscape(t)
      case None => None
      case Some((c, n)) =>
        match ReadString(t[n..])
        case None => None
        case Some((s, rest)) => Some(([c] + s, rest))
    else
      match ReadString(t[1..])
      case None => None
      case Some((s, rest)) => Some(([t[0]] + s, rest))
  }

  /** Unescaping a whole literal body: ReadString must stop exactly at the end. */
  function Unescape(t: string): Option<string>
  {
    match ReadString(t + "\"")
    case Some((s, rest)) => if rest == [] then Some(s) else None
    case None => None
  }

  lemma EscapeCharReads(c: char, rest: string)
    ensures EscapeChar(c)[0] != '"'
    ensures EscapeChar(c)[0] == '\\' ==> DecodeEscape(EscapeChar(c) + rest) == Some((c, |EscapeChar(c)|))
    ensures EscapeChar(c)[0] != '\\' ==> EscapeChar(c) == [c] && (c as int) >= 0x20
  {
    var e := EscapeChar(c);
    if (c as int) < 0x20 && c != '\U{8}' && c != '\U{C}' && c != '\n' && c != '\r' && c != '\t' {
      var b := c as int;
      HexDigitValue(b / 16);
      HexDigitValue(b % 16);
      var t := e + rest;
      assert t[1] == 'u' && t[2] == '0' && t[3] == '0';
      assert t[4] == HexDigit(b / 16) && t[5] == HexDigit(b % 16);
    }
  }

  /** Round trip: reading back the escaped text followed by a closing quote
      yields the original bytes and the text after the quote. */
  lemma {:induction false} ReadEscaped(s: string, rest: string)
    ensures ReadString(Escape(s) + "\"" + rest) == Some((s, rest))
    decreases |s|
  {
    if s == [] {
      assert Escape(s) + "\"" + rest == "\"" + rest;
    } else {
      var e := EscapeChar(s[0]);
      var tail := Escape(s[1..]) + "\"" + rest;
      assert Escape(s) + "\"" + rest == e + tail;
      EscapeCharReads(s[0], tail);
      ReadEscaped(s[1..], rest);
      assert [s[0]] + s[1..] == s;
      if e[0] == '\\' {
        var t := e + tail;
        assert t[0] == '\\' && t[|e|..] == tail;
        assert DecodeEscape(t) == Some((s[0], |e|));
        assert ReadString(t[|e|..]) == Some((s[1..], rest));
      } else {
        assert (e + tail)[1..] == tail;
      }
    }
  }

  /** RFC 8259 unescaping inverts the sender's escaping. */
  lemma UnescapeEscape(s: string)
    ensures Unescape(Escape(s)) == Some(s)
  {
    ReadEscaped(s, []);
    assert Escape(s) + "\"" + [] == Escape(s) + "\"";
  }

  /** Printable text without quote or backslash: it stands for itself in a
      JSON string literal. */
  predicate Plain(p: string)
  {
    forall i :: 0 <= i < |p| ==> (p[i] as int) >= 0x20 && p[i] != '"' && p[i] != '\\'
  }

  /** Plain text keeps a safe suffix safe. */
  lemma {:induction false} PlainPrefixSafe(p: string, t: string)
    requires Plain(p)
    requires LiteralSafe(t)
    ensures LiteralSafe(p + t)
    decreases |p|
  {
    if p != [] {
      assert forall i :: 0 <= i < |p[1..]| ==> p[1..][i] == p[i + 1];
      PlainPrefixSafe(p[1..], t);
      assert (p + t)[0] == p[0] && (p + t)[1..] == p[1..] + t;
    } else {
      assert p + t == t;
    }
  }

  /** The escape of one character keeps a safe suffix safe. */
  lemma EscapeCharSafe(c: char, t: string)
    requires LiteralSafe(t)
    ensures LiteralSafe(EscapeChar(c) + t)
  {
    var e := EscapeChar(c);
    if (c as int) < 0x20 && c != '\U{8}' && c != '\U{C}' && c != '\n' && c != '\r' && c != '\t' {
      var b := c as int;
      var digits := "00" + [HexDigit(b / 16), HexDigit(b % 16)];
      assert HexDigit(b / 16) as int >= 0x30 && HexDigit(b % 16) as int >= 0x30;
      PlainPrefixSafe(digits, t);
      assert e == "\\u" + digits;
      assert (e + t)[2..] == digits + t;
    } else if e[0] == '\\' {
      assert |e| == 2 && (e + t)[2..] == t;
    } else {
      assert e == [c] && (e + t)[1..] == t;
    }
  }

  lemma {:induction false} EscapeLiteralSafe(s: string)
    ensures LiteralSafe(Escape(s))
    decreases |s|
  {
    if s != [] {
      EscapeLiteralSafe(s[1..]);
      EscapeCharSafe(s[0], Escape(s[1..]));
    }
  }

  /** Safe text holds no control byte. */
  lemma {:induction false} LiteralSafePrintable(t: string)
    requires LiteralSafe(t)
    ensures forall i :: 0 <= i < |t| ==> (t[i] as int) >= 0x20
    decreases |t|
  {
    if t != [] {
      var n := if t[0] == '\\' then 2 else 1;
      LiteralSafePrintable(t[n..]);
      assert forall i :: n <= i < |t| ==> t[i] == t[n..][i - n];
    }
  }

  /** Plain text followed by a quote reads back as itself. */
  lemma {:induction false} ReadPlain(p: string, rest: string)
    requires Plain(p)
    ensures ReadString(p + "\"" + rest) == Some((p, rest))
    decreases |p|
  {
    if p == [] {
      assert p + "\"" + rest == "\"" + rest;
    } else {
      assert forall i :: 0 <= i < |p[1..]| ==> p[1..][i] == p[i + 1];
      ReadPlain(p[1..], rest);
      var t := p + "\"" + rest;
      assert t[0] == p[0] && t[1..] == p[1..] + "\"" + rest;
      assert [p[0]] + p[1..] == p;
    }
  }

  /** Text without control bytes. */
  predicate Printable(s: string)
  {
    forall i :: 0 <= i < |s| ==> (s[i] as int) >= 0x20
  }

  /** Escaping grows text at most sixfold, and at most twofold when the text
      holds no control byte. */
  lemma {:induction false} EscapeGrowth(s: string)
    ensures |Escape(s)| <= 6 * |s|
    ensures Printable(s) ==> |Escape(s)| <= 2 * |s|
    decreases |s|
  {
    if s != [] {
      EscapeGrowth(s[1..]);
      assert Escape(s) == EscapeChar(s[0]) + Escape(s[1..]);
      if Printable(s) {
        assert (s[0] as int) >= 0x20;
        assert forall i :: 0 <= i < |s[1..]| ==> s[1..][i] == s[i + 1];
      }
    }
  }

  /** The escaper's output contains no raw control byte, and a reader that
      skips the character after each backslash meets no quote in it. */
  lemma EscapeIsLiteralSafe(s: string)
    ensures LiteralSafe(Escape(s))
    ensures forall i :: 0 <= i < |Escape(s)| ==> (Escape(s)[i] as int) >= 0x20
  {
    EscapeLiteralSafe(s);
    LiteralSafePrintable(Escape(s));
  }

  /** A quote after an escaped backslash ends the literal: the text is not safe. */
  lemma EscapedBackslashThenQuote()
    ensures !LiteralSafe("\\\\\"")
  {
    assert "\\\\\""[2..] == "\"";
  }
}

=== FILE: lcd.dfy ===
/** The display rules of the LCD display with the chat-message style: theme
    names, the emotion icon table, the chat history (one child object of
    the content area per message, capped, with consecutive system messages
    collapsed), the width of a message bubble and the zoom of a preview
    image. Widgets are reduced to what the rules read back: the kind and
    text of each child and the widths set on it. */
module LcdDisplay {
  import opened Common

  // ---------------------------------------------------------------------
  // Themes.
  // ---------------------------------------------------------------------

  datatype Theme = Dark | Light

  /** The current theme and the name last handed on to be saved. */
  datatype Screen = Screen(theme: Theme, saved: Option<string>)

  /** The theme a name selects: only the all-lower or all-upper spelling. */
  function ParseTheme(name: string): Option<Theme>
  {
    if name == "dark" || name == "DARK" then Some(Dark)
    else if name == "light" || name == "LIGHT" then Some(Light)
    else None
  }

  /** `SetTheme`: an unknown name changes nothing and is not saved; a known
      one switches the theme and is saved as given. */
  function SetTheme(s: Screen, name: string): (r: Screen)
    ensures ParseTheme(name).None? ==> r == s
    ensures ParseTheme(name).Some? ==> r == Screen(ParseTheme(name).value, Some(name))
  {
    match ParseTheme(name)
    case None => s
    case Some(t) => Screen(t, Some(name))
  }

  /** The accepted names, both ways round; a mixed-case spelling such as
      "Dark" is refused. */
  lemma ThemeNames(name: string)
    ensures ParseTheme(name) == Some(Dark) <==> name in {"dark", "DARK"}
    ensures ParseTheme(name) == Some(Light) <==> name in {"light", "LIGHT"}
    ensures ParseTheme("Dark").None? && ParseTheme("Light").None?
  {
  }

  /** Setting a theme twice is setting it once. */
  lemma SetThemeIdempotent(s: Screen, name: string)
    ensures SetTheme(SetTheme(s, name), name) == SetTheme(s, name)
  {
  }

  // ---------------------------------------------------------------------
  // Emotions.
  // ---------------------------------------------------------------------

  datatype Emotion = Emotion(icon: string, text: string)

  const NEUTRAL_ICON: string := "\U{1F636}"

  const EMOTIONS: seq<Emotion> := [
    Emotion(NEUTRAL_ICON, "neutral"),
    Emotion("\U{1F642}", "happy"),
    Emotion("\U{1F606}", "laughing"),
    Emotion("\U{1F602}", "funny"),
    Emotion("\U{1F614}", "sad"),
    Emotion("\U{1F620}", "angry"),
    Emotion("\U{1F62D}", "crying"),
    Emotion("\U{1F60D}", "loving"),
    Emotion("\U{1F633}", "embarrassed"),
    Emotion("\U{1F62F}", "surprised"),
    Emotion("\U{1F631}", "shocked"),
    Emotion("\U{1F914}", "thinking"),
    Emotion("\U{1F609}", "winking"),
    Emotion("\U{1F60E}", "cool"),
    Emotion("\U{1F60C}", "relaxed"),
    Emotion("\U{1F924}", "delicious"),
    Emotion("\U{1F618}", "kissy"),
    Emotion("\U{1F60F}", "confident"),
    Emotion("\U{1F634}", "sleepy"),
    Emotion("\U{1F61C}", "silly"),
    Emotion("\U{1F644}", "confused")
  ]

  /** The first table entry from `i` on named `name` (`find_if`). */
  function FindEmotionFrom(name: string, i: nat): (r: Option<nat>)
    requires i <= |EMOTIONS|
    ensures r.Some? ==> i <= r.value < |EMOTIONS| && EMOTIONS[r.value].text == name
    ensures r.Some? ==> forall j :: i <= j < r.value ==> EMOTIONS[j].text != name
    ensures r.None? <==> forall j :: i <= j < |EMOTIONS| ==> EMOTIONS[j].text != name
    decreases |EMOTIONS| - i
  {
    if i == |EMOTIONS| then None
    else if EMOTIONS[i].text == name then Some(i)
    else FindEmotionFrom(name, i + 1)
  }

  /** The icon shown for an emotion name. */
  function EmotionIcon(name: string): (icon: string)
    ensures exists k :: 0 <= k < |EMOTIONS| && EMOTIONS[k].icon == icon
  {
    var found := FindEmotionFrom(name, 0);
    if found.Some? then EMOTIONS[found.value].icon
    else assert EMOTIONS[0].icon == NEUTRAL_ICON; NEUTRAL_ICON
  }

  /** `SetEmotion`: `shown` is the emotion label's text, None when the label
      does not exist, in which case nothing changes. */
  function SetEmotion(shown: Option<string>, name: string): (r: Option<string>)
    ensures shown.None? <==> r.None?
    ensures shown.Some? ==> r == Some(EmotionIcon(name))
  {
    if shown.None? then None else Some(EmotionIcon(name))
  }

  /** The table's names are distinct. */
  lemma EmotionNamesDistinct()
    ensures |EMOTIONS| == 21
    ensures forall i, j :: 0 <= i < j < |EMOTIONS| ==> EMOTIONS[i].text != EMOTIONS[j].text
  {
  }

  /** A listed name shows its own icon; any other name shows the neutral
      face, the same icon "neutral" shows. */
  lemma EmotionLookup(name: string)
    ensures forall k :: 0 <= k < |EMOTIONS| && EMOTIONS[k].text == name ==> EmotionIcon(name) == EMOTIONS[k].icon
    ensures (forall k :: 0 <= k < |EMOTIONS| ==> EMOTIONS[k].text != name) ==>
      EmotionIcon(name) == NEUTRAL_ICON == EmotionIcon("neutral")
  {
    EmotionNamesDistinct();
    assert FindEmotionFrom("neutral", 0) == Some(0);
  }

  // ---------------------------------------------------------------------
  // Chat messages.
  // ---------------------------------------------------------------------

  datatype Target = Esp32P4 | OtherTarget

  /** The cap on the number of messages kept. */
  function MaxMessages(t: Target): nat
  {
    if t == Esp32P4 then 40 else 20
  }

  /** What a child of the content area is, as the bubble's user data says. */
  datatype Kind = UserBubble | AssistantBubble | SystemBubble | PlainBubble | ImageBubble

  /** A child of the content area: its kind, its text and the width set on
      its text (for an image, on the bubble). */
  datatype Child = Child(kind: Kind, text: string, width: int)

  function RoleKind(role: string): Kind
  {
    if role == "user" then UserBubble
    else if role == "assistant" then AssistantBubble
    else if role == "system" then SystemBubble
    else PlainBubble
  }

  const MIN_BUBBLE_WIDTH: int := 20

  /** The widest a bubble gets: 85% of the screen width, less the padding. */
  function MaxBubbleWidth(horRes: nat): int
  {
    horRes * 85 / 100 - 16
  }

  /** The text width clamped to the minimum and then to the maximum. */
  function BubbleWidth(textWidth: int, horRes: nat): (w: int)
    ensures w <= MaxBubbleWidth(horRes)
    ensures MIN_BUBBLE_WIDTH <= MaxBubbleWidth(horRes) ==> MIN_BUBBLE_WIDTH <= w
    ensures MIN_BUBBLE_WIDTH <= textWidth <= MaxBubbleWidth(horRes) ==> w == textWidth
  {
    var atLeast := if textWidth < MIN_BUBBLE_WIDTH then MIN_BUBBLE_WIDTH else textWidth;
    if atLeast < MaxBubbleWidth(horRes) then atLeast else MaxBubbleWidth(horRes)
  }

  function Distance(a: int, b: int): nat
  {
    if a < b then b - a else a - b
  }

  /** Where the screen is wide enough, the bubble width is the allowed
      width nearest to the text width. */
  lemma BubbleWidthNearest(textWidth: int, horRes: nat, v: int)
    requires MIN_BUBBLE_WIDTH <= v <= MaxBubbleWidth(horRes)
    ensures Distance(BubbleWidth(textWidth, horRes), textWidth) <= Distance(v, textWidth)
  {
  }

  /** Wider text never gives a narrower bubble. */
  lemma BubbleWidthMonotone(a: int, b: int, horRes: nat)
    requires a <= b
    ensures BubbleWidth(a, horRes) <= BubbleWidth(b, horRes)
  {
  }

  /** The child a message adds. */
  function NewMessage(role: string, content: string, textWidth: int, horRes: nat): (c: Child)
    ensures c.kind == RoleKind(role) && c.text == content
  {
    Child(RoleKind(role), content, BubbleWidth(textWidth, horRes))
  }

  /** Deletes child `at` when it is a system message; an index past the
      end finds no child and deletes nothing. */
  function CollapseAt(children: seq<Child>, at: int): (r: seq<Child>)
    ensures 0 <= at < |children| && children[at].kind == SystemBubble ==>
      r == children[..at] + children[at + 1..]
    ensures !(0 <= at < |children| && children[at].kind == SystemBubble) ==> r == children
  {
    if 0 <= at < |children| && children[at].kind == SystemBubble then children[..at] + children[at + 1..]
    else children
  }

  /** The history after a message, as written: the oldest child is deleted
      at the cap, and the collapse check then looks at the index taken from
      the count before that deletion. */
  function AddMessageAsWritten(children: seq<Child>, msg: Child, max: nat): (r: seq<Child>)
    ensures r != [] && r[|r| - 1] == msg
  {
    var count := |children|;
    var kept := if count >= max && count > 0 then children[1..] else children;
    var collapsed := if msg.kind == SystemBubble && count > 0 then CollapseAt(kept, count - 1) else kept;
    collapsed + [msg]
  }

  /** The history after a message, with the collapse check looking at the
      last child that is left. */
  function AddMessage(children: seq<Child>, msg: Child, max: nat): (r: seq<Child>)
    ensures r != [] && r[|r| - 1] == msg
  {
    var kept := if |children| >= max && |children| > 0 then children[1..] else children;
    var collapsed := if msg.kind == SystemBubble then CollapseAt(kept, |kept| - 1) else kept;
    collapsed + [msg]
  }

  /** `SetChatMessage` as the firmware runs it: `content` is the content
      area's children, None before the UI exists. An empty message or a
      missing content area changes nothing; otherwise the history takes the
      message as `AddMessageAsWritten` does. */
  function SetChatMessage(content: Option<seq<Child>>, role: string, text: string,
                          textWidth: int, horRes: nat, target: Target): (r: Option<seq<Child>>)
    ensures content.None? || text == "" ==> r == content
    ensures content.Some? && text != "" ==>
      r == Some(AddMessageAsWritten(content.value, NewMessage(role, text, textWidth, horRes), MaxMessages(target)))
  {
    if content.None? || text == "" then content
    else Some(AddMessageAsWritten(content.value, NewMessage(role, text, textWidth, horRes), MaxMessages(target)))
  }

  /** `SetChatMessage` with the corrected collapse check. */
  function SetChatMessageCorrected(content: Option<seq<Child>>, role: string, text: string,
                                   textWidth: int, horRes: nat, target: Target): (r: Option<seq<Child>>)
    ensures content.None? || text == "" ==> r == content
    ensures content.Some? && text != "" ==>
      r == Some(AddMessage(content.value, NewMessage(role, text, textWidth, horRes), MaxMessages(target)))
  {
    if content.None? || text == "" then content
    else Some(AddMessage(content.value, NewMessage(role, text, textWidth, horRes), MaxMessages(target)))
  }

  /** What a message does to the history the firmware shows: a history within
      the cap stays within it, the new bubble comes last with the role's kind
      and the text, and the bubbles before it are the old ones in order,
      one fewer at each end at most; at the cap exactly the oldest bubble
      is gone. */
  lemma SetChatMessageShows(children: seq<Child>, role: string, text: string, textWidth: int, horRes: nat, target: Target)
    requires text != "" && |children| <= MaxMessages(target)
    ensures var r := SetChatMessage(Some(children), role, text, textWidth, horRes, target).value;
      && |r| <= MaxMessages(target)
      && r[|r| - 1].kind == RoleKind(role) && r[|r| - 1].text == text
      && StretchOf(children, r[..|r| - 1])
    ensures |children| == MaxMessages(target) ==>
      SetChatMessage(Some(children), role, text, textWidth, horRes, target).value
        == children[1..] + [NewMessage(role, text, textWidth, horRes)]
  {
    var msg := NewMessage(role, text, textWidth, horRes);
    AddMessageBounded(children, msg, MaxMessages(target));
    AddMessageKeepsOrder(children, msg, MaxMessages(target));
    if |children| == MaxMessages(target) {
      AddMessageAtCap(children, msg, MaxMessages(target));
    }
  }

  /** At the cap the oldest bubble, child 0, is deleted. As written nothing
      else goes, whatever the message; the corrected step also replaces a
      system bubble that is last with a new system message. */
  lemma AddMessageAtCap(children: seq<Child>, msg: Child, max: nat)
    requires |children| >= max && max > 0
    ensures AddMessageAsWritten(children, msg, max) == children[1..] + [msg]
    ensures msg.kind == SystemBubble && |children| >= 2 && children[|children| - 1].kind == SystemBubble ==>
      AddMessage(children, msg, max) == children[1..|children| - 1] + [msg]
    ensures !(msg.kind == SystemBubble && |children| >= 2 && children[|children| - 1].kind == SystemBubble) ==>
      AddMessage(children, msg, max) == children[1..] + [msg]
  {
  }

  /** At most `max` children before a message means at most `max` after. */
  lemma AddMessageBounded(children: seq<Child>, msg: Child, max: nat)
    requires |children| <= max && max > 0
    ensures |AddMessage(children, msg, max)| <= max
    ensures |AddMessageAsWritten(children, msg, max)| <= max
  {
  }

  /** No two system messages next to each other. */
  predicate NoSystemRun(s: seq<Child>)
  {
    forall i :: 0 <= i < |s| - 1 ==> !(s[i].kind == SystemBubble && s[i + 1].kind == SystemBubble)
  }

  lemma NoSystemRunSlice(s: seq<Child>, i: nat, j: nat)
    requires NoSystemRun(s) && i <= j <= |s|
    ensures NoSystemRun(s[i..j])
  {
    forall k | 0 <= k < j - i - 1
      ensures !(s[i..j][k].kind == SystemBubble && s[i..j][k + 1].kind == SystemBubble)
    {
      assert s[i..j][k] == s[i + k] && s[i..j][k + 1] == s[i + k + 1];
    }
  }

  /** A system message replaces a system message directly before it, so a
      history without two system messages in a row keeps that shape. */
  lemma AddMessageNoSystemRun(children: seq<Child>, msg: Child, max: nat)
    requires NoSystemRun(children)
    ensures NoSystemRun(AddMessage(children, msg, max))
  {
    var start := if |children| >= max && |children| > 0 then 1 else 0;
    var kept := children[start..];
    NoSystemRunSlice(children, start, |children|);
    var collapsed := if msg.kind == SystemBubble then CollapseAt(kept, |kept| - 1) else kept;
    if msg.kind == SystemBubble && kept != [] && kept[|kept| - 1].kind == SystemBubble {
      assert collapsed == kept[..|kept| - 1];
      NoSystemRunSlice(kept, 0, |kept| - 1);
      if |kept| >= 2 {
        assert kept[|kept| - 2].kind != SystemBubble;
      }
    }
    var r := collapsed + [msg];
    assert r == AddMessage(children, msg, max);
    forall i | 0 <= i < |r| - 1
      ensures !(r[i].kind == SystemBubble && r[i + 1].kind == SystemBubble)
    {
      if i + 1 < |collapsed| {
        assert r[i] == collapsed[i] && r[i + 1] == collapsed[i + 1];
      }
    }
  }

  /** `body` is a stretch of `children`, one shorter at each end at most. */
  predicate StretchOf(children: seq<Child>, body: seq<Child>)
  {
    exists i, j :: 0 <= i <= 1 && |children| - 1 <= j <= |children| && i <= j && body == children[i..j]
  }

  /** The messages kept are the old ones in their order: the history before
      the new message is a stretch of the old history, one shorter at each
      end at most; this holds for both versions. */
  lemma AddMessageKeepsOrder(children: seq<Child>, msg: Child, max: nat)
    ensures var r := AddMessage(children, msg, max); StretchOf(children, r[..|r| - 1])
    ensures var r := AddMessageAsWritten(children, msg, max); StretchOf(children, r[..|r| - 1])
  {
    CorrectedKeepsOrder(children, msg, max);
    AsWrittenKeepsOrder(children, msg, max);
  }

  lemma CorrectedKeepsOrder(children: seq<Child>, msg: Child, max: nat)
    ensures var r := AddMessage(children, msg, max); StretchOf(children, r[..|r| - 1])
  {
    var start := if |children| >= max && |children| > 0 then 1 else 0;
    var kept := children[start..];
    var r := AddMessage(children, msg, max);
    var collapsed := if msg.kind == SystemBubble then CollapseAt(kept, |kept| - 1) else kept;
    assert r[..|r| - 1] == collapsed;
    if collapsed == kept {
      assert collapsed == children[start..|children|];
    } else {
      assert collapsed == children[start..|children| - 1];
    }
  }

  lemma AsWrittenKeepsOrder(children: seq<Child>, msg: Child, max: nat)
    ensures var r := AddMessageAsWritten(children, msg, max); StretchOf(children, r[..|r| - 1])
  {
    var start := if |children| >= max && |children| > 0 then 1 else 0;
    var kept := children[start..];
    var count := |children|;
    var r := AddMessageAsWritten(children, msg, max);
    var collapsed := if msg.kind == SystemBubble && count > 0 then CollapseAt(kept, count - 1) else kept;
    assert r[..|r| - 1] == collapsed;
    if collapsed == kept {
      assert collapsed == children[start..|children|];
    } else {
      assert collapsed == children[start..|children| - 1];
    }
  }

  /** With room left, a system message after a system message replaces it,
      and any other message is simply appended. */
  lemma AddMessageReplaces(children: seq<Child>, msg: Child, max: nat)
    requires |children| < max
    ensures msg.kind == SystemBubble && children != [] && children[|children| - 1].kind == SystemBubble ==>
      AddMessage(children, msg, max) == children[..|children| - 1] + [msg]
    ensures !(msg.kind == SystemBubble && children != [] && children[|children| - 1].kind == SystemBubble) ==>
      AddMessage(children, msg, max) == children + [msg]
  {
  }

  /** The two versions agree below the cap; at the cap, after a system
      message, a new system message is not collapsed as written and two
      system messages end up next to each other. */
  lemma CollapseSkippedAtCap(children: seq<Child>, msg: Child, max: nat)
    requires |children| >= max && |children| >= 2
    requires children[|children| - 1].kind == SystemBubble && msg.kind == SystemBubble
    ensures var r := AddMessageAsWritten(children, msg, max);
      |r| == |children| && r[|r| - 2].kind == SystemBubble && r[|r| - 1].kind == SystemBubble
      && !NoSystemRun(r)
    ensures |AddMessage(children, msg, max)| == |children| - 1
  {
    var r := AddMessageAsWritten(children, msg, max);
    assert r == children[1..] + [msg];
    assert r[|r| - 2] == children[|children| - 1];
  }

  /** Below the cap the check looks at the same child either way. */
  lemma AsWrittenAgreesBelowCap(children: seq<Child>, msg: Child, max: nat)
    requires |children| < max
    ensures AddMessageAsWritten(children, msg, max) == AddMessage(children, msg, max)
  {
  }

  /** The smallest case: twenty messages ending in a system message, then
      another system message. */
  lemma CollapseSkippedExample()
    ensures var children := seq(19, _ => Child(UserBubble, "hi", 20)) + [Child(SystemBubble, "connected", 20)];
      var msg := Child(SystemBubble, "listening", 20);
      !NoSystemRun(AddMessageAsWritten(children, msg, MaxMessages(OtherTarget)))
      && NoSystemRun(AddMessage(children, msg, MaxMessages(OtherTarget)))
  {
    var children := seq(19, _ => Child(UserBubble, "hi", 20)) + [Child(SystemBubble, "connected", 20)];
    var msg := Child(SystemBubble, "listening", 20);
    CollapseSkippedAtCap(children, msg, 20);
    assert NoSystemRun(children) by {
      forall i | 0 <= i < |children| - 1
        ensures children[i].kind == UserBubble
      {
      }
    }
    AddMessageNoSystemRun(children, msg, 20);
  }

  // ---------------------------------------------------------------------
  // The preview image bubble.
  // ---------------------------------------------------------------------

  /** The box a preview may fill: 70% of the screen width, half its height. */
  function MaxPreviewWidth(horRes: nat): nat { horRes * 70 / 100 }
  function MaxPreviewHeight(verRes: nat): nat { verRes * 50 / 100 }

  /** The image scale, in 1/256 units, capped at full size. */
  function Zoom(w: nat, h: nat, horRes: nat, verRes: nat): (z: nat)
    requires w > 0 && h > 0
    ensures z <= 256
    ensures w * z <= 256 * MaxPreviewWidth(horRes) && h * z <= 256 * MaxPreviewHeight(verRes)
  {
    var boxW, boxH := 256 * MaxPreviewWidth(horRes), 256 * MaxPreviewHeight(verRes);
    var zoomW := boxW / w;
    var zoomH := boxH / h;
    var z := if zoomW < zoomH then zoomW else zoomH;
    var capped := if z > 256 then 256 else z;
    FitsBox(w, boxW, capped);
    FitsBox(h, boxH, capped);
    capped
  }

  /** A scale no larger than the box size over the image size fits the box. */
  lemma FitsBox(size: nat, box: nat, scale: nat)
    requires size > 0 && scale <= box / size
    ensures size * scale <= box
  {
    DivBelow(box, size);
    MulMono(size, scale, box / size);
  }

  lemma DivBelow(a: nat, b: nat)
    requires b > 0
    ensures b * (a / b) <= a < b * (a / b + 1)
  {
  }

  /** The zoom is the largest scale up to full size at which the image
      fits the box. */
  lemma ZoomIsLargest(w: nat, h: nat, horRes: nat, verRes: nat, z: nat)
    requires w > 0 && h > 0
    requires z <= 256 && w * z <= 256 * MaxPreviewWidth(horRes) && h * z <= 256 * MaxPreviewHeight(verRes)
    ensures z <= Zoom(w, h, horRes, verRes)
  {
    var boxW, boxH := 256 * MaxPreviewWidth(horRes), 256 * MaxPreviewHeight(verRes);
    DivBelow(boxW, w);
    DivBelow(boxH, h);
    MulLess(w, boxW / w + 1, z);
    MulLess(h, boxH / h + 1, z);
  }

  lemma MulLess(b: nat, x: nat, z: nat)
    requires b > 0 && b * z < b * x
    ensures z < x
  {
    if z >= x {
      MulMono(b, x, z);
    }
  }

  lemma MulMono(b: nat, x: nat, z: nat)
    requires x <= z
    ensures b * x <= b * z
  {
  }

  /** The bubble of a preview image: the scale, and the bubble's width and
      height, eight pixels of padding on each side of the scaled image. */
  datatype ImageView = ImageView(zoom: nat, width: nat, height: nat)

  function PreviewView(w: nat, h: nat, horRes: nat, verRes: nat): ImageView
    requires w > 0 && h > 0
  {
    var z := Zoom(w, h, horRes, verRes);
    ImageView(z, w * z / 256 + 16, h * z / 256 + 16)
  }

  /** The scaled image fits the box and is never larger than the image. */
  lemma PreviewFits(w: nat, h: nat, horRes: nat, verRes: nat)
    requires w > 0 && h > 0
    ensures var v := PreviewView(w, h, horRes, verRes);
      v.width - 16 <= MaxPreviewWidth(horRes) && v.height - 16 <= MaxPreviewHeight(verRes)
      && v.width - 16 <= w && v.height - 16 <= h
  {
    var z := Zoom(w, h, horRes, verRes);
    ScaledSide(w, z, MaxPreviewWidth(horRes));
    ScaledSide(h, z, MaxPreviewHeight(verRes));
  }

  /** One side of the scaled image: within its box and within the image. */
  lemma ScaledSide(size: nat, z: nat, box: nat)
    requires z <= 256 && size * z <= 256 * box
    ensures size * z / 256 <= box && size * z / 256 <= size
  {
    var scaled := size * z;
    MulMono(size, z, 256);
    ScaleDown(scaled, box);
    ScaleDown(scaled, size);
  }

  lemma ScaleDown(a: nat, m: nat)
    requires a <= 256 * m
    ensures a / 256 <= m
  {
  }

  /** `SetPreviewImage`: `image` is the descriptor's width and height, None
      for a null descriptor; `allocOk` whether both copies were allocated.
      A new image bubble is appended; it is not counted against the cap. */
  function SetPreviewImage(content: Option<seq<Child>>, image: Option<(nat, nat)>, allocOk: bool,
                           horRes: nat, verRes: nat): (r: (Option<seq<Child>>, Option<ImageView>))
    requires image.Some? ==> image.value.0 > 0 && image.value.1 > 0
    ensures r.1.None? ==> r.0 == content
    ensures r.1.Some? <==> content.Some? && image.Some? && allocOk
    ensures r.1.Some? ==> r.1.value.zoom <= 256 && r.0 == Some(content.value + [Child(ImageBubble, "", r.1.value.width)])
  {
    if content.None? || image.None? || !allocOk then (content, None)
    else
      var v := PreviewView(image.value.0, image.value.1, horRes, verRes);
      (Some(content.value + [Child(ImageBubble, "", v.width)]), Some(v))
  }
}

=== FILE: mcp_server.dfy ===
/** The MCP (Model Context Protocol, revision 2024-11-05) server of the
    device: JSON-RPC 2.0 requests are validated and dispatched to
    `initialize`, `tools/list` and `tools/call`; tools live in a registry
    with unique names, are listed in pages under a payload budget, and are
    called with arguments bound to their declared properties. Replies are
    abstract until rendered as JSON-RPC payload text. */
module McpServer {
  import opened Common
  import opened Json
  import opened JsonText

  const PROTOCOL_VERSION: string := "2024-11-05"
  const DEFAULT_TOOLCALL_STACK_SIZE: int := 6144
  const MIN_TOOLCALL_STACK_SIZE: nat := 4096
  const MAX_PAYLOAD_SIZE: nat := 8000
  /** The room `tools/list` keeps free for the closing text of a page. */
  const PAGE_SLACK: nat := 30
  const TOOLS_OPEN: string := "{\"tools\":["

  datatype PropertyType = BooleanType | IntegerType | StringType

  datatype Value = BoolValue(b: bool) | IntValue(i: int) | StringValue(s: string)

  /** A declared tool argument; it is optional exactly when it has a default. */
  datatype Property = Property(name: string, kind: PropertyType, default: Option<Value>)

  /** A registered tool with its declared arguments. How a tool renders itself
      in a `tools/list` page is a parameter `toJson` of the listing. */
  datatype Tool = Tool(name: string, properties: seq<Property>)

  /** What the server sends back: a result (JSON text) or an error message. */
  datatype Reply = ResultReply(id: int, result: string) | ErrorReply(id: int, message: string)

  /** What one incoming message leads to: nothing, a reply, or a tool call
      (run on its own thread, which replies when it finishes). */
  datatype Action =
    | NoReply
    | Send(reply: Reply)
    | RunTool(id: int, tool: string, arguments: seq<Option<Value>>, stackSize: nat)

  // ---------------------------------------------------------------------
  // The tool registry.
  // ---------------------------------------------------------------------

  predicate UniqueNames(tools: seq<Tool>)
  {
    forall i, j :: 0 <= i < j < |tools| ==> tools[i].name != tools[j].name
  }

  predicate HasTool(tools: seq<Tool>, name: string)
  {
    exists i :: 0 <= i < |tools| && tools[i].name == name
  }

  /** The position of the first tool called `name`. */
  function FindTool(tools: seq<Tool>, name: string): (r: Option<nat>)
    ensures r.None? <==> !HasTool(tools, name)
    ensures r.Some? ==> r.value < |tools| && tools[r.value].name == name
    ensures r.Some? ==> forall k :: 0 <= k < r.value ==> tools[k].name != name
  {
    if tools == [] then None
    else if tools[0].name == name then Some(0)
    else
      var r := FindTool(tools[1..], name);
      assert forall i :: 1 <= i < |tools| ==> tools[i] == tools[1..][i - 1];
      if r.Some? then Some(r.value + 1) else None
  }

  /** `AddTool`: a tool whose name is already registered is not added again. */
  function AddTool(tools: seq<Tool>, t: Tool): (r: seq<Tool>)
    ensures HasTool(tools, t.name) ==> r == tools
    ensures !HasTool(tools, t.name) ==> r == tools + [t]
  {
    if FindTool(tools, t.name).Some? then tools else tools + [t]
  }

  /** Registering keeps the names unique, and the tool is then registered. */
  lemma AddToolKeepsUnique(tools: seq<Tool>, t: Tool)
    requires UniqueNames(tools)
    ensures UniqueNames(AddTool(tools, t))
    ensures HasTool(AddTool(tools, t), t.name)
  {
    if !HasTool(tools, t.name) {
      var r := tools + [t];
      assert r[|tools|].name == t.name;
    }
  }

  /** Registers the tools one after the other. */
  function AddTools(tools: seq<Tool>, ts: seq<Tool>): (r: seq<Tool>)
    decreases |ts|
  {
    if ts == [] then tools else AddTools(AddTool(tools, ts[0]), ts[1..])
  }

  lemma {:induction false} AddToolsKeepsUnique(tools: seq<Tool>, ts: seq<Tool>)
    requires UniqueNames(tools)
    ensures UniqueNames(AddTools(tools, ts))
    ensures tools <= AddTools(tools, ts)
    decreases |ts|
  {
    if ts != [] {
      AddToolKeepsUnique(tools, ts[0]);
      AddToolsKeepsUnique(AddTool(tools, ts[0]), ts[1..]);
    }
  }

  /** Registering tools with distinct new names appends them in order. */
  lemma {:induction false} AddToolsAppends(tools: seq<Tool>, ts: seq<Tool>)
    requires UniqueNames(ts)
    requires forall i :: 0 <= i < |ts| ==> !HasTool(tools, ts[i].name)
    ensures AddTools(tools, ts) == tools + ts
    decreases |ts|
  {
    if ts != [] {
      var next := tools + [ts[0]];
      calc {
        AddTools(tools, ts);
        { FirstIsNew(tools, ts); }
        AddTools(next, ts[1..]);
        { StillNew(tools, ts); UniqueTail(ts); AddToolsAppends(next, ts[1..]); }
        next + ts[1..];
        { ConsAppend(tools, ts); }
        tools + ts;
      }
    }
  }

  /** The first of the new tools is appended. */
  lemma FirstIsNew(tools: seq<Tool>, ts: seq<Tool>)
    requires ts != [] && !HasTool(tools, ts[0].name)
    ensures AddTools(tools, ts) == AddTools(tools + [ts[0]], ts[1..])
  {
  }

  lemma ConsAppend<T>(a: seq<T>, b: seq<T>)
    requires b != []
    ensures a + [b[0]] + b[1..] == a + b
  {
    assert [b[0]] + b[1..] == b;
  }

  /** After the first of distinct new tools is registered, the others are
      still new. */
  lemma StillNew(tools: seq<Tool>, ts: seq<Tool>)
    requires ts != [] && UniqueNames(ts)
    requires forall i :: 0 <= i < |ts| ==> !HasTool(tools, ts[i].name)
    ensures forall i :: 0 <= i < |ts[1..]| ==> !HasTool(tools + [ts[0]], ts[1..][i].name)
  {
    var rest := ts[1..];
    forall i | 0 <= i < |rest|
      ensures !HasTool(tools + [ts[0]], rest[i].name)
    {
      assert rest[i] == ts[i + 1];
      NotInAppend(tools, ts[0], ts[i + 1].name);
    }
  }

  lemma NotInAppend(tools: seq<Tool>, t: Tool, n: string)
    requires !HasTool(tools, n) && t.name != n
    ensures !HasTool(tools + [t], n)
  {
    var next := tools + [t];
    forall k | 0 <= k < |next|
      ensures next[k].name != n
    {
      if k < |tools| {
        assert next[k] == tools[k];
      }
    }
  }

  lemma UniqueTail(ts: seq<Tool>)
    requires ts != [] && UniqueNames(ts)
    ensures UniqueNames(ts[1..])
  {
    var rest := ts[1..];
    forall i, j | 0 <= i < j < |rest|
      ensures rest[i].name != rest[j].name
    {
      assert rest[i] == ts[i + 1] && rest[j] == ts[j + 1];
    }
  }

  /** What the board offers, which decides the optional common tools. */
  datatype BoardFeatures = BoardFeatures(hasBacklight: bool, hasThemedDisplay: bool, hasCamera: bool)

  /** The common tools for a board, in registration order. */
  function CommonTools(board: BoardFeatures): (ts: seq<Tool>)
    ensures |ts| >= 2
    ensures ts[0].name == "self.get_device_status" && ts[1].name == "self.audio_speaker.set_volume"
  {
    [Tool("self.get_device_status", []),
     Tool("self.audio_speaker.set_volume", [Property("volume", IntegerType, None)])]
    + (if board.hasBacklight then [Tool("self.screen.set_brightness", [Property("brightness", IntegerType, None)])] else [])
    + (if board.hasThemedDisplay then [Tool("self.screen.set_theme", [Property("theme", StringType, None)])] else [])
    + (if board.hasCamera then [Tool("self.camera.take_photo", [Property("question", StringType, None)])] else [])
  }

  lemma CommonToolsUnique(board: BoardFeatures)
    ensures UniqueNames(CommonTools(board))
  {
    var ts := CommonTools(board);
    forall i, j | 0 <= i < j < |ts|
      ensures ts[i].name != ts[j].name
    {
      var a := ts[i].name;
      var b := ts[j].name;
      if |a| == |b| {
        assert a[5] != b[5];
      }
    }
  }

  /** `AddCommonTools`: the common tools are registered into an empty list,
      then the tools registered before are appended after them. */
  function AddCommonTools(tools: seq<Tool>, board: BoardFeatures): seq<Tool>
  {
    AddTools([], CommonTools(board)) + tools
  }

  /** After `AddCommonTools` the common tools come first, in their own order,
      followed by every earlier tool in its earlier order. */
  lemma CommonToolsFirst(tools: seq<Tool>, board: BoardFeatures)
    ensures AddCommonTools(tools, board) == CommonTools(board) + tools
  {
    CommonToolsUnique(board);
    AddToolsAppends([], CommonTools(board));
    assert [] + CommonTools(board) == CommonTools(board);
  }

  /** The earlier tools are appended without the duplicate check, so the names
      stay unique exactly when no earlier tool has a common tool's name. */
  lemma CommonToolsUniqueWhenDisjoint(tools: seq<Tool>, board: BoardFeatures)
    requires UniqueNames(tools)
    ensures UniqueNames(AddCommonTools(tools, board)) <==>
      forall i :: 0 <= i < |CommonTools(board)| ==> !HasTool(tools, CommonTools(board)[i].name)
  {
    var c := CommonTools(board);
    CommonToolsFirst(tools, board);
    var r := AddCommonTools(tools, board);
    assert r == c + tools;
    CommonToolsUnique(board);
    if forall i :: 0 <= i < |c| ==> !HasTool(tools, c[i].name) {
      forall i, j | 0 <= i < j < |r|
        ensures r[i].name != r[j].name
      {
        if i < |c| && j >= |c| {
          assert r[j] == tools[j - |c|];
          if r[i].name == r[j].name {
            assert HasTool(tools, c[i].name);
          }
        } else if j < |c| {
          assert r[i] == c[i] && r[j] == c[j];
        } else {
          assert r[i] == tools[i - |c|] && r[j] == tools[j - |c|];
        }
      }
    } else {
      var i :| 0 <= i < |c| && HasTool(tools, c[i].name);
      var k :| 0 <= k < |tools| && tools[k].name == c[i].name;
      assert r[i] == c[i] && r[|c| + k] == tools[k];
    }
  }

  // ---------------------------------------------------------------------
  // tools/list pagination.
  // ---------------------------------------------------------------------

  /** The text a tool adds to a page: its JSON and a comma. */
  function Entry(t: Tool, toJson: Tool -> string): string
  {
    toJson(t) + ","
  }

  /** Total length of the entries of tools `lo .. hi-1`. */
  function EntriesLength(tools: seq<Tool>, lo: nat, hi: nat, toJson: Tool -> string): nat
    requires lo <= hi <= |tools|
    decreases hi
  {
    if lo == hi then 0 else EntriesLength(tools, lo, hi - 1, toJson) + |Entry(tools[hi - 1], toJson)|
  }

  /** A page holding tools `lo .. hi-1` keeps the payload budget. */
  predicate PageFits(tools: seq<Tool>, lo: nat, hi: nat, toJson: Tool -> string)
    requires lo <= hi <= |tools|
  {
    |TOOLS_OPEN| + EntriesLength(tools, lo, hi, toJson) + PAGE_SLACK <= MAX_PAYLOAD_SIZE
  }

  /** The listing loop from tool `i` on, with `used` bytes of page text so far:
      the index of the first tool not taken. */
  function PageEnd(tools: seq<Tool>, i: nat, used: nat, toJson: Tool -> string): (e: nat)
    requires i <= |tools|
    ensures i <= e <= |tools|
    decreases |tools| - i
  {
    if i == |tools| then i
    else if used + |Entry(tools[i], toJson)| + PAGE_SLACK > MAX_PAYLOAD_SIZE then i
    else PageEnd(tools, i + 1, used + |Entry(tools[i], toJson)|, toJson)
  }

  /** The loop stops at the longest run of tools from the start that keeps
      the budget: the run fits, and one more tool would not. */
  lemma {:induction false} PageEndMaximal(tools: seq<Tool>, start: nat, i: nat, toJson: Tool -> string)
    requires start <= i <= |tools|
    requires PageFits(tools, start, i, toJson)
    ensures var e := PageEnd(tools, i, |TOOLS_OPEN| + EntriesLength(tools, start, i, toJson), toJson);
      && PageFits(tools, start, e, toJson)
      && (e < |tools| ==> !PageFits(tools, start, e + 1, toJson))
    decreases |tools| - i
  {
    if i < |tools| {
      var used := |TOOLS_OPEN| + EntriesLength(tools, start, i, toJson);
      assert EntriesLength(tools, start, i + 1, toJson) == EntriesLength(tools, start, i, toJson) + |Entry(tools[i], toJson)|;
      if used + |Entry(tools[i], toJson)| + PAGE_SLACK <= MAX_PAYLOAD_SIZE {
        PageEndMaximal(tools, start, i + 1, toJson);
      }
    }
  }

  /** Where a page starts: the first tool when there is no cursor, otherwise
      the first tool the cursor names; None for a cursor naming no tool. */
  function PageStart(tools: seq<Tool>, cursor: string): (r: Option<nat>)
    ensures r.Some? ==> r.value <= |tools|
    ensures cursor != [] && r.Some? ==> r.value < |tools| && tools[r.value].name == cursor
    ensures cursor != [] ==> (r.None? <==> !HasTool(tools, cursor))
  {
    if cursor == [] then Some(0) else FindTool(tools, cursor)
  }

  /** The page of tools from `s` on, given the cursor: the index of the first
      tool left off the page. */
  function PageStop(tools: seq<Tool>, s: nat, toJson: Tool -> string): (e: nat)
    requires s <= |tools|
    ensures s <= e <= |tools|
  {
    PageEnd(tools, s, |TOOLS_OPEN|, toJson)
  }

  /** A page is the longest run of tools from its start that keeps the budget. */
  lemma PageIsLongestFit(tools: seq<Tool>, s: nat, toJson: Tool -> string)
    requires s <= |tools|
    ensures PageFits(tools, s, PageStop(tools, s, toJson), toJson)
    ensures PageStop(tools, s, toJson) < |tools| ==> !PageFits(tools, s, PageStop(tools, s, toJson) + 1, toJson)
  {
    PageEndMaximal(tools, s, s, toJson);
  }

  /** The JSON of tools `lo .. hi-1`, separated by commas. */
  function Listing(tools: seq<Tool>, lo: nat, hi: nat, toJson: Tool -> string): string
    requires lo <= hi <= |tools|
    decreases hi - lo
  {
    if lo == hi then []
    else if lo + 1 == hi then toJson(tools[lo])
    else toJson(tools[lo]) + "," + Listing(tools, lo + 1, hi, toJson)
  }

  /** The reply to `tools/list` for a page of tools `s .. e-1`. */
  function PageReply(tools: seq<Tool>, id: int, s: nat, e: nat, toJson: Tool -> string): Reply
    requires s <= e <= |tools|
  {
    var next := if e < |tools| then tools[e].name else "";
    if e == s && tools != [] then
      ErrorReply(id, "Failed to add tool " + next + " because of payload size limit")
    else if next == [] then ResultReply(id, TOOLS_OPEN + Listing(tools, s, e, toJson) + "]}")
    else ResultReply(id, TOOLS_OPEN + Listing(tools, s, e, toJson) + "],\"nextCursor\":\"" + next + "\"}")
  }

  /** `GetToolsList`: a page of tools from the cursor on, in registry order,
      with `nextCursor` naming the first tool left out; an error when the
      list is non-empty but the page is empty (a cursor naming no tool, or a
      first tool too long for the budget). */
  function ToolsList(tools: seq<Tool>, id: int, cursor: string, toJson: Tool -> string): (r: Reply)
    ensures r.id == id
    ensures tools == [] ==> r == ResultReply(id, TOOLS_OPEN + "]}")
    ensures r.ResultReply? ==> StartsWith(r.result, TOOLS_OPEN)
  {
    var start := PageStart(tools, cursor);
    var s := if start.Some? then start.value else |tools|;
    PageReply(tools, id, s, PageStop(tools, s, toJson), toJson)
  }

  /** The JSON of each tool, in order. */
  function Jsons(ts: seq<Tool>, toJson: Tool -> string): (r: seq<string>)
    ensures |r| == |ts| && forall i :: 0 <= i < |ts| ==> r[i] == toJson(ts[i])
  {
    seq(|ts|, i requires 0 <= i < |ts| => toJson(ts[i]))
  }

  /** The listing of tools `lo .. hi-1` is their JSON joined by commas. */
  lemma {:induction false} ListingJoins(tools: seq<Tool>, lo: nat, hi: nat, toJson: Tool -> string)
    requires lo <= hi <= |tools|
    ensures Listing(tools, lo, hi, toJson) == Join(Jsons(tools[lo..hi], toJson), ",")
    decreases hi - lo
  {
    var items := Jsons(tools[lo..hi], toJson);
    if lo + 1 < hi {
      ListingJoins(tools, lo + 1, hi, toJson);
      assert items[1..] == Jsons(tools[lo + 1..hi], toJson);
      assert items[0] == toJson(tools[lo]);
    }
  }

  /** Longer runs of tools take more room. */
  lemma {:induction false} EntriesGrow(tools: seq<Tool>, lo: nat, hi: nat, hi': nat, toJson: Tool -> string)
    requires lo <= hi <= hi' <= |tools|
    ensures EntriesLength(tools, lo, hi, toJson) <= EntriesLength(tools, lo, hi', toJson)
    decreases hi' - hi
  {
    if hi < hi' {
      EntriesGrow(tools, lo, hi, hi' - 1, toJson);
    }
  }

  /** There is one longest run from `s` that keeps the budget, and the
      listing loop stops at its end. */
  lemma LongestFitIsPageStop(tools: seq<Tool>, s: nat, e: nat, toJson: Tool -> string)
    requires s <= e <= |tools|
    requires PageFits(tools, s, e, toJson) && (e < |tools| ==> !PageFits(tools, s, e + 1, toJson))
    ensures PageStop(tools, s, toJson) == e
  {
    var stop := PageStop(tools, s, toJson);
    PageIsLongestFit(tools, s, toJson);
    if stop < e {
      EntriesGrow(tools, s, stop + 1, e, toJson);
    } else if e < stop {
      EntriesGrow(tools, s, e + 1, stop, toJson);
    }
  }

  /** `tools/list` from the cursor's tool `s`: with `e` the end of the
      longest run of tools from `s` that keeps the payload budget, a
      non-empty run is listed exactly (the tools' JSON joined by commas) and
      the first tool left out, when it has a name, is the next cursor; an
      empty run of a non-empty registry is the payload error naming that tool. */
  lemma ToolsListPage(tools: seq<Tool>, id: int, cursor: string, toJson: Tool -> string, s: nat, e: nat)
    requires PageStart(tools, cursor) == Some(s)
    requires s <= e <= |tools|
    requires PageFits(tools, s, e, toJson) && (e < |tools| ==> !PageFits(tools, s, e + 1, toJson))
    ensures var page := TOOLS_OPEN + Join(Jsons(tools[s..e], toJson), ",");
      && (e == s && e < |tools| ==>
            ToolsList(tools, id, cursor, toJson) ==
              ErrorReply(id, "Failed to add tool " + tools[e].name + " because of payload size limit"))
      && (e > s && e < |tools| && tools[e].name != [] ==>
            ToolsList(tools, id, cursor, toJson) == ResultReply(id, page + "],\"nextCursor\":\"" + tools[e].name + "\"}"))
      && (e > s && e < |tools| && tools[e].name == [] ==>
            ToolsList(tools, id, cursor, toJson) == ResultReply(id, page + "]}"))
      && (e == |tools| && (e > s || tools == []) ==>
            ToolsList(tools, id, cursor, toJson) == ResultReply(id, page + "]}"))
  {
    LongestFitIsPageStop(tools, s, e, toJson);
    ListingJoins(tools, s, e, toJson);
  }

  /** A cursor naming no tool of a non-empty list gives an error reply. */
  lemma UnknownCursorFails(tools: seq<Tool>, id: int, cursor: string, toJson: Tool -> string)
    requires tools != [] && cursor != [] && !HasTool(tools, cursor)
    ensures ToolsList(tools, id, cursor, toJson) == ErrorReply(id, "Failed to add tool  because of payload size limit")
  {
    var s := |tools|;
    assert PageStart(tools, cursor) == None;
    assert PageStop(tools, s, toJson) == s;
    assert "Failed to add tool " + "" + " because of payload size limit" == "Failed to add tool  because of payload size limit";
  }

  /** A first tool too long for the budget makes the page an error naming it. */
  lemma OversizedToolFails(tools: seq<Tool>, id: int, toJson: Tool -> string)
    requires tools != [] && |TOOLS_OPEN| + |Entry(tools[0], toJson)| + PAGE_SLACK > MAX_PAYLOAD_SIZE
    ensures ToolsList(tools, id, "", toJson) ==
      ErrorReply(id, "Failed to add tool " + tools[0].name + " because of payload size limit")
  {
  }

  // ---------------------------------------------------------------------
  // Argument binding and tools/call.
  // ---------------------------------------------------------------------

  /** The value given for a property, when the arguments are an object and
      the member has the property's type. A boolean is true when its
      `valueint` is 1; an integer is read through `valueint`. */
  function ArgumentValue(arguments: Option<Json>, p: Property): (v: Option<Value>)
    ensures v.Some? ==> IsObject(arguments)
    ensures v.Some? && p.kind == StringType ==>
      IsString(GetObjectItem(arguments, p.name)) && v == Some(StringValue(GetObjectItem(arguments, p.name).value.s))
    ensures v.Some? ==> match p.kind
      case BooleanType => v.value.BoolValue?
      case IntegerType => v.value.IntValue?
      case StringType => v.value.StringValue?
  {
    if !IsObject(arguments) then None
    else
      var item := GetObjectItem(arguments, p.name);
      if p.kind == BooleanType && IsBool(item) then Some(BoolValue(item.value.b))
      else if p.kind == IntegerType && IsNumber(item) then Some(IntValue(ValueInt(item.value.n)))
      else if p.kind == StringType && IsString(item) then Some(StringValue(item.value.s))
      else None
  }

  /** The outcome of binding: a value (or none) per property, or the name of
      the first required property without a valid value. */
  datatype Binding = Bound(values: seq<Option<Value>>) | MissingArgument(name: string)

  /** Binds the properties in order: the given value, else the default; the
      first required property without a valid value stops the binding. */
  function Bind(properties: seq<Property>, arguments: Option<Json>): (b: Binding)
    ensures b.Bound? ==> |b.values| == |properties|
    decreases |properties|
  {
    if properties == [] then Bound([])
    else
      var p := properties[0];
      var given := ArgumentValue(arguments, p);
      if p.default.None? && given.None? then MissingArgument(p.name)
      else
        match Bind(properties[1..], arguments)
        case MissingArgument(n) => MissingArgument(n)
        case Bound(vs) => Bound([if given.Some? then given else p.default] + vs)
  }

  /** A binding fails exactly when some required property has no valid value,
      and it names the first such property; otherwise every property holds
      its given value or its default. */
  lemma {:induction false} BindSpec(properties: seq<Property>, arguments: Option<Json>)
    ensures Bind(properties, arguments).MissingArgument? <==>
      exists i :: 0 <= i < |properties| && properties[i].default.None? && ArgumentValue(arguments, properties[i]).None?
    ensures Bind(properties, arguments).MissingArgument? ==>
      exists i :: 0 <= i < |properties| && properties[i].default.None? && ArgumentValue(arguments, properties[i]).None?
        && Bind(properties, arguments).name == properties[i].name
        && forall k :: 0 <= k < i ==> properties[k].default.Some? || ArgumentValue(arguments, properties[k]).Some?
    ensures Bind(properties, arguments).Bound? ==>
      forall i :: 0 <= i < |properties| ==>
        Bind(properties, arguments).values[i] ==
          if ArgumentValue(arguments, properties[i]).Some? then ArgumentValue(arguments, properties[i]) else properties[i].default
    decreases |properties|
  {
    if properties != [] {
      BindSpec(properties[1..], arguments);
      var p := properties[0];
      var tail := properties[1..];
      assert forall i :: 1 <= i < |properties| ==> properties[i] == tail[i - 1];
      if !(p.default.None? && ArgumentValue(arguments, p).None?) {
        var rest := Bind(tail, arguments);
        if rest.MissingArgument? {
          var j :| 0 <= j < |tail| && tail[j].default.None? && ArgumentValue(arguments, tail[j]).None?
            && rest.name == tail[j].name
            && forall k :: 0 <= k < j ==> tail[k].default.Some? || ArgumentValue(arguments, tail[k]).Some?;
          assert properties[j + 1] == tail[j];
        } else {
          forall i | 1 <= i < |properties|
            ensures !(properties[i].default.None? && ArgumentValue(arguments, properties[i]).None?)
          {
            assert tail[i - 1] == properties[i];
          }
        }
      }
    }
  }

  /** `DoToolCall` up to the start of the tool's thread: an unknown tool or a
      missing argument is an error reply; otherwise the tool runs with the
      bound arguments and a stack of at least 4096 bytes (the requested size
      read as a 32-bit `size_t`). */
  function DoToolCall(tools: seq<Tool>, id: int, name: string, arguments: Option<Json>, stackSize: int): (a: Action)
    ensures !HasTool(tools, name) ==> a == Send(ErrorReply(id, "Unknown tool: " + name))
    ensures a.RunTool? ==> HasTool(tools, name) && a.tool == name && a.stackSize >= MIN_TOOLCALL_STACK_SIZE
  {
    var found := FindTool(tools, name);
    if found.None? then Send(ErrorReply(id, "Unknown tool: " + name))
    else
      match Bind(tools[found.value].properties, arguments)
      case MissingArgument(n) => Send(ErrorReply(id, "Missing valid argument: " + n))
      case Bound(values) => RunTool(id, name, values, Max(ToUint32(stackSize), MIN_TOOLCALL_STACK_SIZE))
  }

  /** A registered tool runs exactly when its arguments bind; the values are
      the bound ones, and the stack is the requested size when that is at
      least 4096 and fits 32 bits. */
  lemma ToolCallRuns(tools: seq<Tool>, id: int, name: string, arguments: Option<Json>, stackSize: int)
    requires HasTool(tools, name)
    ensures var t := tools[FindTool(tools, name).value];
      && (DoToolCall(tools, id, name, arguments, stackSize).RunTool? <==> Bind(t.properties, arguments).Bound?)
      && (Bind(t.properties, arguments).MissingArgument? ==>
            DoToolCall(tools, id, name, arguments, stackSize) ==
              Send(ErrorReply(id, "Missing valid argument: " + Bind(t.properties, arguments).name)))
      && (Bind(t.properties, arguments).Bound? ==>
            DoToolCall(tools, id, name, arguments, stackSize).arguments == Bind(t.properties, arguments).values)
      && (MIN_TOOLCALL_STACK_SIZE <= stackSize < UINT32_MODULUS && Bind(t.properties, arguments).Bound? ==>
            DoToolCall(tools, id, name, arguments, stackSize).stackSize == stackSize)
  {
  }

  // ---------------------------------------------------------------------
  // Message dispatch.
  // ---------------------------------------------------------------------

  /** The `initialize` result text up to the protocol revision's closing quote. */
  const PROTOCOL_AT: string := "{\"protocolVersion\":\"" + PROTOCOL_VERSION + "\""
  /** The `initialize` result text up to the board name. */
  const SERVER_NAME_AT: string := PROTOCOL_AT + ",\"capabilities\":{\"tools\":{}},\"serverInfo\":{\"name\":\""
  /** The text between the closing quote of the board name and the version. */
  const VERSION_AT: string := ",\"version\":\""

  /** The `initialize` result: the protocol revision, an empty tools
      capability, and the board name and firmware version (written into the
      text as they are, without escaping). */
  function InitializeResult(boardName: string, appVersion: string): (r: string)
    ensures StartsWith(r, PROTOCOL_AT) && StartsWith(r, SERVER_NAME_AT) && EndsWith(r, "\"}}")
  {
    var r := SERVER_NAME_AT + boardName + "\"" + VERSION_AT + appVersion + "\"}}";
    assert r[..|SERVER_NAME_AT|] == SERVER_NAME_AT;
    assert r[..|PROTOCOL_AT|] == PROTOCOL_AT;
    assert r[|r| - 3..] == "\"}}";
    r
  }

  /** A JSON reader finds the board name as the `serverInfo` name and the
      firmware version as its version, when neither needs escaping. */
  lemma InitializeNamesServer(boardName: string, appVersion: string)
    requires Plain(boardName) && Plain(appVersion)
    ensures var r := InitializeResult(boardName, appVersion);
      && ReadString(r[|SERVER_NAME_AT|..]) == Some((boardName, VERSION_AT + appVersion + "\"}}"))
      && ReadString((VERSION_AT + appVersion + "\"}}")[|VERSION_AT|..]) == Some((appVersion, "}}"))
  {
    var r := InitializeResult(boardName, appVersion);
    var after := VERSION_AT + appVersion + "\"}}";
    assert r[|SERVER_NAME_AT|..] == boardName + "\"" + after;
    ReadPlain(boardName, after);
    assert after[|VERSION_AT|..] == appVersion + "\"" + "}}";
    ReadPlain(appVersion, "}}");
  }

  /** The explain-service settings an `initialize` request hands to the
      camera: `vision.url` (a string) and `vision.token` (empty when absent). */
  function VisionSettings(params: Option<Json>, hasCamera: bool): (r: Option<(string, string)>)
    ensures var vision := GetObjectItem(GetObjectItem(params, "capabilities"), "vision");
      var url := GetObjectItem(vision, "url");
      var token := GetObjectItem(vision, "token");
      && (r.Some? <==> IsObject(params) && IsObject(GetObjectItem(params, "capabilities")) && IsObject(vision)
                       && IsString(url) && hasCamera)
      && (r.Some? ==> r.value == (url.value.s, if IsString(token) then token.value.s else ""))
  {
    var capabilities := GetObjectItem(params, "capabilities");
    if !IsObject(capabilities) then None
    else
      var vision := GetObjectItem(capabilities, "vision");
      if !IsObject(vision) then None
      else
        var url := GetObjectItem(vision, "url");
        var token := GetObjectItem(vision, "token");
        if IsString(url) && hasCamera then Some((url.value.s, if IsString(token) then token.value.s else ""))
        else None
  }

  /** The environment a message is handled in. */
  datatype Server = Server(tools: seq<Tool>, toJson: Tool -> string, boardName: string, appVersion: string)

  /** The `params` of a `tools/call` request, checked in the firmware's order. */
  function ToolsCall(server: Server, id: int, params: Option<Json>): (a: Action)
    ensures a.Send? || (a.RunTool? && a.id == id)
    ensures a.Send? ==> a.reply.id == id
  {
    if !IsObject(params) then Send(ErrorReply(id, "Missing params"))
    else
      var name := GetObjectItem(params, "name");
      if !IsString(name) then Send(ErrorReply(id, "Missing name"))
      else
        var arguments := GetObjectItem(params, "arguments");
        if arguments.Some? && !IsObject(arguments) then Send(ErrorReply(id, "Invalid arguments"))
        else
          var stackSize := GetObjectItem(params, "stackSize");
          if stackSize.Some? && !IsNumber(stackSize) then Send(ErrorReply(id, "Invalid stackSize"))
          else
            DoToolCall(server.tools, id, name.value.s, arguments,
                       if stackSize.Some? then ValueInt(stackSize.value.n) else DEFAULT_TOOLCALL_STACK_SIZE)
  }

  /** A well-formed request: `jsonrpc` is the string "2.0", `method` is a
      string that is not a notification, `params` is absent or an object, and
      `id` is a number. */
  predicate IsRequest(message: Json)
  {
    var version := GetObjectItem(Some(message), "jsonrpc");
    var rpcMethod := GetObjectItem(Some(message), "method");
    var params := GetObjectItem(Some(message), "params");
    && IsString(version) && version.value.s == "2.0"
    && IsString(rpcMethod) && !StartsWith(rpcMethod.value.s, "notifications")
    && (params.None? || IsObject(params))
    && IsNumber(GetObjectItem(Some(message), "id"))
  }

  /** `ParseMessage` on a parsed message. */
  function HandleMessage(server: Server, message: Json): (a: Action)
    ensures !IsRequest(message) <==> a.NoReply?
  {
    if !IsRequest(message) then NoReply
    else
      var rpcMethod := GetObjectItem(Some(message), "method").value.s;
      var params := GetObjectItem(Some(message), "params");
      var id := ValueInt(GetObjectItem(Some(message), "id").value.n);
      if rpcMethod == "initialize" then Send(ResultReply(id, InitializeResult(server.boardName, server.appVersion)))
      else if rpcMethod == "tools/list" then
        var cursor := GetObjectItem(params, "cursor");
        Send(ToolsList(server.tools, id, if IsString(cursor) then cursor.value.s else "", server.toJson))
      else if rpcMethod == "tools/call" then ToolsCall(server, id, params)
      else Send(ErrorReply(id, "Method not implemented: " + rpcMethod))
  }

  /** `ParseMessage` on the message text; text that does not parse is dropped. */
  function ParseMessage(server: Server, text: string, parse: string -> Option<Json>): (a: Action)
    ensures parse(text).None? ==> a.NoReply?
  {
    match parse(text)
    case None => NoReply
    case Some(message) => HandleMessage(server, message)
  }

  /** Every notification is dropped, whatever else the message holds. */
  lemma NotificationsNeverReply(server: Server, message: Json)
    requires IsString(GetObjectItem(Some(message), "method"))
    requires StartsWith(GetObjectItem(Some(message), "method").value.s, "notifications")
    ensures HandleMessage(server, message) == NoReply
  {
  }

  /** A request is answered under its own id (read through `valueint`). */
  lemma RequestsGetTheirId(server: Server, message: Json)
    requires IsRequest(message)
    ensures var id := ValueInt(GetObjectItem(Some(message), "id").value.n);
      match HandleMessage(server, message)
      case NoReply => false
      case Send(reply) => reply.id == id
      case RunTool(toolId, _, _, _) => toolId == id
  {
  }

  /** Method dispatch: `initialize` reports protocol 2024-11-05, a method the
      server does not know is an error naming it. */
  lemma MethodDispatch(server: Server, message: Json)
    requires IsRequest(message)
    ensures var rpcMethod := GetObjectItem(Some(message), "method").value.s;
      var id := ValueInt(GetObjectItem(Some(message), "id").value.n);
      && (rpcMethod == "initialize" ==>
            HandleMessage(server, message) == Send(ResultReply(id, InitializeResult(server.boardName, server.appVersion))))
      && (rpcMethod != "initialize" && rpcMethod != "tools/list" && rpcMethod != "tools/call" ==>
            HandleMessage(server, message) == Send(ErrorReply(id, "Method not implemented: " + rpcMethod)))
  {
  }

  /** The checks of `tools/call` come in a fixed order, each error only when
      the earlier checks passed. */
  lemma ToolsCallErrors(server: Server, id: int, params: Option<Json>)
    ensures !IsObject(params) ==> ToolsCall(server, id, params) == Send(ErrorReply(id, "Missing params"))
    ensures IsObject(params) && !IsString(GetObjectItem(params, "name")) ==>
      ToolsCall(server, id, params) == Send(ErrorReply(id, "Missing name"))
    ensures var arguments := GetObjectItem(params, "arguments");
      IsObject(params) && IsString(GetObjectItem(params, "name")) && arguments.Some? && !IsObject(arguments) ==>
        ToolsCall(server, id, params) == Send(ErrorReply(id, "Invalid arguments"))
    ensures var arguments := GetObjectItem(params, "arguments");
      var stackSize := GetObjectItem(params, "stackSize");
      IsObject(params) && IsString(GetObjectItem(params, "name")) && (arguments.None? || IsObject(arguments))
        && stackSize.Some? && !IsNumber(stackSize) ==>
        ToolsCall(server, id, params) == Send(ErrorReply(id, "Invalid stackSize"))
    ensures var name := GetObjectItem(params, "name");
      var arguments := GetObjectItem(params, "arguments");
      IsObject(params) && IsString(name) && (arguments.None? || IsObject(arguments))
        && GetObjectItem(params, "stackSize").None? ==>
        ToolsCall(server, id, params) == DoToolCall(server.tools, id, name.value.s, arguments, DEFAULT_TOOLCALL_STACK_SIZE)
  {
  }

  // ---------------------------------------------------------------------
  // Rendering replies.
  // ---------------------------------------------------------------------

  const RPC_OPEN: string := "{\"jsonrpc\":\"2.0\",\"id\":"
  const ERROR_OPEN: string := ",\"error\":{\"message\":\""

  /** The payload of a result reply: the result text is inserted as JSON. */
  function RenderResult(id: int, result: string): string
  {
    RPC_OPEN + IntToDecimal(id) + ",\"result\":" + result + "}"
  }

  /** The payload of an error reply as the firmware writes it: the message is
      inserted between quotes as it is. */
  function RenderErrorAsWritten(id: int, message: string): string
  {
    RPC_OPEN + IntToDecimal(id) + ERROR_OPEN + message + "\"}}"
  }

  /** The payload of an error reply with the message escaped as a JSON string. */
  function RenderError(id: int, message: string): string
  {
    RPC_OPEN + IntToDecimal(id) + ERROR_OPEN + Escape(message) + "\"}}"
  }

  function Render(reply: Reply): string
  {
    match reply
    case ResultReply(id, result) => RenderResult(id, result)
    case ErrorReply(id, message) => RenderError(id, message)
  }

  /** The text after the opening quote of an error message. */
  function ErrorMessageText(payload: string, id: int): string
    requires StartsWith(payload, RPC_OPEN + IntToDecimal(id) + ERROR_OPEN)
  {
    payload[|RPC_OPEN + IntToDecimal(id) + ERROR_OPEN|..]
  }

  /** The escaped error message reads back as the message, followed by the
      closing braces, whatever the message holds. */
  lemma RenderErrorReadsBack(id: int, message: string)
    ensures StartsWith(RenderError(id, message), RPC_OPEN + IntToDecimal(id) + ERROR_OPEN)
    ensures ReadString(ErrorMessageText(RenderError(id, message), id)) == Some((message, "}}"))
  {
    var head := RPC_OPEN + IntToDecimal(id) + ERROR_OPEN;
    var p := RenderError(id, message);
    assert p == head + (Escape(message) + "\"" + "}}");
    assert p[..|head|] == head;
    assert p[|head|..] == Escape(message) + "\"" + "}}";
    ReadEscaped(message, "}}");
  }

  /** The firmware's payload for the method `"` (as in "Method not
      implemented: " plus a method name holding a quote): the message string
      ends early, so the payload does not carry the message. */
  lemma RenderErrorAsWrittenBreaks()
    ensures var message := "Method not implemented: \"";
      && StartsWith(RenderErrorAsWritten(1, message), RPC_OPEN + IntToDecimal(1) + ERROR_OPEN)
      && ReadString(ErrorMessageText(RenderErrorAsWritten(1, message), 1)) != Some((message, "}}"))
  {
    var message := "Method not implemented: \"";
    var head := RPC_OPEN + IntToDecimal(1) + ERROR_OPEN;
    var p := RenderErrorAsWritten(1, message);
    assert p == head + (message + "\"}}");
    assert p[..|head|] == head;
    var t := p[|head|..];
    assert t == message + "\"}}";
    ReadPlainPrefix("Method not implemented: ", "\"\"}}");
    assert t == "Method not implemented: " + "\"\"}}";
  }

  /** Text without quotes, backslashes and control bytes is read as it is. */
  lemma {:induction false} ReadPlainPrefix(s: string, rest: string)
    requires forall i :: 0 <= i < |s| ==> s[i] != '"' && s[i] != '\\' && (s[i] as int) >= 0x20
    requires |rest| > 0 && rest[0] == '"'
    ensures ReadString(s + rest) == Some((s, rest[1..]))
    decreases |s|
  {
    if s == [] {
      assert s + rest == rest;
    } else {
      assert (s + rest)[1..] == s[1..] + rest;
      ReadPlainPrefix(s[1..], rest);
      assert [s[0]] + s[1..] == s;
    }
  }

  /** For messages with nothing to escape, the corrected payload is the
      firmware's. */
  lemma RenderErrorAgrees(id: int, message: string)
    requires forall i :: 0 <= i < |message| ==> message[i] != '"' && message[i] != '\\' && (message[i] as int) >= 0x20
    ensures RenderError(id, message) == RenderErrorAsWritten(id, message)
  {
    EscapePlain(message);
  }

  lemma {:induction false} EscapePlain(s: string)
    requires forall i :: 0 <= i < |s| ==> s[i] != '"' && s[i] != '\\' && (s[i] as int) >= 0x20
    ensures Escape(s) == s
    decreases |s|
  {
    if s != [] {
      EscapePlain(s[1..]);
      assert [s[0]] + s[1..] == s;
    }
  }
}

=== FILE: ota.dfy ===
/** The decision logic of the over-the-air updater: dotted version strings
    and their order, the firmware section of the version-check reply, the
    activation request, the retry bound of an upgrade, and the acceptance
    checks of one download into the update partition. HTTP, flash and
    timers are inputs: a status code, the results of the reads, whether the
    partition calls succeed. */
module Ota {
  import opened Common
  import opened Json

  const OTA_MAX_RETRIES: nat := 3
  /** `sizeof(esp_image_header_t) + sizeof(esp_image_segment_header_t) +
      sizeof(esp_app_desc_t)` in ESP-IDF: 24 + 8 + 256 bytes. */
  const IMAGE_HEADER_SIZE: nat := 24 + 8 + 256

  // ---------------------------------------------------------------------
  // Version strings.
  // ---------------------------------------------------------------------

  /** The position of the first `c` in `s`. */
  function IndexOf(s: string, c: char): (r: Option<nat>)
    ensures r.None? <==> c !in s
    ensures r.Some? ==> r.value < |s| && s[r.value] == c && c !in s[..r.value]
  {
    if s == [] then None
    else if s[0] == c then Some(0)
    else
      var r := IndexOf(s[1..], c);
      assert s[1..] == s[1..];
      if r.Some? then
        assert s[..r.value + 1] == [s[0]] + s[1..][..r.value];
        Some(r.value + 1)
      else None
  }

  /** The segments `std::getline(ss, segment, sep)` reads from `s`: the text
      between separators, where a separator at the very end closes the last
      segment without opening an empty one. */
  function Split(s: string, sep: char): (parts: seq<string>)
    ensures forall i :: 0 <= i < |parts| ==> sep !in parts[i]
    decreases |s|
  {
    if s == [] then []
    else
      var k := IndexOf(s, sep);
      if k.None? then [s] else [s[..k.value]] + Split(s[k.value + 1..], sep)
  }

  /** Joining the segments with the separator gives the text back, unless the
      text ended in a separator (which the reading drops). */
  lemma {:induction false} JoinSplit(s: string, sep: char)
    requires s == [] || s[|s| - 1] != sep
    ensures Join(Split(s, sep), [sep]) == s
    decreases |s|
  {
    if s != [] {
      var k := IndexOf(s, sep);
      if k.Some? {
        var head, rest := s[..k.value], s[k.value + 1..];
        assert rest != [] && rest[|rest| - 1] == s[|s| - 1];
        JoinSplit(rest, sep);
        SplitCons(s, sep);
        SplitAround(s, k.value);
        JoinStep(Split(s, sep), head, Split(rest, sep), rest, s, [sep]);
      }
    }
  }

  /** One step of `Split` on text that holds a separator. */
  lemma SplitCons(s: string, sep: char)
    requires IndexOf(s, sep).Some?
    ensures var k := IndexOf(s, sep).value;
      s[k + 1..] != [] ==> Split(s, sep) == [s[..k]] + Split(s[k + 1..], sep) && Split(s[k + 1..], sep) != []
  {
  }

  lemma JoinStep(parts: seq<string>, head: string, tail: seq<string>, rest: string, s: string, sep: string)
    requires parts == [head] + tail && tail != []
    requires Join(tail, sep) == rest && s == head + sep + rest
    ensures Join(parts, sep) == s
  {
    JoinCons(head, tail, sep);
  }

  lemma JoinCons(head: string, tail: seq<string>, sep: string)
    requires tail != []
    ensures Join([head] + tail, sep) == head + sep + Join(tail, sep)
  {
    assert ([head] + tail)[1..] == tail;
  }

  /** Splitting separator-free, joined segments gives them back, when the last
      one is not empty. */
  lemma {:induction false} SplitJoin(parts: seq<string>, sep: char)
    requires forall i :: 0 <= i < |parts| ==> sep !in parts[i]
    requires parts != [] ==> parts[|parts| - 1] != []
    ensures Split(Join(parts, [sep]), sep) == parts
    decreases |parts|
  {
    if |parts| == 1 {
      assert IndexOf(parts[0], sep).None?;
    } else if |parts| > 1 {
      var s := Join(parts, [sep]);
      var tail := Join(parts[1..], [sep]);
      assert s == parts[0] + ([sep] + tail);
      SplitFirst(parts[0], sep, tail);
      SplitJoin(parts[1..], sep);
      assert parts == [parts[0]] + parts[1..];
    }
  }

  lemma SplitFirst(head: string, sep: char, tail: string)
    requires sep !in head
    requires tail != []
    ensures Split(head + ([sep] + tail), sep) == [head] + Split(tail, sep)
  {
    var s := head + ([sep] + tail);
    IndexOfAfter(head, sep, tail);
    assert s[..|head|] == head;
    assert s[|head| + 1..] == tail;
  }

  lemma {:induction false} IndexOfAfter(head: string, sep: char, tail: string)
    requires sep !in head
    ensures IndexOf(head + ([sep] + tail), sep) == Some(|head|)
    decreases |head|
  {
    var s := head + ([sep] + tail);
    if head != [] {
      assert s[1..] == head[1..] + ([sep] + tail);
      IndexOfAfter(head[1..], sep, tail);
    }
  }

  /** The characters `isspace` accepts in the C locale. */
  predicate IsSpace(c: char) { c == ' ' || '\t' <= c <= '\r' }

  function SkipSpace(s: string): (r: string)
    ensures |r| <= |s| && r == s[|s| - |r|..]
    ensures r == [] || !IsSpace(r[0])
  {
    if s != [] && IsSpace(s[0]) then SkipSpace(s[1..]) else s
  }

  /** `std::stoi`: leading white space, an optional sign, then at least one
      decimal digit; the rest of the text is ignored. None stands for the
      exception it throws on text without digits or a value outside `int`. */
  function Stoi(s: string): (r: Option<int>)
    ensures r.Some? ==> INT32_MIN <= r.value <= INT32_MAX
  {
    var t := SkipSpace(s);
    if t != [] && t[0] == '-' then SignedDigits(t[1..], true)
    else if t != [] && t[0] == '+' then SignedDigits(t[1..], false)
    else SignedDigits(t, false)
  }

  /** The digits after the sign: their value, negated for a minus sign, when
      there is at least one digit and the value fits an `int`. */
  function SignedDigits(u: string, negative: bool): (r: Option<int>)
    ensures r.Some? ==> INT32_MIN <= r.value <= INT32_MAX
    ensures r.Some? ==> DigitRun(u) > 0
  {
    var n := DigitRun(u);
    if n == 0 then None
    else
      var digits := u[..n];
      assert forall i :: 0 <= i < |digits| ==> IsDigit(digits[i]);
      var magnitude: int := DecimalValue(digits);
      var v := if negative then -magnitude else magnitude;
      if INT32_MIN <= v <= INT32_MAX then Some(v) else None
  }

  /** Text without digits is rejected. */
  lemma StoiNeedsDigits(s: string)
    requires forall i :: 0 <= i < |s| ==> !IsDigit(s[i])
    ensures Stoi(s).None?
  {
    var t := SkipSpace(s);
    assert forall i :: 0 <= i < |t| ==> t[i] == s[|s| - |t| + i];
    if t != [] {
      assert !IsDigit(t[0]);
      assert |t[1..]| > 0 ==> !IsDigit(t[1..][0]);
    }
  }

  /** Decimal text of an `int`-sized number reads back as that number. */
  lemma StoiDecimal(n: nat, rest: string)
    requires n <= INT32_MAX
    requires rest == [] || !IsDigit(rest[0])
    ensures Stoi(NatToDecimal(n) + rest) == Some(n)
  {
    var s := NatToDecimal(n) + rest;
    assert IsDigit(s[0]);
    assert SkipSpace(s) == s;
    assert Stoi(s) == SignedDigits(s, false);
    DecimalPrefixRoundTrip(n, rest);
  }

  /** `ParseVersion`: every segment read as an `int`, in order; None when
      some segment makes `std::stoi` throw. */
  function ParseSegments(segments: seq<string>): (r: Option<seq<int>>)
    ensures r.Some? <==> forall i :: 0 <= i < |segments| ==> Stoi(segments[i]).Some?
    ensures r.Some? ==> |r.value| == |segments|
    ensures r.Some? ==> forall i :: 0 <= i < |segments| ==> r.value[i] == Stoi(segments[i]).value
  {
    if segments == [] then Some([])
    else
      var head := Stoi(segments[0]);
      var tail := ParseSegments(segments[1..]);
      assert forall i :: 1 <= i < |segments| ==> segments[i] == segments[1..][i - 1];
      if head.Some? && tail.Some? then Some([head.value] + tail.value) else None
  }

  function ParseVersion(version: string): Option<seq<int>>
  {
    ParseSegments(Split(version, '.'))
  }

  /** A version as dotted decimal text. */
  function FormatVersion(v: seq<nat>): string
  {
    Join(seq(|v|, i requires 0 <= i < |v| => NatToDecimal(v[i])), ".")
  }

  /** Reading a formatted version gives the version back. */
  lemma ParseFormatVersion(v: seq<nat>)
    requires forall i :: 0 <= i < |v| ==> v[i] <= INT32_MAX
    ensures ParseVersion(FormatVersion(v)) == Some(v)
  {
    var parts := seq(|v|, i requires 0 <= i < |v| => NatToDecimal(v[i]));
    forall i | 0 <= i < |parts|
      ensures '.' !in parts[i]
    {
      assert forall k :: 0 <= k < |parts[i]| ==> IsDigit(parts[i][k]);
    }
    SplitJoin(parts, '.');
    forall i | 0 <= i < |parts|
      ensures Stoi(parts[i]) == Some(v[i])
    {
      StoiDecimal(v[i], []);
      assert parts[i] + [] == parts[i];
    }
    var r := ParseSegments(parts);
    assert r.value == v;
  }

  // ---------------------------------------------------------------------
  // Version order.
  // ---------------------------------------------------------------------

  /** Lexicographic order: `a` is above `b` when it is larger at the first
      place they differ, or when `b` is a proper prefix of `a`. */
  predicate Above(a: seq<int>, b: seq<int>)
  {
    || (exists i :: 0 <= i < |a| && i < |b| && a[..i] == b[..i] && a[i] > b[i])
    || (|a| > |b| && a[..|b|] == b)
  }

  /** The comparison loop of `IsNewVersionAvailable` from place `i` on. */
  function NewerFrom(newer: seq<int>, current: seq<int>, i: nat): bool
    requires i <= |newer| && i <= |current|
    decreases |newer| - i
  {
    if i == |newer| || i == |current| then |newer| > |current|
    else if newer[i] > current[i] then true
    else if newer[i] < current[i] then false
    else NewerFrom(newer, current, i + 1)
  }

  /** `IsNewVersionAvailable` on parsed versions. */
  function IsNewer(current: seq<int>, newer: seq<int>): bool
  {
    NewerFrom(newer, current, 0)
  }

  /** Sequences with a common prefix agree at every place inside it. */
  lemma PrefixAgrees(a: seq<int>, b: seq<int>, k: nat, n: nat)
    requires k < n <= |a| && n <= |b| && a[..n] == b[..n]
    ensures a[k] == b[k]
  {
    assert a[k] == a[..n][k] && b[k] == b[..n][k];
  }

  /** Sequences differing at `k` have no common prefix reaching past `k`. */
  lemma DifferenceSeparates(a: seq<int>, b: seq<int>, k: nat, n: nat)
    requires k < n <= |a| && n <= |b| && a[k] != b[k]
    ensures a[..n] != b[..n]
  {
    assert a[..n][k] != b[..n][k];
  }

  /** When `a` and `b` agree below `i` and `a[i] < b[i]`, `a` is not above `b`. */
  lemma BelowAtDifference(a: seq<int>, b: seq<int>, i: nat)
    requires i < |a| && i < |b| && a[..i] == b[..i] && a[i] < b[i]
    ensures !Above(a, b)
  {
    forall j | 0 <= j < |a| && j < |b|
      ensures !(a[..j] == b[..j] && a[j] > b[j])
    {
      if j < i {
        PrefixAgrees(a, b, j, i);
      } else if j > i {
        DifferenceSeparates(a, b, i, j);
      }
    }
    if |a| > |b| {
      DifferenceSeparates(a, b, i, |b|);
      assert b[..|b|] == b;
    }
  }

  /** When `a` and `b` agree on their common length, `a` is above `b` exactly
      when it is longer. */
  lemma AboveAtEnd(a: seq<int>, b: seq<int>, i: nat)
    requires i <= |a| && i <= |b| && (i == |a| || i == |b|) && a[..i] == b[..i]
    ensures Above(a, b) <==> |a| > |b|
  {
    forall j | 0 <= j < |a| && j < |b|
      ensures a[j] == b[j]
    {
      PrefixAgrees(a, b, j, i);
    }
    if |a| > |b| {
      assert a[..|b|] == a[..i] && b == b[..i];
    }
  }

  lemma {:induction false} NewerFromAbove(a: seq<int>, b: seq<int>, i: nat)
    requires i <= |a| && i <= |b| && a[..i] == b[..i]
    ensures NewerFrom(a, b, i) <==> Above(a, b)
    decreases |a| - i
  {
    if i == |a| || i == |b| {
      AboveAtEnd(a, b, i);
    } else if a[i] > b[i] {
      assert a[..i] == b[..i] && a[i] > b[i];
    } else if a[i] < b[i] {
      BelowAtDifference(a, b, i);
    } else {
      assert a[..i + 1] == a[..i] + [a[i]];
      assert b[..i + 1] == b[..i] + [b[i]];
      NewerFromAbove(a, b, i + 1);
    }
  }

  /** The firmware's comparison is the lexicographic order. */
  lemma IsNewerIsAbove(current: seq<int>, newer: seq<int>)
    ensures IsNewer(current, newer) <==> Above(newer, current)
  {
    NewerFromAbove(newer, current, 0);
  }

  /** No version is newer than itself. */
  lemma NotNewerThanItself(v: seq<int>)
    ensures !IsNewer(v, v)
  {
    IsNewerIsAbove(v, v);
    AboveAtEnd(v, v, |v|);
  }

  /** Of two different versions exactly one is newer than the other. */
  lemma NewerIsTotalAndAsymmetric(a: seq<int>, b: seq<int>)
    ensures IsNewer(a, b) ==> !IsNewer(b, a)
    ensures a != b ==> IsNewer(a, b) || IsNewer(b, a)
  {
    IsNewerIsAbove(a, b);
    IsNewerIsAbove(b, a);
    NewerFromAbove(a, b, 0);
    NewerFromAbove(b, a, 0);
    FirstPlaceDecides(a, b, 0);
  }

  /** From a common prefix on, one of the two comparisons holds unless the
      sequences are equal, and they do not both hold. */
  lemma {:induction false} FirstPlaceDecides(a: seq<int>, b: seq<int>, i: nat)
    requires i <= |a| && i <= |b| && a[..i] == b[..i]
    ensures !(NewerFrom(a, b, i) && NewerFrom(b, a, i))
    ensures a != b ==> NewerFrom(a, b, i) || NewerFrom(b, a, i)
    decreases |a| - i
  {
    if i == |a| || i == |b| {
      if |a| == |b| {
        assert a == a[..i] && b == b[..i];
      }
    } else if a[i] == b[i] {
      assert a[..i + 1] == a[..i] + [a[i]];
      assert b[..i + 1] == b[..i] + [b[i]];
      FirstPlaceDecides(a, b, i + 1);
    }
  }

  /** `IsNewVersionAvailable` on version text; None when a version does not
      parse (the firmware's `std::stoi` throws). */
  function IsNewVersionAvailable(currentVersion: string, newVersion: string): (r: Option<bool>)
    ensures r.Some? <==> ParseVersion(currentVersion).Some? && ParseVersion(newVersion).Some?
  {
    var current := ParseVersion(currentVersion);
    var newer := ParseVersion(newVersion);
    if current.Some? && newer.Some? then Some(IsNewer(current.value, newer.value)) else None
  }

  /** Examples from the firmware's comment: 0.1.0 is newer than 0.0.1, and a
      longer version with the same start is newer. */
  lemma NewVersionExamples()
    ensures IsNewer([0, 0, 1], [0, 1, 0])
    ensures !IsNewer([0, 1, 0], [0, 0, 1])
    ensures IsNewer([1, 2], [1, 2, 0])
  {
  }

  // ---------------------------------------------------------------------
  // The firmware section of the version-check reply.
  // ---------------------------------------------------------------------

  datatype Firmware = Firmware(version: string, url: string, hasNewVersion: bool)

  /** The firmware part of `CheckVersion`: the version and URL are kept when
      they are strings; an update is offered when both are strings and the
      version is newer than the running one, or `force` is 1. None when the
      comparison throws. */
  function CheckFirmware(fw: Firmware, currentVersion: string, root: Json): (r: Option<Firmware>)
    ensures !IsObject(GetObjectItem(Some(root), "firmware")) ==> r == Some(fw.(hasNewVersion := false))
  {
    var firmware := GetObjectItem(Some(root), "firmware");
    if !IsObject(firmware) then Some(fw.(hasNewVersion := false))
    else
      var version := GetObjectItem(firmware, "version");
      var url := GetObjectItem(firmware, "url");
      var kept := Firmware(if IsString(version) then version.value.s else fw.version,
                           if IsString(url) then url.value.s else fw.url, false);
      if !(IsString(version) && IsString(url)) then Some(kept)
      else
        var newer := IsNewVersionAvailable(currentVersion, kept.version);
        var force := GetObjectItem(firmware, "force");
        if newer.None? then None
        else Some(kept.(hasNewVersion := newer.value || (IsNumber(force) && ValueInt(force.value.n) == 1)))
  }

  /** An update is offered exactly when the section names a version and a URL,
      and the version is above the running one or the update is forced; the
      offered version and URL are the ones named. */
  lemma CheckFirmwareDecides(fw: Firmware, currentVersion: string, root: Json)
    requires CheckFirmware(fw, currentVersion, root).Some?
    ensures var firmware := GetObjectItem(Some(root), "firmware");
      var version := GetObjectItem(firmware, "version");
      var url := GetObjectItem(firmware, "url");
      var force := GetObjectItem(firmware, "force");
      var r := CheckFirmware(fw, currentVersion, root).value;
      && (r.hasNewVersion <==>
            IsString(version) && IsString(url) &&
            (Above(ParseVersion(version.value.s).value, ParseVersion(currentVersion).value)
             || (IsNumber(force) && ValueInt(force.value.n) == 1)))
      && (r.hasNewVersion ==> r.version == version.value.s && r.url == url.value.s)
  {
    var firmware := GetObjectItem(Some(root), "firmware");
    var version := GetObjectItem(firmware, "version");
    var url := GetObjectItem(firmware, "url");
    if IsString(version) && IsString(url) {
      IsNewerIsAbove(ParseVersion(currentVersion).value, ParseVersion(version.value.s).value);
    }
  }

  // ---------------------------------------------------------------------
  // Activation.
  // ---------------------------------------------------------------------

  /** The activation endpoint below the version-check URL. */
  function ActivationUrl(url: string): (r: string)
    requires url != []
    ensures StartsWith(r, url) && EndsWith(r, "/activate")
    ensures |r| == |url| + (if url[|url| - 1] == '/' then 8 else 9)
  {
    var r := if url[|url| - 1] != '/' then url + "/activate" else url + "activate";
    assert r[..|url|] == url;
    assert url[|url| - 1] == '/' ==> r[|r| - 9..] == [url[|url| - 1]] + "activate";
    r
  }

  datatype ActivationResult = Activated | ActivationTimeout | ActivationFailed

  /** `Activate`: without a challenge nothing is sent and activation fails;
      otherwise the payload is posted to the activation URL (`status` is the
      reply's status, None when the connection fails), 202 means "not yet",
      200 success and anything else failure. The result pairs the URL posted
      to, if any, with the outcome. */
  function Activate(hasChallenge: bool, checkUrl: string, status: Option<int>): (r: (Option<string>, ActivationResult))
    requires hasChallenge ==> checkUrl != []
    ensures !hasChallenge ==> r == (None, ActivationFailed)
    ensures hasChallenge ==> r.0 == Some(ActivationUrl(checkUrl))
    ensures r.1 == Activated <==> hasChallenge && status == Some(200)
    ensures r.1 == ActivationTimeout <==> hasChallenge && status == Some(202)
  {
    if !hasChallenge then (None, ActivationFailed)
    else
      var url := ActivationUrl(checkUrl);
      if status.None? then (Some(url), ActivationFailed)
      else if status.value == 202 then (Some(url), ActivationTimeout)
      else if status.value != 200 then (Some(url), ActivationFailed)
      else (Some(url), Activated)
  }

  // ---------------------------------------------------------------------
  // Upgrade attempts.
  // ---------------------------------------------------------------------

  /** `Upgrade`: the download is tried until it succeeds, at most three
      times. `outcomes[k]` is what attempt `k` would return. */
  method Upgrade(outcomes: seq<bool>) returns (ok: bool, attempts: nat)
    requires |outcomes| >= OTA_MAX_RETRIES
    ensures 1 <= attempts <= OTA_MAX_RETRIES
    ensures ok <==> exists k :: 0 <= k < OTA_MAX_RETRIES && outcomes[k]
    ensures ok ==> outcomes[attempts - 1]
    ensures forall k :: 0 <= k < attempts - 1 ==> !outcomes[k]
    ensures !ok ==> attempts == OTA_MAX_RETRIES
  {
    var retry := 0;
    while retry < OTA_MAX_RETRIES
      invariant retry <= OTA_MAX_RETRIES
      invariant forall k :: 0 <= k < retry ==> !outcomes[k]
    {
      if outcomes[retry] {
        return true, retry + 1;
      }
      retry := retry + 1;
    }
    return false, OTA_MAX_RETRIES;
  }

  // ---------------------------------------------------------------------
  // One download into the update partition.
  // ---------------------------------------------------------------------

  /** What one `Read` of the HTTP body gives: a failure, or bytes (none at the
      end of the body) together with whether writing them to flash succeeds. */
  datatype ReadResult = ReadFailed | Received(data: string, writeOk: bool)

  /** The download loop's state: every byte counted so far (`total_read` is
      its length), the buffered image header, whether the OTA write began,
      and the bytes written to the partition. */
  datatype Transfer = Transfer(received: string, header: string, begun: bool, written: string)

  const START: Transfer := Transfer([], [], false, [])

  /** The download loop over the reads. Bytes are buffered until the image
      header is complete; then the OTA write begins (`beginOk` says whether
      that succeeds). With `writeBuffered` false the loop writes only the
      read that completed the header, as the firmware does; with it true the
      whole buffer is written. A failed read, an empty read, a failed begin
      or a failed write ends the loop; the reads are taken to end the body
      after the last one. */
  function Download(bodyReads: seq<ReadResult>, beginOk: bool, writeBuffered: bool, t: Transfer): (r: Transfer)
    ensures StartsWith(r.received, t.received)
    decreases |bodyReads|
  {
    if bodyReads == [] || bodyReads[0].ReadFailed? || bodyReads[0].data == [] then t
    else
      var data := bodyReads[0].data;
      var header := if t.begun then t.header else t.header + data;
      var beginsNow := !t.begun && |header| >= IMAGE_HEADER_SIZE;
      if beginsNow && !beginOk then t
      else
        var begun := t.begun || beginsNow;
        var chunk := if beginsNow && writeBuffered then header else data;
        if begun && !bodyReads[0].writeOk then t
        else
          var next := Transfer(t.received + data, if beginsNow then [] else header, begun,
                               if begun then t.written + chunk else t.written);
          var r := Download(bodyReads[1..], beginOk, writeBuffered, next);
          assert StartsWith(next.received, t.received) by {
            assert next.received[..|t.received|] == t.received;
          }
          r
  }

  /** The loop as the firmware runs it. */
  function DownloadAsWritten(bodyReads: seq<ReadResult>, beginOk: bool): Transfer
  {
    Download(bodyReads, beginOk, false, START)
  }

  /** The loop writing the buffered header bytes when the OTA write begins. */
  function DownloadBuffered(bodyReads: seq<ReadResult>, beginOk: bool): Transfer
  {
    Download(bodyReads, beginOk, true, START)
  }

  /** Before the write begins every byte is in the header buffer; after, every
      byte counted is written, in order. */
  predicate Accounted(t: Transfer)
  {
    if t.begun then t.header == [] && t.written == t.received
    else t.written == [] && t.header == t.received
  }

  lemma {:induction false} DownloadBufferedAccounts(bodyReads: seq<ReadResult>, beginOk: bool, t: Transfer)
    requires Accounted(t)
    ensures Accounted(Download(bodyReads, beginOk, true, t))
    decreases |bodyReads|
  {
    if !(bodyReads == [] || bodyReads[0].ReadFailed? || bodyReads[0].data == []) {
      var data := bodyReads[0].data;
      var header := if t.begun then t.header else t.header + data;
      var beginsNow := !t.begun && |header| >= IMAGE_HEADER_SIZE;
      if !(beginsNow && !beginOk) {
        var begun := t.begun || beginsNow;
        var chunk := if beginsNow then header else data;
        if !(begun && !bodyReads[0].writeOk) {
          var next := Transfer(t.received + data, if beginsNow then [] else header, begun,
                               if begun then t.written + chunk else t.written);
          assert Accounted(next);
          DownloadBufferedAccounts(bodyReads[1..], beginOk, next);
        }
      }
    }
  }

  /** With the buffered write, once the write has begun the partition holds
      exactly the bytes downloaded. */
  lemma DownloadBufferedWritesEverything(bodyReads: seq<ReadResult>, beginOk: bool)
    ensures var t := DownloadBuffered(bodyReads, beginOk);
      t.begun ==> t.written == t.received
  {
    DownloadBufferedAccounts(bodyReads, beginOk, START);
  }

  /** The firmware loop's accounting: before the write begins every byte is
      in the header buffer; after, the partition holds the counted bytes
      less a lost prefix shorter than the image header (the reads before the
      one that completed the header). */
  predicate AccountedAsWritten(t: Transfer)
  {
    if t.begun then
      && t.header == []
      && |t.written| <= |t.received|
      && t.received[|t.received| - |t.written|..] == t.written
      && |t.received| - |t.written| < IMAGE_HEADER_SIZE
    else t.written == [] && t.header == t.received && |t.received| < IMAGE_HEADER_SIZE
  }

  lemma {:induction false} DownloadAsWrittenAccounts(bodyReads: seq<ReadResult>, beginOk: bool, t: Transfer)
    requires AccountedAsWritten(t)
    ensures AccountedAsWritten(Download(bodyReads, beginOk, false, t))
    decreases |bodyReads|
  {
    if !(bodyReads == [] || bodyReads[0].ReadFailed? || bodyReads[0].data == []) {
      var data := bodyReads[0].data;
      var header := if t.begun then t.header else t.header + data;
      var beginsNow := !t.begun && |header| >= IMAGE_HEADER_SIZE;
      if !(beginsNow && !beginOk) {
        var begun := t.begun || beginsNow;
        if !(begun && !bodyReads[0].writeOk) {
          var next := Transfer(t.received + data, if beginsNow then [] else header, begun,
                               if begun then t.written + data else t.written);
          assert Download(bodyReads, beginOk, false, t) == Download(bodyReads[1..], beginOk, false, next);
          if begun {
            SuffixGrows(t.received, t.written, data);
          }
          DownloadAsWrittenAccounts(bodyReads[1..], beginOk, next);
        }
      }
    }
  }

  lemma SuffixGrows(received: string, written: string, data: string)
    requires |written| <= |received| && received[|received| - |written|..] == written
    ensures (received + data)[|received + data| - |written + data|..] == written + data
  {
    assert (received + data)[|received + data| - |written + data|..] == received[|received| - |written|..] + data;
  }

  /** Once every counted byte is written, every later byte is written too. */
  lemma {:induction false} DownloadKeepsWhole(bodyReads: seq<ReadResult>, beginOk: bool, writeBuffered: bool, t: Transfer)
    requires t.begun && t.written == t.received
    ensures var r := Download(bodyReads, beginOk, writeBuffered, t); r.begun && r.written == r.received
    decreases |bodyReads|
  {
    if !(bodyReads == [] || bodyReads[0].ReadFailed? || bodyReads[0].data == [] || !bodyReads[0].writeOk) {
      var data := bodyReads[0].data;
      var next := Transfer(t.received + data, t.header, true, t.written + data);
      assert Download(bodyReads, beginOk, writeBuffered, t) == Download(bodyReads[1..], beginOk, writeBuffered, next);
      DownloadKeepsWhole(bodyReads[1..], beginOk, writeBuffered, next);
    }
  }

  /** What the firmware's loop writes: nothing before the write begins;
      after, the counted bytes less a prefix shorter than the image header,
      and every counted byte when the first read already holds the whole
      header. */
  lemma DownloadAsWrittenWrites(bodyReads: seq<ReadResult>, beginOk: bool)
    ensures var t := DownloadAsWritten(bodyReads, beginOk);
      && (!t.begun ==> t.written == [])
      && (t.begun ==> EndsWith(t.received, t.written) && |t.received| - |t.written| < IMAGE_HEADER_SIZE)
    ensures var t := DownloadAsWritten(bodyReads, beginOk);
      bodyReads != [] && bodyReads[0].Received? && |bodyReads[0].data| >= IMAGE_HEADER_SIZE && t.begun ==>
        t.written == t.received
  {
    DownloadAsWrittenAccounts(bodyReads, beginOk, START);
    if bodyReads != [] && bodyReads[0].Received? && |bodyReads[0].data| >= IMAGE_HEADER_SIZE
       && beginOk && bodyReads[0].writeOk {
      var data := bodyReads[0].data;
      assert [] + data == data;
      var next := Transfer(data, [], true, data);
      assert DownloadAsWritten(bodyReads, beginOk) == Download(bodyReads[1..], beginOk, false, next);
      DownloadKeepsWhole(bodyReads[1..], beginOk, false, next);
    }
  }

  /** What `PerformUpgrade` sees: the update partition's size (None when there
      is none), whether the connection opens, the status and the announced
      body length, whether the read buffer is allocated, the reads, and
      whether beginning, ending (image validation) and switching the boot
      partition succeed. */
  datatype UpgradeEnv = UpgradeEnv(
    partitionSize: Option<nat>, connects: bool, status: int, contentLength: nat,
    bufferOk: bool, bodyReads: seq<ReadResult>, beginOk: bool, endOk: bool, bootOk: bool)

  /** The acceptance checks of `PerformUpgrade` around a download loop. */
  function UpgradeChecks(env: UpgradeEnv, t: Transfer): (ok: bool)
    ensures ok ==> env.partitionSize.Some? && 0 < env.contentLength <= env.partitionSize.value
    ensures ok ==> env.bufferOk
    ensures ok ==> |t.received| == env.contentLength && t.begun
  {
    && env.partitionSize.Some?
    && env.connects
    && env.status == 200
    && env.contentLength != 0
    && env.contentLength <= env.partitionSize.value
    && env.bufferOk
    && |t.received| == env.contentLength
    && t.begun
    && env.endOk
    && env.bootOk
  }

  /** `PerformUpgrade` as the firmware runs it. */
  function PerformUpgradeAsWritten(env: UpgradeEnv): bool
  {
    UpgradeChecks(env, DownloadAsWritten(env.bodyReads, env.beginOk))
  }

  /** `PerformUpgrade` with the corrected, buffered download loop. */
  function PerformUpgrade(env: UpgradeEnv): bool
  {
    UpgradeChecks(env, DownloadBuffered(env.bodyReads, env.beginOk))
  }

  /** With the corrected loop, an accepted upgrade wrote the whole announced
      image to the partition, which is large enough for it. */
  lemma UpgradeWritesImage(env: UpgradeEnv)
    requires PerformUpgrade(env)
    ensures var t := DownloadBuffered(env.bodyReads, env.beginOk);
      t.written == t.received && |t.written| == env.contentLength
      && 0 < env.contentLength <= env.partitionSize.value
  {
    DownloadBufferedWritesEverything(env.bodyReads, env.beginOk);
  }

  /** What an upgrade the firmware accepts wrote: the announced length was
      counted and fits the partition, and the partition holds the image less
      a prefix shorter than the image header; the whole image when the first
      read brought the whole header. */
  lemma UpgradeAsWrittenWrites(env: UpgradeEnv)
    requires PerformUpgradeAsWritten(env)
    ensures var t := DownloadAsWritten(env.bodyReads, env.beginOk);
      && |t.received| == env.contentLength && 0 < env.contentLength <= env.partitionSize.value
      && EndsWith(t.received, t.written) && |t.received| - |t.written| < IMAGE_HEADER_SIZE
    ensures var t := DownloadAsWritten(env.bodyReads, env.beginOk);
      env.bodyReads != [] && env.bodyReads[0].Received? && |env.bodyReads[0].data| >= IMAGE_HEADER_SIZE ==>
        t.written == t.received
  {
    DownloadAsWrittenWrites(env.bodyReads, env.beginOk);
  }

  /** A download rejected by any acceptance check fails. */
  lemma UpgradeRejects(env: UpgradeEnv)
    ensures env.contentLength == 0 ==> !PerformUpgrade(env)
    ensures env.partitionSize.Some? && env.contentLength > env.partitionSize.value ==> !PerformUpgrade(env)
    ensures !env.bufferOk ==> !PerformUpgrade(env) && !PerformUpgradeAsWritten(env)
    ensures |DownloadBuffered(env.bodyReads, env.beginOk).received| != env.contentLength ==> !PerformUpgrade(env)
    ensures !DownloadBuffered(env.bodyReads, env.beginOk).begun ==> !PerformUpgrade(env)
  {
  }

  /** The firmware's loop writes only the read that completes the image
      header: when the first read brings 100 bytes and the second 200, all
      300 bytes are counted and the loop's own checks pass (the flash calls'
      results are inputs here), but the partition holds only the last 200,
      so its first byte is not the image's first byte. */
  lemma DownloadAsWrittenLosesFirstRead()
    ensures var bodyReads := [Received(seq(100, _ => 'a'), true), Received(seq(200, _ => 'b'), true)];
      var env := UpgradeEnv(Some(1000), true, 200, 300, true, bodyReads, true, true, true);
      var t := DownloadAsWritten(bodyReads, true);
      && PerformUpgradeAsWritten(env)
      && |t.received| == 300 && t.written == seq(200, _ => 'b')
      && t.written[0] != t.received[0]
  {
    var a := seq(100, _ => 'a');
    var b := seq(200, _ => 'b');
    var bodyReads := [Received(a, true), Received(b, true)];
    assert [] + a == a;
    var t1 := Transfer(a, a, false, []);
    assert Download(bodyReads, true, false, START) == Download(bodyReads[1..], true, false, t1);
    assert |a + b| == 300 >= IMAGE_HEADER_SIZE;
    assert [] + b == b;
    var t2 := Transfer(a + b, [], true, b);
    assert Download(bodyReads[1..], true, false, t1) == Download([], true, false, t2);
  }
}

=== FILE: p3.dfy ===
/** The P3 audio container of the playback scripts: a file is a run of
    packets `[type u8][reserved u8][length u16 big-endian][payload]`, each
    payload one Opus frame of 60 ms at 16 kHz. Reading stops at a short
    header, at a declared length of zero, and at a payload shorter than
    declared. The player reads the same framing, between checks of its stop
    and pause events. Opus decoding and audio output are not modelled. */
module P3 {
  import opened Common

  type Byte = x: int | 0 <= x < 256

  const HEADER_SIZE: nat := 4
  const MAX_PAYLOAD: nat := 0xFFFF
  const SAMPLE_RATE: nat := 16000
  /** Samples per decoded frame: 60 ms at 16 kHz, that is 960. */
  const FRAME_SIZE: nat := SAMPLE_RATE * 60 / 1000

  datatype Packet = Packet(kind: Byte, reserved: Byte, payload: seq<Byte>)

  /** A packet a file can hold and a reader returns: a payload of 1 to 65535 bytes. */
  predicate ValidPacket(p: Packet)
  {
    0 < |p.payload| <= MAX_PAYLOAD
  }

  predicate AllValid(ps: seq<Packet>)
  {
    forall i :: 0 <= i < |ps| ==> ValidPacket(ps[i])
  }

  /** The 16-bit big-endian length in header bytes 2 and 3. */
  function DeclaredLength(file: seq<Byte>): (n: nat)
    requires |file| >= HEADER_SIZE
    ensures n <= MAX_PAYLOAD
  {
    (file[2] as int) * 256 + file[3] as int
  }

  /** One pass of the reading loop: the packet at the start of `file` and the
      bytes after it, or None where reading stops. */
  function NextPacket(file: seq<Byte>): (r: Option<(Packet, seq<Byte>)>)
    ensures r.Some? ==> ValidPacket(r.value.0)
    ensures r.Some? ==> file == EncodePacket(r.value.0) + r.value.1
  {
    if |file| < HEADER_SIZE then None
    else
      var n := DeclaredLength(file);
      if n == 0 || |file| - HEADER_SIZE < n then None
      else
        var p := Packet(file[0], file[1], file[HEADER_SIZE..HEADER_SIZE + n]);
        assert file == EncodePacket(p) + file[HEADER_SIZE + n..] by {
          assert file[..HEADER_SIZE] == [file[0], file[1], n / 256, n % 256];
          assert file == file[..HEADER_SIZE] + file[HEADER_SIZE..HEADER_SIZE + n] + file[HEADER_SIZE + n..];
        }
        Some((p, file[HEADER_SIZE + n..]))
  }

  /** `play_p3_file`: the packets of a file, in file order. */
  function Parse(file: seq<Byte>): (ps: seq<Packet>)
    ensures AllValid(ps)
    decreases |file|
  {
    var next := NextPacket(file);
    if next.None? then [] else [next.value.0] + Parse(next.value.1)
  }

  /** A packet as it is stored. */
  function EncodePacket(p: Packet): (bytes: seq<Byte>)
    requires ValidPacket(p)
    ensures |bytes| == HEADER_SIZE + |p.payload|
  {
    var n := |p.payload|;
    [p.kind, p.reserved, n / 256, n % 256] + p.payload
  }

  /** Packets stored one after the other. */
  function Encode(ps: seq<Packet>): seq<Byte>
    requires AllValid(ps)
  {
    if ps == [] then [] else EncodePacket(ps[0]) + Encode(ps[1..])
  }

  /** A stored packet is read back whole, and reading goes on after it. */
  lemma ReadEncodedPacket(p: Packet, rest: seq<Byte>)
    requires ValidPacket(p)
    ensures NextPacket(EncodePacket(p) + rest) == Some((p, rest))
  {
    var file := EncodePacket(p) + rest;
    var n := |p.payload|;
    assert DeclaredLength(file) == n;
    assert file[HEADER_SIZE..HEADER_SIZE + n] == p.payload;
    assert file[HEADER_SIZE + n..] == rest;
  }

  lemma ParseStep(p: Packet, rest: seq<Byte>)
    requires ValidPacket(p)
    ensures Parse(EncodePacket(p) + rest) == [p] + Parse(rest)
  {
    ReadEncodedPacket(p, rest);
  }

  lemma ConsAppend<T>(x: T, a: seq<T>, b: seq<T>)
    ensures [x] + (a + b) == ([x] + a) + b
  {
  }

  /** Reading stored packets followed by other bytes gives the packets, then
      whatever those bytes give. */
  lemma {:induction false} ParseEncode(ps: seq<Packet>, tail: seq<Byte>)
    requires AllValid(ps)
    ensures Parse(Encode(ps) + tail) == ps + Parse(tail)
    decreases |ps|
  {
    if ps == [] {
      assert Encode(ps) + tail == tail;
    } else {
      var after := Encode(ps[1..]) + tail;
      calc {
        Parse(Encode(ps) + tail);
        == { assert Encode(ps) + tail == EncodePacket(ps[0]) + after; }
        Parse(EncodePacket(ps[0]) + after);
        == { ParseStep(ps[0], after); }
        [ps[0]] + Parse(after);
        == { ParseEncode(ps[1..], tail); }
        [ps[0]] + (ps[1..] + Parse(tail));
        == { ConsAppend(ps[0], ps[1..], Parse(tail)); assert [ps[0]] + ps[1..] == ps; }
        ps + Parse(tail);
      }
    }
  }

  /** Storing packets and reading them back gives the same packets in order. */
  lemma ParseEncodeRoundTrip(ps: seq<Packet>)
    requires AllValid(ps)
    ensures Parse(Encode(ps)) == ps
  {
    ParseEncode(ps, []);
    assert Encode(ps) + [] == Encode(ps);
  }

  /** Every file is its packets followed by the bytes where reading stopped. */
  lemma {:induction false} EncodeParse(file: seq<Byte>)
    ensures exists rest :: file == Encode(Parse(file)) + rest && NextPacket(rest).None?
    decreases |file|
  {
    var next := NextPacket(file);
    if next.None? {
      assert file == Encode([]) + file;
    } else {
      var p := next.value.0;
      var after := next.value.1;
      EncodeParse(after);
      var rest :| after == Encode(Parse(after)) + rest && NextPacket(rest).None?;
      var ps := Parse(file);
      assert ps[1..] == Parse(after);
      assert file == Encode(ps) + rest;
    }
  }

  /** Fewer than four bytes left end reading without a packet. */
  lemma ShortHeaderEnds(ps: seq<Packet>, tail: seq<Byte>)
    requires AllValid(ps) && |tail| < HEADER_SIZE
    ensures Parse(Encode(ps) + tail) == ps
  {
    ParseEncode(ps, tail);
  }

  /** A payload shorter than its declared length is dropped and ends reading. */
  lemma TruncatedPayloadDropped(ps: seq<Packet>, p: Packet, k: nat)
    requires AllValid(ps) && ValidPacket(p) && k < |p.payload|
    ensures Parse(Encode(ps) + (EncodePacket(p)[..HEADER_SIZE + k])) == ps
  {
    var tail := EncodePacket(p)[..HEADER_SIZE + k];
    assert DeclaredLength(tail) == |p.payload|;
    ParseEncode(ps, tail);
  }

  /** A declared length of zero ends reading, whatever follows. */
  lemma ZeroLengthEnds(ps: seq<Packet>, kind: Byte, reserved: Byte, rest: seq<Byte>)
    requires AllValid(ps)
    ensures Parse(Encode(ps) + ([kind, reserved, 0, 0] + rest)) == ps
  {
    var tail := [kind, reserved, 0, 0] + rest;
    assert DeclaredLength(tail) == 0;
    ParseEncode(ps, tail);
  }

  // ---------------------------------------------------------------------
  // The player's reading loop.
  // ---------------------------------------------------------------------

  /** What one pass of the player's loop sees: whether the stop event and
      the pause event are set. */
  datatype Control = Control(stop: bool, pause: bool)

  /** The player's `play_p3_file`: each pass first checks the stop event
      (which ends playback), then the pause event (which skips the pass),
      then reads a packet. `controls` lists what the passes see; playback
      ends when they run out. */
  function PlayPackets(file: seq<Byte>, controls: seq<Control>): seq<Packet>
    decreases |controls|
  {
    if controls == [] || controls[0].stop then []
    else if controls[0].pause then PlayPackets(file, controls[1..])
    else
      var next := NextPacket(file);
      if next.None? then [] else [next.value.0] + PlayPackets(next.value.1, controls[1..])
  }

  /** The player plays a prefix of the packets the plain reader finds. */
  lemma {:induction false} PlayedArePrefix(file: seq<Byte>, controls: seq<Control>)
    ensures PlayPackets(file, controls) <= Parse(file)
    decreases |controls|
  {
    if !(controls == [] || controls[0].stop) {
      if controls[0].pause {
        PlayedArePrefix(file, controls[1..]);
      } else {
        var next := NextPacket(file);
        if next.Some? {
          PlayedArePrefix(next.value.1, controls[1..]);
        }
      }
    }
  }

  /** Passes that see neither event. */
  predicate Uninterrupted(controls: seq<Control>)
  {
    forall i :: 0 <= i < |controls| ==> controls[i] == Control(false, false)
  }

  /** Without stop or pause, and with a pass for every packet and one more,
      the player reads exactly what the plain reader reads. */
  lemma {:induction false} UninterruptedPlayParses(file: seq<Byte>, controls: seq<Control>)
    requires Uninterrupted(controls) && |controls| > |Parse(file)|
    ensures PlayPackets(file, controls) == Parse(file)
    decreases |controls|
  {
    assert controls[0] == Control(false, false);
    var next := NextPacket(file);
    if next.Some? {
      assert forall i :: 0 <= i < |controls[1..]| ==> controls[1..][i] == controls[i + 1];
      UninterruptedPlayParses(next.value.1, controls[1..]);
    }
  }

  /** The passes with the pause event set and the stop event clear, taken out. */
  function Unpaused(controls: seq<Control>): (r: seq<Control>)
    ensures forall i :: 0 <= i < |r| ==> r[i].stop || !r[i].pause
    ensures |r| <= |controls|
  {
    if controls == [] then []
    else if !controls[0].stop && controls[0].pause then Unpaused(controls[1..])
    else [controls[0]] + Unpaused(controls[1..])
  }

  /** While paused no packet is read: pausing delays playback but changes
      nothing about what is played. */
  lemma {:induction false} PauseReadsNothing(file: seq<Byte>, controls: seq<Control>)
    ensures PlayPackets(file, controls) == PlayPackets(file, Unpaused(controls))
    decreases |controls|
  {
    if controls != [] {
      if !controls[0].stop && controls[0].pause {
        PauseReadsNothing(file, controls[1..]);
      } else if !controls[0].stop {
        var next := NextPacket(file);
        if next.Some? {
          PauseReadsNothing(next.value.1, controls[1..]);
        }
      }
    }
  }

  /** A set stop event ends playback before the next header is read: the
      passes after it play nothing. */
  lemma {:induction false} StopEndsPlay(file: seq<Byte>, controls: seq<Control>, k: nat)
    requires k < |controls| && controls[k].stop
    ensures PlayPackets(file, controls) == PlayPackets(file, controls[..k])
    decreases k
  {
    if k > 0 && !controls[0].stop {
      assert controls[..k][1..] == controls[1..][..k - 1];
      if controls[0].pause {
        StopEndsPlay(file, controls[1..], k - 1);
      } else {
        var next := NextPacket(file);
        if next.Some? {
          StopEndsPlay(next.value.1, controls[1..], k - 1);
        }
      }
    }
  }
}

=== FILE: p3_player.dfy ===
/** The state of the P3 player window: a playlist, the index of the file
    being played, the playing and paused flags, and the stop and pause
    events shared with the playback thread. The buttons are transition
    functions; the playback thread is the order in which it plays files.
    Widgets, dialogs and audio are not modelled. */
module P3Player {
  import opened Common

  datatype Player = Player(
    playlist: seq<string>, current: nat,
    playing: bool, paused: bool,
    stopEvent: bool, pauseEvent: bool)

  /** The window as it opens. */
  const INITIAL: Player := Player([], 0, false, false, false, false)

  /** The flags and events agree: only a playing player is paused, and the
      pause event is set exactly while paused. */
  predicate Consistent(p: Player)
  {
    (p.paused ==> p.playing) && p.pauseEvent == p.paused
  }

  /** The Play button; `selection` is the selected playlist entry, if any. */
  function Play(p: Player, selection: Option<nat>): Player
  {
    if p.playlist == [] then p
    else if p.paused then p.(paused := false, pauseEvent := false)
    else if p.playing then p
    else p.(playing := true, stopEvent := false, pauseEvent := false,
            current := if selection.Some? then selection.value else 0)
  }

  /** The Pause button: toggles pausing while playing. */
  function Pause(p: Player): Player
  {
    if p.playing then p.(paused := !p.paused, pauseEvent := !p.paused) else p
  }

  /** The Stop button. */
  function Stop(p: Player): Player
  {
    if p.playing || p.paused then p.(playing := false, paused := false, stopEvent := true, pauseEvent := false)
    else p
  }

  /** The end of the playback thread. */
  function Finished(p: Player): Player
  {
    p.(playing := false, paused := false)
  }

  /** Play, Pause and Stop keep the flags and events consistent. */
  lemma ButtonsKeepConsistent(p: Player, selection: Option<nat>)
    requires Consistent(p)
    ensures Consistent(Play(p, selection))
    ensures Consistent(Pause(p))
    ensures Consistent(Stop(p))
    ensures !p.pauseEvent ==> Consistent(Finished(p))
  {
  }

  /** Play on an empty playlist changes nothing; while playing it changes
      nothing; while paused it only resumes. */
  lemma PlayCases(p: Player, selection: Option<nat>)
    requires Consistent(p)
    ensures p.playlist == [] ==> Play(p, selection) == p
    ensures p.playlist != [] && p.playing && !p.paused ==> Play(p, selection) == p
    ensures p.playlist != [] && p.paused ==>
      var r := Play(p, selection);
      r.playing && !r.paused && !r.pauseEvent && r.current == p.current && r.stopEvent == p.stopEvent
    ensures p.playlist != [] && !p.playing ==>
      var r := Play(p, selection);
      r.playing && !r.paused && !r.stopEvent && !r.pauseEvent
  {
  }

  /** Pausing twice while playing restores the player. */
  lemma PauseTwice(p: Player)
    requires Consistent(p) && p.playing
    ensures Pause(p).paused != p.paused
    ensures Pause(Pause(p)) == p
  {
  }

  /** Stop leaves the player neither playing nor paused; a second Stop
      changes nothing. */
  lemma StopSettles(p: Player)
    requires Consistent(p)
    ensures !Stop(p).playing && !Stop(p).paused && !Stop(p).pauseEvent
    ensures p.playing || p.paused ==> Stop(p).stopEvent
    ensures Stop(Stop(p)) == Stop(p)
  {
  }

  // ---------------------------------------------------------------------
  // The playback thread.
  // ---------------------------------------------------------------------

  /** What the thread sees around one file: the stop event before it
      starts the file and after the file ends. Pausing only delays the
      thread and is not a step here. */
  datatype Round = Round(stopBefore: bool, stopAfter: bool)

  /** `play_audio`: the indices of the files played, in order, from index
      `index` of a playlist of `n` files. Past the end the index wraps to 0
      with loop playback on; without it one file is played. Rounds running
      out end the model's run. */
  function PlayOrder(n: nat, index: nat, loop: bool, rounds: seq<Round>): (played: seq<nat>)
    requires n > 0
    ensures forall k :: 0 <= k < |played| ==> played[k] < n
    ensures |played| <= |rounds|
    decreases |rounds|
  {
    if rounds == [] || rounds[0].stopBefore then []
    else if index >= n && !loop then []
    else
      var i := if index >= n then 0 else index;
      if rounds[0].stopAfter || !loop then [i]
      else [i] + PlayOrder(n, NextIndex(i, n), loop, rounds[1..])
  }

  /** Without loop playback at most one file is played: the started one. */
  lemma OneFileWithoutLoop(n: nat, index: nat, rounds: seq<Round>)
    requires n > 0
    ensures |PlayOrder(n, index, false, rounds)| <= 1
    ensures index < n && rounds != [] && !rounds[0].stopBefore ==> PlayOrder(n, index, false, rounds) == [index]
  {
  }

  /** The index after `i` in a playlist of `n` files, wrapping to the first. */
  function NextIndex(i: nat, n: nat): (r: nat)
    requires i < n
    ensures r == (i + 1) % n
  {
    if i + 1 == n then 0 else i + 1
  }

  /** Each index is followed by the next one, and the last by the first. */
  predicate Successive(played: seq<nat>, n: nat)
  {
    forall k :: 0 <= k < |played| - 1 ==> played[k] < n && played[k + 1] == NextIndex(played[k], n)
  }

  /** With loop playback each file is followed by the next one, and the last
      by the first. */
  lemma {:induction false} LoopWraps(n: nat, index: nat, rounds: seq<Round>)
    requires n > 0
    ensures Successive(PlayOrder(n, index, true, rounds), n)
    decreases |rounds|
  {
    var played := PlayOrder(n, index, true, rounds);
    if |played| > 1 {
      var i := if index >= n then 0 else index;
      var next := NextIndex(i, n);
      var rest := PlayOrder(n, next, true, rounds[1..]);
      assert played == [i] + rest;
      LoopWraps(n, next, rounds[1..]);
      assert rest[0] == next;
      forall k | 0 <= k < |played| - 1
        ensures played[k] < n && played[k + 1] == NextIndex(played[k], n)
      {
        if k > 0 {
          assert played[k] == rest[k - 1] && played[k + 1] == rest[k];
          assert Successive(rest, n);
          assert rest[(k - 1) + 1] == NextIndex(rest[k - 1], n);
        } else {
          assert played[0] == i && played[1] == rest[0];
        }
      }
    }
  }

  /** With loop playback and no stop, a file is played in every round. */
  lemma {:induction false} LoopPlaysEveryRound(n: nat, index: nat, rounds: seq<Round>)
    requires n > 0
    requires forall k :: 0 <= k < |rounds| ==> rounds[k] == Round(false, false)
    ensures |PlayOrder(n, index, true, rounds)| == |rounds|
    decreases |rounds|
  {
    if rounds != [] {
      var i := if index >= n then 0 else index;
      assert forall k :: 0 <= k < |rounds[1..]| ==> rounds[1..][k] == rounds[k + 1];
      LoopPlaysEveryRound(n, NextIndex(i, n), rounds[1..]);
    }
  }

  // ---------------------------------------------------------------------
  // Removing files.
  // ---------------------------------------------------------------------

  /** Selected indices as the list box reports them: ascending, distinct and
      inside the playlist. */
  predicate ValidSelection(selected: seq<nat>, size: nat)
  {
    forall j, k :: 0 <= j < k < |selected| ==> selected[j] < selected[k] < size
  }

  function Pop(list: seq<string>, i: nat): (r: seq<string>)
    requires i < |list|
    ensures |r| == |list| - 1
  {
    list[..i] + list[i + 1..]
  }

  /** The removal loop: the selected entries are popped, the last first. */
  function PopAll(list: seq<string>, selected: seq<nat>): seq<string>
    requires ValidSelection(selected, |list|) && (selected != [] ==> selected[|selected| - 1] < |list|)
    decreases |selected|
  {
    if selected == [] then list
    else
      var m := selected[|selected| - 1];
      PopAll(Pop(list, m), selected[..|selected| - 1])
  }

  /** `remove_files`: with nothing selected the playlist is unchanged. */
  function RemoveFiles(p: Player, selected: seq<nat>): Player
    requires ValidSelection(selected, |p.playlist|) && (selected != [] ==> selected[|selected| - 1] < |p.playlist|)
  {
    if selected == [] then p else p.(playlist := PopAll(p.playlist, selected))
  }

  /** The entries from position `i` on whose positions are not in `s`, in order. */
  function KeepFrom(list: seq<string>, s: set<nat>, i: nat): seq<string>
    requires i <= |list|
    decreases |list| - i
  {
    if i == |list| then [] else (if i in s then [] else [list[i]]) + KeepFrom(list, s, i + 1)
  }

  lemma {:induction false} KeepFromUnselected(list: seq<string>, s: set<nat>, i: nat)
    requires i <= |list|
    requires forall x :: x in s ==> x < i
    ensures KeepFrom(list, s, i) == list[i..]
    decreases |list| - i
  {
    if i < |list| {
      KeepFromUnselected(list, s, i + 1);
      assert list[i..] == [list[i]] + list[i + 1..];
    }
  }

  /** Popping entry `m` when every other selected position is below it. */
  lemma {:induction false} KeepFromPop(list: seq<string>, s: set<nat>, m: nat, i: nat)
    requires m < |list| && i <= m
    requires forall x :: x in s ==> x < m
    ensures KeepFrom(Pop(list, m), s, i) == KeepFrom(list, s + {m}, i)
    decreases m - i
  {
    var popped := Pop(list, m);
    if i == m {
      KeepFromUnselected(popped, s, m);
      KeepFromUnselected(list, s + {m}, m + 1);
      assert popped[m..] == list[m + 1..];
    } else {
      KeepFromPop(list, s, m, i + 1);
      assert popped[i] == list[i];
    }
  }

  /** The removal loop deletes exactly the selected entries and keeps the
      others in their order. */
  lemma {:induction false} PopAllKeepsRest(list: seq<string>, selected: seq<nat>)
    requires ValidSelection(selected, |list|) && (selected != [] ==> selected[|selected| - 1] < |list|)
    ensures PopAll(list, selected) == KeepFrom(list, set k | 0 <= k < |selected| :: selected[k], 0)
    decreases |selected|
  {
    var all := set k | 0 <= k < |selected| :: selected[k];
    if selected == [] {
      assert all == {};
      KeepFromUnselected(list, all, 0);
    } else {
      var m := selected[|selected| - 1];
      var front := selected[..|selected| - 1];
      var rest := set k | 0 <= k < |front| :: front[k];
      forall x | x in rest
        ensures x < m
      {
        var k :| 0 <= k < |front| && front[k] == x;
        assert front[k] == selected[k];
      }
      assert all == rest + {m} by {
        forall x | x in all
          ensures x in rest + {m}
        {
          var k :| 0 <= k < |selected| && selected[k] == x;
          if k < |front| {
            assert front[k] == x;
          }
        }
      }
      PopAllKeepsRest(Pop(list, m), front);
      KeepFromPop(list, rest, m, 0);
    }
  }

  /** Removing selected entries shortens the playlist by their number. */
  lemma {:induction false} PopAllLength(list: seq<string>, selected: seq<nat>)
    requires ValidSelection(selected, |list|) && (selected != [] ==> selected[|selected| - 1] < |list|)
    ensures |PopAll(list, selected)| == |list| - |selected|
    decreases |selected|
  {
    if selected != [] {
      PopAllLength(Pop(list, selected[|selected| - 1]), selected[..|selected| - 1]);
    }
  }
}

=== FILE: santa.dfy ===
/** The HeySanta board: its rejection-sampling random numbers, the scenes
    its control web page triggers (an emotion on the display and a run of
    the two motors that checks a shared stop flag every 100 ms), the start
    and stop of that web server, and the wake button that toggles it.
    Motor duty arithmetic, delays, the HTTP server and the display are not
    modelled; the stop flag, set by the stop handler, is an input: the value
    each check sees. */
module Santa {
  import opened Common

  // ---------------------------------------------------------------------
  // Random numbers.
  // ---------------------------------------------------------------------

  type Uint32 = x: int | 0 <= x < UINT32_MODULUS

  const UINT32_MAX: nat := 0xFFFF_FFFF

  /** The draws at or above this bound are rejected: the largest multiple of
      `range` not above `UINT32_MAX`. */
  function RejectionBound(range: nat): (bound: nat)
    requires range > 0
    ensures bound <= UINT32_MAX
    ensures bound == (UINT32_MAX / range) * range
  {
    UINT32_MAX - UINT32_MAX % range
  }

  /** The `uint32_t` range of `unbiasedRandomRange`: `max - min + 1`. */
  function RangeOf(min: int, max: int): nat
  {
    ToUint32(max - min + 1)
  }

  /** An `int32_t` stored into `uint32_t` and read back. */
  lemma Int32RoundTrip(v: int)
    requires INT32_MIN <= v <= INT32_MAX
    ensures ToInt32(ToUint32(v)) == v
  {
    if v < 0 {
      assert ToUint32(v) == v + UINT32_MODULUS;
    }
  }

  /** `unbiasedRandomRange(min, max)` over the values `draws` that
      `esp_random` returns: the first draw below the bound is reduced
      modulo the range and added to `min` in `uint32_t`. Draws running out
      give None. */
  method UnbiasedRandomRange(min: int, max: int, draws: seq<Uint32>) returns (result: Option<Uint32>, used: nat)
    requires INT32_MIN <= min <= INT32_MAX && INT32_MIN <= max <= INT32_MAX
    requires INT32_MIN <= max - min + 1 <= INT32_MAX
    requires RangeOf(min, max) != 0
    ensures used <= |draws|
    ensures forall k :: 0 <= k < used - 1 ==> draws[k] >= RejectionBound(RangeOf(min, max))
    ensures result.None? ==> used == |draws| && forall k :: 0 <= k < |draws| ==> draws[k] >= RejectionBound(RangeOf(min, max))
    ensures result.Some? ==>
      && 0 < used
      && draws[used - 1] < RejectionBound(RangeOf(min, max))
      && result.value == ToUint32(min + draws[used - 1] % RangeOf(min, max))
    ensures result.Some? && min <= max ==> min <= ToInt32(result.value) <= max
    ensures result.Some? && 0 <= min <= max ==> min <= result.value <= max
  {
    var range := RangeOf(min, max);
    var bound := RejectionBound(range);
    used := 0;
    while used < |draws|
      invariant used <= |draws|
      invariant forall k :: 0 <= k < used ==> draws[k] >= bound
    {
      var r := draws[used];
      used := used + 1;
      if r < bound {
        var v := min + r % range;
        assert min <= max ==> range == max - min + 1 && min <= v <= max;
        if min <= max {
          Int32RoundTrip(v);
        }
        result := Some(ToUint32(v));
        return;
      }
    }
    result := None;
  }

  /** `unbiasedRandom3`: the same sampling for the range 3, whose bound is
      `UINT32_MAX` itself. */
  method UnbiasedRandom3(draws: seq<Uint32>) returns (result: Option<Uint32>, used: nat)
    ensures used <= |draws|
    ensures result.None? ==> used == |draws| && forall k :: 0 <= k < |draws| ==> draws[k] == UINT32_MAX
    ensures result.Some? ==>
      && 0 < used && draws[used - 1] < UINT32_MAX
      && (forall k :: 0 <= k < used - 1 ==> draws[k] == UINT32_MAX)
      && result.value == draws[used - 1] % 3
      && result.value < 3
  {
    assert RejectionBound(3) == UINT32_MAX;
    used := 0;
    while used < |draws|
      invariant used <= |draws|
      invariant forall k :: 0 <= k < used ==> draws[k] == UINT32_MAX
    {
      var r := draws[used];
      used := used + 1;
      if r < UINT32_MAX {
        result := Some(r % 3);
        return;
      }
    }
    result := None;
  }

  /** How many of the numbers in `[lo, hi)` leave the remainder `k` modulo `range`. */
  function CountResidue(lo: nat, hi: nat, range: nat, k: nat): nat
    requires range > 0 && lo <= hi
    decreases hi - lo
  {
    if lo == hi then 0 else CountResidue(lo, hi - 1, range, k) + (if (hi - 1) % range == k then 1 else 0)
  }

  lemma ModInBlock(q: nat, range: nat, j: nat)
    requires j < range
    ensures (q * range + j) % range == j
  {
    var x := q * range + j;
    var k := x / range;
    var m := x % range;
    assert (q - k) * range == m - j;
    if q - k >= 1 {
      MulAtLeast(q - k, range);
    } else if q - k <= -1 {
      MulAtMost(q - k, range);
    }
  }

  lemma MulAtLeast(t: int, r: nat)
    requires t >= 1
    ensures t * r >= r
  {
    assert t * r == (t - 1) * r + r;
    assert (t - 1) * r >= 0;
  }

  lemma MulAtMost(t: int, r: nat)
    requires t <= -1
    ensures t * r + r <= 0
  {
    assert t * r == (t + 1) * r - r;
    assert (t + 1) * r <= 0;
  }

  /** In a block of `range` consecutive numbers from a multiple of `range`,
      each remainder below `j` occurs once among its first `j` numbers. */
  lemma {:induction false} CountInBlock(q: nat, range: nat, k: nat, j: nat)
    requires 0 < range && k < range && j <= range
    ensures CountResidue(q * range, q * range + j, range, k) == if k < j then 1 else 0
    decreases j
  {
    if j > 0 {
      CountInBlock(q, range, k, j - 1);
      ModInBlock(q, range, j - 1);
    }
  }

  lemma {:induction false} CountSplit(lo: nat, mid: nat, hi: nat, range: nat, k: nat)
    requires range > 0 && lo <= mid <= hi
    ensures CountResidue(lo, hi, range, k) == CountResidue(lo, mid, range, k) + CountResidue(mid, hi, range, k)
    decreases hi - mid
  {
    if hi > mid {
      CountSplit(lo, mid, hi - 1, range, k);
    }
  }

  /** Below `q * range` every remainder occurs exactly `q` times. */
  lemma {:induction false} CountMultiple(q: nat, range: nat, k: nat)
    requires 0 < range && k < range
    ensures CountResidue(0, q * range, range, k) == q
    decreases q
  {
    if q > 0 {
      var p := q - 1;
      assert q * range == p * range + range;
      CountMultiple(p, range, k);
      CountSplit(0, p * range, p * range + range, range, k);
      CountInBlock(p, range, k, range);
    }
  }

  /** The accepted draws give every result the same number of times: the
      sampling is uniform. */
  lemma AcceptedUniform(range: nat, k: nat)
    requires 0 < range && k < range
    ensures CountResidue(0, RejectionBound(range), range, k) == UINT32_MAX / range
  {
    CountMultiple(UINT32_MAX / range, range, k);
  }

  /** For the range 3 nothing but `UINT32_MAX` is rejected and each of 0, 1
      and 2 comes from 1431655765 draws. */
  lemma Random3Uniform(k: nat)
    requires k < 3
    ensures RejectionBound(3) == UINT32_MAX
    ensures CountResidue(0, UINT32_MAX, 3, k) == 1431655765
  {
    AcceptedUniform(3, k);
  }

  // ---------------------------------------------------------------------
  // Motors and scenes.
  // ---------------------------------------------------------------------

  /** Speeds of motor A (body) and motor B (hips), -100 to 100. */
  datatype Motors = Motors(a: int, b: int)

  const HALTED: Motors := Motors(0, 0)

  datatype Board = Board(motors: Motors, stopRequested: bool, emotion: string)

  /** The value of the stop flag at check `k`; checks past the input see it clear. */
  function Flag(flags: seq<bool>, k: nat): bool
  {
    k < |flags| && flags[k]
  }

  /** The first of the `n` checks from `lo` that sees the stop flag. */
  function FirstStop(flags: seq<bool>, lo: nat, n: nat): (r: Option<nat>)
    ensures r.Some? ==> lo <= r.value < lo + n && Flag(flags, r.value)
    ensures r.Some? ==> forall k :: lo <= k < r.value ==> !Flag(flags, k)
    ensures r.None? ==> forall k :: lo <= k < lo + n ==> !Flag(flags, k)
    decreases n
  {
    if n == 0 then None
    else if Flag(flags, lo) then Some(lo)
    else FirstStop(flags, lo + 1, n - 1)
  }

  /** A check that sees the stop flag: `stop_all_motors` and the flag cleared. */
  function Halted(b: Board): Board
  {
    b.(motors := HALTED, stopRequested := false)
  }

  const SHAKE_CHECKS: nat := 90
  const HIP_CHECKS: nat := 50
  const CYCLES: nat := 3
  const PHASE_CHECKS: nat := 15
  /** Checks per cycle of scene 9c5: one at the start and three phases. */
  const CYCLE_CHECKS: nat := 1 + 3 * PHASE_CHECKS
  const DELAY_CHECKS: nat := 20

  /** What `ShakeBody` leaves, the checks from `at` on being the ones it makes. */
  function ShakeBodyResult(b: Board, flags: seq<bool>, at: nat): Board
  {
    if FirstStop(flags, at, SHAKE_CHECKS).Some? then Halted(b)
    else b.(motors := b.motors.(a := 0), stopRequested := false)
  }

  /** `ShakeBody`: motor A at 100 for 90 checks, stopped at the end. */
  method ShakeBody(b: Board, flags: seq<bool>, at: nat) returns (r: Board, next: nat)
    ensures r == ShakeBodyResult(b, flags, at)
    ensures r.motors.a == 0 && !r.stopRequested
    ensures next == match FirstStop(flags, at, SHAKE_CHECKS) case Some(k) => k + 1 case None => at + SHAKE_CHECKS
  {
    var cur := b.(motors := b.motors.(a := 100));
    var i := 0;
    while i < SHAKE_CHECKS
      invariant i <= SHAKE_CHECKS
      invariant forall k :: at <= k < at + i ==> !Flag(flags, k)
    {
      if Flag(flags, at + i) {
        assert FirstStop(flags, at, SHAKE_CHECKS) == Some(at + i) by {
          FirstStopIs(flags, at, SHAKE_CHECKS, at + i);
        }
        return Halted(cur), at + i + 1;
      }
      i := i + 1;
    }
    r := cur.(motors := cur.motors.(a := 0), stopRequested := false);
    next := at + SHAKE_CHECKS;
  }

  /** The first check that sees the flag is the one `FirstStop` names. */
  lemma {:induction false} FirstStopIs(flags: seq<bool>, lo: nat, n: nat, k: nat)
    requires lo <= k < lo + n && Flag(flags, k)
    requires forall j :: lo <= j < k ==> !Flag(flags, j)
    ensures FirstStop(flags, lo, n) == Some(k)
    decreases n
  {
    if lo < k {
      FirstStopIs(flags, lo + 1, n - 1, k);
    }
  }

  /** What `ShakeHipsSpecial` leaves. */
  function ShakeHipsResult(b: Board, flags: seq<bool>, at: nat): Board
  {
    if FirstStop(flags, at, 2 * HIP_CHECKS).Some? then Halted(b)
    else b.(motors := b.motors.(b := 0), stopRequested := false)
  }

  /** `ShakeHipsSpecial`: motor B at 50 for 50 checks, then at 100 for 50
      checks, stopped at the end. */
  method ShakeHipsSpecial(b: Board, flags: seq<bool>, at: nat) returns (r: Board)
    ensures r == ShakeHipsResult(b, flags, at)
    ensures r.motors.b == 0 && !r.stopRequested
  {
    var cur := b.(motors := b.motors.(b := 50));
    var i := 0;
    while i < HIP_CHECKS
      invariant i <= HIP_CHECKS
      invariant forall k :: at <= k < at + i ==> !Flag(flags, k)
    {
      if Flag(flags, at + i) {
        FirstStopIs(flags, at, 2 * HIP_CHECKS, at + i);
        return Halted(cur);
      }
      i := i + 1;
    }
    cur := cur.(motors := cur.motors.(b := 100));
    i := 0;
    while i < HIP_CHECKS
      invariant i <= HIP_CHECKS
      invariant forall k :: at <= k < at + HIP_CHECKS + i ==> !Flag(flags, k)
    {
      if Flag(flags, at + HIP_CHECKS + i) {
        FirstStopIs(flags, at, 2 * HIP_CHECKS, at + HIP_CHECKS + i);
        return Halted(cur);
      }
      i := i + 1;
    }
    r := cur.(motors := cur.motors.(b := 0), stopRequested := false);
  }

  /** The emotion scene 9c5 shows at its check `p` (counted from its
      first): happy during the second phase of a cycle, neutral otherwise. */
  function Emotion9c5(p: nat): string
  {
    var q := p % CYCLE_CHECKS;
    if 1 + PHASE_CHECKS <= q < 1 + 2 * PHASE_CHECKS then "happy" else "neutral"
  }

  /** What scene 9c5 leaves. */
  function Scene9c5Result(b: Board, flags: seq<bool>, at: nat): Board
  {
    match FirstStop(flags, at, CYCLES * CYCLE_CHECKS)
    case Some(k) => Halted(b).(emotion := Emotion9c5(k - at))
    case None => b.(motors := b.motors.(a := 0), stopRequested := false, emotion := "neutral")
  }

  /** `ExecuteScene9c5`: three cycles, each a check and then three phases of
      15 checks with motor A at 100, showing neutral, happy, neutral. */
  method Scene9c5(b: Board, flags: seq<bool>, at: nat) returns (r: Board)
    ensures r == Scene9c5Result(b, flags, at)
    ensures !r.stopRequested
    ensures r.motors.a == 0
  {
    var cur := b.(stopRequested := false, emotion := "neutral");
    var c := 0;
    while c < CYCLES
      invariant c <= CYCLES
      invariant forall k :: at <= k < at + c * CYCLE_CHECKS ==> !Flag(flags, k)
      invariant cur.emotion == "neutral" && !cur.stopRequested
      invariant cur.motors.b == b.motors.b
    {
      var base := at + c * CYCLE_CHECKS;
      if Flag(flags, base) {
        ModInBlock(c, CYCLE_CHECKS, 0);
        StopAt9c5(b, flags, at, base, cur);
        return Halted(cur);
      }
      cur := cur.(motors := cur.motors.(a := 100));
      var phase := 0;
      while phase < 3
        invariant phase <= 3
        invariant forall k :: at <= k < base + 1 + phase * PHASE_CHECKS ==> !Flag(flags, k)
        invariant cur.emotion == (if phase == 1 then "happy" else "neutral")
        invariant !cur.stopRequested && cur.motors.b == b.motors.b
      {
        var j := 0;
        while j < PHASE_CHECKS
          invariant j <= PHASE_CHECKS
          invariant forall k :: at <= k < base + 1 + phase * PHASE_CHECKS + j ==> !Flag(flags, k)
        {
          var check := base + 1 + phase * PHASE_CHECKS + j;
          if Flag(flags, check) {
            ModInBlock(c, CYCLE_CHECKS, 1 + phase * PHASE_CHECKS + j);
            StopAt9c5(b, flags, at, check, cur);
            return Halted(cur);
          }
          j := j + 1;
        }
        phase := phase + 1;
        cur := cur.(emotion := if phase == 1 then "happy" else "neutral");
      }
      c := c + 1;
    }
    NoStop9c5(flags, at);
    r := cur.(motors := cur.motors.(a := 0));
  }

  /** A stop seen at check `k` of scene 9c5 halts it showing the emotion of
      that check. */
  lemma StopAt9c5(b: Board, flags: seq<bool>, at: nat, k: nat, cur: Board)
    requires at <= k < at + CYCLES * CYCLE_CHECKS && Flag(flags, k)
    requires forall j :: at <= j < k ==> !Flag(flags, j)
    requires cur.emotion == Emotion9c5(k - at)
    ensures Halted(cur) == Scene9c5Result(b, flags, at)
  {
    FirstStopIs(flags, at, CYCLES * CYCLE_CHECKS, k);
  }

  lemma NoStop9c5(flags: seq<bool>, at: nat)
    requires forall k :: at <= k < at + CYCLES * CYCLE_CHECKS ==> !Flag(flags, k)
    ensures FirstStop(flags, at, CYCLES * CYCLE_CHECKS).None?
  {
  }

  /** What scene 36f5 leaves: a two-second wait that a stop ends, then
      `ShakeBody`. */
  function Scene36f5Result(b: Board, flags: seq<bool>, at: nat): Board
  {
    if FirstStop(flags, at, DELAY_CHECKS).Some? then b.(stopRequested := false)
    else ShakeBodyResult(b, flags, at + DELAY_CHECKS)
  }

  /** `ExecuteScene36f5`: the wait checks the flag 20 times; a stop there
      only clears the flag. */
  method Scene36f5(b: Board, flags: seq<bool>, at: nat) returns (r: Board)
    ensures r == Scene36f5Result(b, flags, at)
    ensures !r.stopRequested
  {
    var i := 0;
    while i < DELAY_CHECKS
      invariant i <= DELAY_CHECKS
      invariant forall k :: at <= k < at + i ==> !Flag(flags, k)
    {
      if Flag(flags, at + i) {
        FirstStopIs(flags, at, DELAY_CHECKS, at + i);
        return b.(stopRequested := false);
      }
      i := i + 1;
    }
    var next;
    r, next := ShakeBody(b, flags, at + DELAY_CHECKS);
  }

  // ---------------------------------------------------------------------
  // The scene table.
  // ---------------------------------------------------------------------

  /** How a scene moves after showing its emotion. */
  datatype Motion = BodyShake | HipShake | Still | DelayedBodyShake | Cycles9c5

  /** A scene: its id in the query, the name its reply uses, its emotion
      and its motion. */
  datatype Scene = Scene(id: string, title: string, emotion: string, motion: Motion)

  const SCENES: seq<Scene> := [
    Scene("7c2", "7c2", "heart", BodyShake),
    Scene("9c5", "9c5", "neutral", Cycles9c5),
    Scene("10g1", "10g1", "bell", BodyShake),
    Scene("11g2", "11g2", "happy", BodyShake),
    Scene("12g3-1", "12g3.1", "happy2", BodyShake),
    Scene("12g3-2", "12g3.2", "happy", BodyShake),
    Scene("14h1", "14h1", "neutral", BodyShake),
    Scene("21e3", "21e3", "star", BodyShake),
    Scene("23e2", "23e2", "cookie", BodyShake),
    Scene("25d1", "25d1", "neutral", Still),
    Scene("26d2", "26d2", "star", BodyShake),
    Scene("27d3", "27d3", "happy", Still),
    Scene("28b8", "28b8", "star", BodyShake),
    Scene("30b6", "30b6", "snowman", BodyShake),
    Scene("33b7", "33b7", "happy", HipShake),
    Scene("35b5", "35b5", "happy", Still),
    Scene("36f5", "36f5", "neutral", DelayedBodyShake),
    Scene("37f4", "37f4", "elf", BodyShake),
    Scene("38f1", "38f1", "sleep", Still),
    Scene("40", "40", "happy", BodyShake)
  ]

  /** Running a scene: the flag is cleared on entry, the emotion shown,
      then the motion runs over the checks `flags`. */
  function RunScene(b: Board, scene: Scene, flags: seq<bool>): (r: Board)
    ensures !r.stopRequested
    ensures scene.motion in {BodyShake, Cycles9c5} ==> r.motors.a == 0
    ensures scene.motion == HipShake ==> r.motors.b == 0
    ensures scene.motion == Still ==> r == b.(stopRequested := false, emotion := scene.emotion)
    ensures scene.motion != Cycles9c5 ==> r.emotion == scene.emotion
  {
    var entered := b.(stopRequested := false, emotion := scene.emotion);
    match scene.motion
    case BodyShake => ShakeBodyResult(entered, flags, 0)
    case HipShake => ShakeHipsResult(entered, flags, 0)
    case Still => entered
    case DelayedBodyShake => Scene36f5Result(entered, flags, 0)
    case Cycles9c5 => Scene9c5Result(entered, flags, 0)
  }

  /** The index of the scene with id `id`, if any. */
  function FindScene(id: string): (r: Option<nat>)
    ensures r.Some? ==> r.value < |SCENES| && SCENES[r.value].id == id
    ensures r.None? <==> forall i :: 0 <= i < |SCENES| ==> SCENES[i].id != id
  {
    FindSceneFrom(id, 0)
  }

  function FindSceneFrom(id: string, i: nat): (r: Option<nat>)
    requires i <= |SCENES|
    ensures r.Some? ==> i <= r.value < |SCENES| && SCENES[r.value].id == id
    ensures r.None? <==> forall j :: i <= j < |SCENES| ==> SCENES[j].id != id
    decreases |SCENES| - i
  {
    if i == |SCENES| then None
    else if SCENES[i].id == id then Some(i)
    else FindSceneFrom(id, i + 1)
  }

  /** The twenty ids are distinct, so an id names one scene. */
  lemma SceneIdsDistinct()
    ensures |SCENES| == 20
    ensures forall i, j :: 0 <= i < j < |SCENES| ==> SCENES[i].id != SCENES[j].id
  {
  }

  datatype SceneReply = Executed(title: string) | UnknownSceneId | MissingSceneId

  /** `scene_handler`: `id` is the `id` query parameter as the HTTP server
      hands it over, None when the query or the parameter is missing. */
  function HandleScene(b: Board, id: Option<string>, flags: seq<bool>): (Board, SceneReply)
  {
    if id.None? then (b, MissingSceneId)
    else
      match FindScene(id.value)
      case None => (b, UnknownSceneId)
      case Some(i) => (RunScene(b, SCENES[i], flags), Executed(SCENES[i].title))
  }

  /** Each listed id runs exactly its scene and replies with its name; any
      other id, or none, changes nothing. */
  lemma SceneDispatch(b: Board, id: Option<string>, flags: seq<bool>)
    ensures id.None? ==> HandleScene(b, id, flags) == (b, MissingSceneId)
    ensures id.Some? && (forall i :: 0 <= i < |SCENES| ==> SCENES[i].id != id.value) ==>
      HandleScene(b, id, flags) == (b, UnknownSceneId)
    ensures forall i :: 0 <= i < |SCENES| && id == Some(SCENES[i].id) ==>
      HandleScene(b, id, flags) == (RunScene(b, SCENES[i], flags), Executed(SCENES[i].title))
  {
    SceneIdsDistinct();
  }

  /** `scene_stop_handler`: the flag raised and both motors stopped at once. */
  function SceneStop(b: Board): Board
  {
    b.(stopRequested := true, motors := HALTED)
  }

  /** A stop seen during a body shake leaves both motors stopped, whatever
      the scene had them do. */
  lemma StopHaltsShake(b: Board, scene: Scene, flags: seq<bool>, k: nat)
    requires scene.motion in {BodyShake, HipShake}
    requires k < |flags| && flags[k] && k < 2 * HIP_CHECKS && k < SHAKE_CHECKS
    ensures RunScene(b, scene, flags).motors == HALTED
  {
    var n := if scene.motion == BodyShake then SHAKE_CHECKS else 2 * HIP_CHECKS;
    assert Flag(flags, k);
  }

  // ---------------------------------------------------------------------
  // The control web server and the buttons.
  // ---------------------------------------------------------------------

  /** The server handle (non-null while started) and `web_server_active`. */
  datatype Server = Server(running: bool, active: bool)

  predicate ServerConsistent(s: Server) { s.running == s.active }

  /** `start_control_webserver`; `startOk` is what `httpd_start` returns. */
  function StartServer(s: Server, startOk: bool): Server
  {
    if s.running then s else if startOk then Server(true, true) else s
  }

  /** `stop_control_webserver`. */
  function StopServer(s: Server): Server
  {
    if s.running then Server(false, false) else s
  }

  /** Start is a no-op while a handle exists and stop without one; stop
      always leaves the server down; both keep the handle and the flag in
      step. */
  lemma ServerStartStop(s: Server, startOk: bool)
    ensures s.running ==> StartServer(s, startOk) == s
    ensures !s.running ==> StopServer(s) == s
    ensures !StopServer(s).running
    ensures ServerConsistent(s) ==> !StopServer(s).active
    ensures StopServer(StopServer(s)) == StopServer(s)
    ensures StartServer(StartServer(s, startOk), startOk) == StartServer(s, startOk)
    ensures ServerConsistent(s) ==> ServerConsistent(StartServer(s, startOk)) && ServerConsistent(StopServer(s))
    ensures !s.running && startOk ==> StartServer(s, startOk).active
  {
  }

  datatype WakeOutcome = ServerStopped | NoWifi | ServerStarted | StartFailed

  /** The wake button: stops an active server; otherwise starts one when
      Wi-Fi is connected. */
  function WakeButton(s: Server, wifiConnected: bool, startOk: bool): (Server, WakeOutcome)
  {
    if s.active then (StopServer(s), ServerStopped)
    else if !wifiConnected then (s, NoWifi)
    else
      var t := StartServer(s, startOk);
      if t.active then (t, ServerStarted) else (t, StartFailed)
  }

  /** The boot button: starts the server when Wi-Fi is connected. */
  function BootButton(s: Server, wifiConnected: bool, startOk: bool): Server
  {
    if wifiConnected then StartServer(s, startOk) else s
  }

  /** The wake button toggles a consistent server: it stops a running one,
      starts a stopped one when Wi-Fi is up and the start succeeds, and
      otherwise leaves it down. */
  lemma WakeToggles(s: Server, wifiConnected: bool, startOk: bool)
    requires ServerConsistent(s)
    ensures var t, outcome := WakeButton(s, wifiConnected, startOk).0, WakeButton(s, wifiConnected, startOk).1;
      && ServerConsistent(t)
      && (s.active ==> !t.active && outcome == ServerStopped)
      && (!s.active && !wifiConnected ==> t == s && outcome == NoWifi)
      && (!s.active && wifiConnected ==> (t.active <==> startOk) && (outcome == ServerStarted <==> startOk))
    ensures ServerConsistent(BootButton(s, wifiConnected, startOk))
    ensures s.active ==> BootButton(s, wifiConnected, startOk) == s
  {
  }

  /** Pressing wake twice with Wi-Fi up and a working start returns a
      server to where it was. */
  lemma WakeTwice(s: Server)
    requires ServerConsistent(s)
    ensures WakeButton(WakeButton(s, true, true).0, true, true).0 == s
  {
  }
}

=== FILE: string_order.dfy ===
/** Python's ordering of strings (lexicographic by code point, a proper
    prefix first) and its `sorted`, as an insertion sort on sequences. */
module StringOrder {

  /** `a <= b` in Python's string order. */
  predicate Below(a: string, b: string)
    decreases |a|
  {
    if a == [] then true
    else if b == [] then false
    else if a[0] != b[0] then a[0] < b[0]
    else Below(a[1..], b[1..])
  }

  lemma {:induction false} BelowReflexive(a: string)
    ensures Below(a, a)
    decreases |a|
  {
    if a != [] {
      BelowReflexive(a[1..]);
    }
  }

  lemma {:induction false} BelowTotal(a: string, b: string)
    ensures Below(a, b) || Below(b, a)
    decreases |a|
  {
    if a != [] && b != [] && a[0] == b[0] {
      BelowTotal(a[1..], b[1..]);
    }
  }

  lemma {:induction false} BelowAntisymmetric(a: string, b: string)
    requires Below(a, b) && Below(b, a)
    ensures a == b
    decreases |a|
  {
    if a != [] {
      BelowAntisymmetric(a[1..], b[1..]);
      assert a == [a[0]] + a[1..] && b == [b[0]] + b[1..];
    }
  }

  lemma {:induction false} BelowTransitive(a: string, b: string, c: string)
    requires Below(a, b) && Below(b, c)
    ensures Below(a, c)
    decreases |a|
  {
    if a != [] && a[0] == b[0] && b[0] == c[0] {
      BelowTransitive(a[1..], b[1..], c[1..]);
    }
  }

  predicate Sorted(s: seq<string>)
  {
    forall i, j :: 0 <= i < j < |s| ==> Below(s[i], s[j])
  }

  /** Inserts `x` before the first element it is not above. */
  function Insert(x: string, s: seq<string>): (r: seq<string>)
    requires Sorted(s)
    ensures Sorted(r)
    ensures multiset(r) == multiset(s) + multiset{x}
    decreases |s|
  {
    if s == [] then [x]
    else if Below(x, s[0]) then
      assert forall j :: 0 <= j < |s| ==> Below(x, s[j]) by {
        forall j | 0 <= j < |s|
          ensures Below(x, s[j])
        {
          if j > 0 {
            BelowTransitive(x, s[0], s[j]);
          }
        }
      }
      [x] + s
    else
      BelowTotal(x, s[0]);
      var tail := Insert(x, s[1..]);
      assert s == [s[0]] + s[1..];
      assert forall j :: 0 <= j < |tail| ==> Below(s[0], tail[j]) by {
        forall j | 0 <= j < |tail|
          ensures Below(s[0], tail[j])
        {
          assert tail[j] in multiset(tail);
          if tail[j] != x {
            assert tail[j] in multiset(s[1..]);
            var k :| 0 <= k < |s[1..]| && s[1..][k] == tail[j];
            assert s[k + 1] == tail[j];
          }
        }
      }
      [s[0]] + tail
  }

  /** Python's `sorted` on a list of strings. */
  function Sort(s: seq<string>): (r: seq<string>)
    ensures Sorted(r)
    ensures multiset(r) == multiset(s)
  {
    if s == [] then []
    else
      assert s == s[..|s| - 1] + [s[|s| - 1]];
      Insert(s[|s| - 1], Sort(s[..|s| - 1]))
  }

  /** The first of sorted strings is below every one of them. */
  lemma HeadIsLeast(s: seq<string>, x: string)
    requires Sorted(s) && x in multiset(s)
    ensures Below(s[0], x)
  {
    var j :| 0 <= j < |s| && s[j] == x;
    if j == 0 {
      BelowReflexive(x);
    }
  }

  lemma TailMultiset(s: seq<string>)
    requires s != []
    ensures multiset(s[1..]) == multiset(s) - multiset{s[0]}
  {
    assert s == [s[0]] + s[1..];
  }

  /** Two sorted arrangements of the same strings are the same sequence, so
      `Sort` is the one ordering Python's `sorted` produces. */
  lemma {:induction false} SortedUnique(a: seq<string>, b: seq<string>)
    requires Sorted(a) && Sorted(b) && multiset(a) == multiset(b)
    ensures a == b
    decreases |a|
  {
    assert |a| == |multiset(a)| == |multiset(b)| == |b|;
    if a != [] {
      HeadIsLeast(b, a[0]);
      HeadIsLeast(a, b[0]);
      BelowAntisymmetric(a[0], b[0]);
      TailMultiset(a);
      TailMultiset(b);
      SortedUnique(a[1..], b[1..]);
      assert a == [a[0]] + a[1..] && b == [b[0]] + b[1..];
    }
  }

  /** Sorting sorted strings changes nothing. */
  lemma SortSorted(s: seq<string>)
    requires Sorted(s)
    ensures Sort(s) == s
  {
    SortedUnique(Sort(s), s);
  }
}
